=== FILE: README.md ===
# Daifugo room server, modelled in Dafny

This project models the core of an online Daifugo (大富豪, "Tycoon") card game server.

- The room rules engine of `server/GameRoom.js`:
  - cards and the 53-card deck;
  - seats, joining and bot seats (NPCs);
  - dealing;
  - turn order;
  - playing cards, including the 8-clear (8切り) and the revolution (革命);
  - passing and the flush of the field (場流し);
  - the end-of-game ranking and titles;
  - the public snapshot sent to clients;
  - the bot strategy.
- The room registry of `server/server.js`:
  - validation of the `join` message;
  - join, including create-on-miss, the no-late-join rule and ghost reconnection;
  - the host-only actions;
  - the dissolution exit counter;
  - the close handler;
  - the inactivity sweep.

Everything is immutable data and pure functions. A handler that ignores a message returns the room unchanged; the `Try…` functions also say why it was ignored. The shuffled deck, the clock (`now`) and the socket ids are parameters.

Modules, one per file:

| file | module | models |
|---|---|---|
| `wrappers.dfy` | `Wrappers` | `Option`, `Result` |
| `sequences.dfy` | `Sequences` | `findIndex`, and the stable `Array.prototype.sort` with a numeric comparator |
| `cards.dfy` | `Cards` | `Card`, `rankToLabel`, `Deck`, the `{suit, rank}` descriptors of a `play` message |
| `seats.dfy` | `Seats` | `Player`, `getPlayer`, `addPlayer`, `fillNPCPlayers` |
| `rooms.dfy` | `Rooms` | the room record, `getNextAlive`, `isGameOver`, the room invariants |
| `dealing.dfy` | `Dealing` | `startGame` |
| `ranking.dfy` | `Ranking` | `endGame` |
| `play.dfy` | `Play` | `handlePlay` |
| `passing.dfy` | `Passing` | `handlePass` |
| `snapshot.dfy` | `Snapshot` | `buildState`, `broadcastState`, `sendStateToPlayer` |
| `bot.dfy` | `Bot` | `npcAction`, `checkAndHandleNPC` |
| `validation.dfy` | `Validation` | the room id and name checks of `join` |
| `registry.dfy` | `Registry` | the `rooms` table, `join`, the in-room actions, `close`, the sweep |

## How JavaScript details are modelled

- A card in a hand is identified by its position. `findIndex`/`find` return the first match. The `splice` at `server/GameRoom.js:163` removes each picked card object once, so a card picked twice leaves the hand once.
- `lastPlayedRank` is `null` on an empty field and compares as 0 (`FieldRank`).
- A descriptor's `rank` is a JSON number or a string:
  - `d.rank == 16` is loose equality, so `"16"` also names the joker;
  - `Number("")` is 0;
  - other strings are read as decimal digits or NaN.
- `String.length` counts UTF-16 code units, so a character outside the Basic Multilingual Plane counts twice against the 16-unit name limit.
- `rooms` is a plain object, so two lookups behave unusually:
  - an unset `ws.roomId` looks up the key `"undefined"`;
  - an id such as `constructor` finds an inherited property rather than a stored room.
- A loop that never ends is a distinct outcome:
  - `fillNPCPlayers` when a bot name is taken: `None`, or `Hangs` at the registry;
  - `getNextAlive` when every seat is out: excluded by a precondition, which the room invariants discharge.

## Behaviour of the code that a reader may not expect

The model follows the code in each case below.

- **`lastActive`.** One would expect only accepted actions to refresh it. The code never sets it on `join`. It sets it after every `play` or `pass` that reaches the room, including ignored ones, and after an accepted `start`/`reset` and after a `close` that neither deletes the room nor happens during a dissolution.
- **Bot flag.** One would expect a seat's bot flag to be fixed when the seat is made. The ghost path of `join` takes over a bot seat and leaves it a bot. `addPlayer`'s own rebind path would clear the flag, but `join` never reaches it for a disconnected seat.
- **Ranking on game end.** `buildState` can report `type: 'final'` with a ranking, but it is never sent: the play that ends a game has already stopped it, so the next snapshot is an `update`.
- **Faults.** A `join` to an id such as `constructor` throws outside the handler's `try`.
- **Ignored moves.** `handlePlay` and `handlePass` return silently; the sender hears nothing beyond the next broadcast.

## Model

| member | source | states |
|---|---|---|
| `Cards.LabelRoundTrip` | server/GameRoom.js:15-17 | reading a rank's label back (face letters first, then `Number`) gives the rank, for every rank from 3 up |
| `Cards.DecimalRoundTrip` | server/GameRoom.js:16 | `Number(String(n))` is `n` for every natural number |
| `Cards.FreshDeckContents` | server/GameRoom.js:21-28 | a fresh deck repeats no card, and holds exactly the 52 suit/rank cards of ranks 3..15 plus the joker |
| `Cards.FreshDeckHasOneJoker` | server/GameRoom.js:27 | the fresh deck holds one joker, the joker card of rank 16 |
| `Cards.FreshDeckCounts` | server/GameRoom.js:21-28 | every deck card occurs exactly once, nothing else occurs, 53 cards in all |
| `Cards.DescriptorsNameTheirCard` | server/GameRoom.js:132-138 | the descriptor the bot sends and the descriptor built from a label each match their own card and no other (any joker for the joker) |
| `Seats.FindPlayer` | server/GameRoom.js:69 | finds a seat exactly when some seat has the name, and it is the first such seat |
| `Seats.FindPlayerUnique` | server/GameRoom.js:69 | with unique names, the seat found is the only seat with that name |
| `Seats.AddPlayer` | server/GameRoom.js:71-80 | a name held by a connected seat is refused with the seats unchanged; a disconnected seat of that name is rebound in place, made human, hand, flag and title kept, other seats untouched; an unknown name appends exactly one new human seat |
| `Seats.AddPlayerKeepsNamesUnique` | server/GameRoom.js:71-80 | joining never creates two seats with one name |
| `Seats.NpcNameInjective` | server/GameRoom.js:84 | the bot names of different single-digit seat numbers differ |
| `Seats.FillNpcPlayers` | server/GameRoom.js:82-87 | when the loop ends the seats are topped up to four, existing seats kept, each new seat a disconnected bot named after its index |
| `Seats.FillNpcHangsIff` | server/GameRoom.js:82-87 | the loop runs forever exactly when a bot name it will try is already a seat's name |
| `Seats.NextBotKeepsLaterNames` | server/GameRoom.js:82-87 | seating bot `NPC<k>` takes none of the names the loop tries after it |
| `Seats.FillNpcKeepsNamesUnique` | server/GameRoom.js:82-87 | adding bots keeps seat names unique |
| `Rooms.NewRoomWf` | server/GameRoom.js:52-66 | a new room is well formed, waiting, and has no seats |
| `Rooms.WalkToUnfinished` | server/GameRoom.js:115-120 | the walk lands on an unfinished seat unless all are finished, and skips only finished seats |
| `Rooms.NextAlive` | server/GameRoom.js:115-120 | with some seat unfinished, the next turn is an unfinished seat and every seat skipped on the way round is finished |
| `Rooms.NextAliveMoves` | server/GameRoom.js:115-120 | with another seat still in, the turn leaves the current seat |
| `Rooms.ActiveCountPositive` | server/GameRoom.js:238 | some seat is unfinished exactly when the unfinished count is positive |
| `Rooms.ActiveCountIsSeatCount` | server/GameRoom.js:215 | the count of unfinished seats is the size of the set of unfinished seat numbers |
| `Rooms.InvariantNotGameOver` | server/GameRoom.js:238 | a room with a valid turn is never in the game-over state |
| `Dealing.DealLoopIsRoundRobin` | server/GameRoom.js:104 | the dealing loop gives seat `i` of `n` exactly the deck positions congruent to `i` modulo `n`, in deck order |
| `Dealing.DealtToSize` | server/GameRoom.js:104 | seat `i` of `n` receives `ceil((k - i) / n)` of the first `k` cards |
| `Dealing.DealLoopConserves` | server/GameRoom.js:104 | dealing hands out every card of the deck exactly once |
| `Dealing.ResetAllKeepsNames` | server/GameRoom.js:97 | clearing hands, flags and titles keeps the seat names and their uniqueness |
| `Dealing.StartGame` | server/GameRoom.js:90-112 | hangs exactly when a bot name is taken; otherwise the game runs from seat 0 with an empty field, no revolution and no pass count, at least four seats, room id and last champion kept |
| `Dealing.StartGameSeats` | server/GameRoom.js:90-105 | existing seats keep name, socket and bot flag; added seats are disconnected bots; every seat is back in, untitled, with a rank-sorted hand |
| `Dealing.StartGameDealsDeck` | server/GameRoom.js:103-105 | the hands together hold exactly the deck, and seat `i` holds the deck positions congruent to `i` |
| `Dealing.StartGameInvariant` | server/GameRoom.js:90-108 | a started game satisfies the room invariants |
| `Dealing.ShuffledDeckIsFreshDeckReordered` | server/GameRoom.js:29-34 | the decks `shuffle` can produce are exactly the rearrangements of a fresh deck, 53 cards each |
| `Dealing.StartGameDealsFullDeck` | server/GameRoom.js:103-105 | with a shuffled deck, the seats hold each deck card exactly once, no hand repeats a card |
| `Dealing.RoundRobinHandSizes` | server/GameRoom.js:104 | from 53 cards, seat `i` of `n` holds `ceil((53 - i) / n)` cards |
| `Dealing.StartGameHandSizes` | server/GameRoom.js:104 | the same for a started game; with four seats the hands hold 14, 13, 13 and 13 cards |
| `Dealing.JokerSortsLast` | server/GameRoom.js:105 | in a rank-sorted hand of distinct deck cards the joker is last |
| `Dealing.StartGameJokerLast` | server/GameRoom.js:105 | whichever seat is dealt the joker holds it as its last card |
| `Sequences.SortBy` | server/GameRoom.js:105 | the sort returns a rearrangement of its input with keys ascending |
| `Sequences.SortIndicesIsLex` | server/GameRoom.js:242 | sorting ascending indices keeps equal keys in index order: the sort is stable |
| `Ranking.TitleAtMonotone` | server/GameRoom.js:244-246 | a later ranking position never gets a better title; first is 大富豪, last is 大貧民, middle positions neither |
| `Ranking.RankingOrder` | server/GameRoom.js:242 | the ranking lists every seat once, fewer cards first, ties in seat order |
| `Ranking.RankingOrderDistinct` | server/GameRoom.js:242 | no seat appears twice in the ranking |
| `Ranking.AssignTitles` | server/GameRoom.js:244-246 | each seat gets the title of its ranking position, and only titles change |
| `Ranking.Demote` | server/GameRoom.js:247-250 | the only seat whose title changes is the first one named as the last champion, and only if it is not 大富豪 again; it becomes 大貧民 |
| `Ranking.FinishFirstUnfinished` | server/GameRoom.js:241 | only the first unfinished seat changes, and it is marked finished |
| `Ranking.EndGame` | server/GameRoom.js:240-253 | the game stops; only seats and champion change; a champion is recorded; every seat ends finished exactly when at most one was still in |
| `Ranking.EndGameSeats` | server/GameRoom.js:240-253 | hands are kept, and each seat is the closed seat with a new title |
| `Ranking.EndGameChampion` | server/GameRoom.js:242-251 | the new champion is the seat with the fewest cards (lowest seat among ties), titled 大富豪 |
| `Ranking.EndGameLastPlace` | server/GameRoom.js:242-246 | the seat with the most cards (highest seat among ties) is titled 大貧民 |
| `Ranking.EndGameRanksByHandSize` | server/GameRoom.js:242-246 | apart from a demoted champion, a seat that ranks before another never gets a worse title |
| `Ranking.EndGameDemotion` | server/GameRoom.js:247-250 | a title that departs from the ranking belongs to the first seat named as the last champion, and is 大貧民 |
| `Ranking.RankingFollowsSeats` | server/GameRoom.js:242 | when hand sizes never shrink along the seats, the ranking is seat order |
| `Ranking.EndGameIgnoresFinishingOrder` | server/GameRoom.js:240-246 | with seats 0..2 out and seat 3 holding one card, titles follow seat numbers (大富豪, 富豪, 貧民, 大貧民) whoever went out first |
| `Play.ResolveOne` | server/GameRoom.js:132-140 | a descriptor picks the first matching card of the hand, and fails exactly when none matches |
| `Play.Resolve` | server/GameRoom.js:130-142 | resolution fails exactly when some descriptor fails; otherwise it picks, for each descriptor in order, the card that descriptor picks |
| `Play.ResolveSucceedsIff` | server/GameRoom.js:130-142 | resolution succeeds exactly when every descriptor names a card in the hand |
| `Play.MatchedCardValue` | server/GameRoom.js:132-138 | a matched card is a joker exactly when its descriptor asks for one, and plays at the strength and rank the descriptor names |
| `Play.PickedCardsFollowDescriptors` | server/GameRoom.js:130-153 | the picked cards share one plain rank exactly when the plain descriptors do, and the first card plays at the first descriptor's strength |
| `Play.FieldCheck` | server/GameRoom.js:150-160 | an empty field accepts anything; otherwise a play passes exactly when it matches the field's size, the field is not the joker, and its first card is strictly stronger in the current direction |
| `Play.CheckTurn` | server/GameRoom.js:125-127 | the guard passes exactly when the game runs, the first seat with the name is still in, and the turn seat has the name; each failure is named |
| `Play.TryPlay` | server/GameRoom.js:124-202 | turn-guard failures are reported as such; an accepted play is non-empty and every descriptor names a card in the sender's hand |
| `Play.HandlePlay` | server/GameRoom.js:124-202 | the room is unchanged exactly when the play is refused, in both directions; an accepted play gives the room `TryPlay` computes |
| `Play.PlayAcceptedIff` | server/GameRoom.js:124-160 | a play is accepted exactly when the rules stated on hand, descriptors and field hold (turn, cards in hand, one plain rank, size, joker on field, strength) |
| `Play.PlaceCards` | server/GameRoom.js:162-186 | placing the cards changes no other seat and keeps the sender's name, the running flag, the turn, the room id and the last champion |
| `Play.AfterPlay` | server/GameRoom.js:188-198 | a game-over play runs the end of game; an 8 clears the field, keeps the turn unless the sender went out, and changes nothing else; otherwise the turn moves to the next seat still in, skipping only finished seats |
| `Play.KeepAndPickSplitHand` | server/GameRoom.js:163 | the cards `splice` leaves and the positions it removes, each once, together are the hand |
| `Play.PickedOnceIsPlayed` | server/GameRoom.js:163 | when the picked positions are pairwise different, the removed cards are exactly the played cards |
| `Play.PlayTakesCards` | server/GameRoom.js:163 | an accepted play shrinks the sender's hand, keeps its order, and, when distinct cards were picked, hand left plus cards played is the old hand |
| `Play.RepeatedDescriptorAccepted` | server/GameRoom.js:138-140 | two copies of one descriptor resolve to the same card, and the play is accepted on an empty field |
| `Play.OnlyOnePositionDropped` | server/GameRoom.js:163 | removing a card picked twice takes only one card from the hand |
| `Play.RepeatedDescriptorPlaysOneCardTwice` | server/GameRoom.js:130-170 | a repeated descriptor puts one card on the field twice, as a pair, while the hand loses one card |
| `Play.PlayField` | server/GameRoom.js:166-186 | an accepted play records the move and its effects, makes the sender the field owner, resets passes, flips the revolution exactly when it toggles, and sets the field to the cards played unless an 8 cleared it; a play that leaves the game running keeps the last champion |
| `Play.RevolutionReadsFirstCardOnly` | server/GameRoom.js:175-178 | the same four cards flip the revolution when the joker is last and not when it is first |
| `Play.PlayEndsGameIff` | server/GameRoom.js:181-189 | the play ends the game exactly when at most one seat is still in after counting the sender's hand; a game that goes on changes no other seat and marks the sender out exactly when their hand is empty |
| `Play.PlayTurn` | server/GameRoom.js:191-198 | after an 8 the turn stays unless the sender went out; otherwise it lands on a seat still in and skips only finished seats |
| `Play.PlayKeepsWf` | server/GameRoom.js:162-198 | plays keep turn pointer, field owner and field fields consistent |
| `Play.PlayKeepsNames` | server/GameRoom.js:124-202 | plays keep every seat name, and so their uniqueness |
| `Play.PlayKeepsTurnValid` | server/GameRoom.js:181-198 | while the game runs after a play, two or more seats are in and the turn is on one of them |
| `Play.HandlePlayKeepsInvariant` | server/GameRoom.js:124-202 | every play keeps the room invariants |
| `Passing.PassesNeeded` | server/GameRoom.js:215-219 | the flush needs as many passes as there are seats still in other than the field's owner, counted as a set of seat numbers |
| `Passing.Passed` | server/GameRoom.js:211-229 | a counted pass keeps seats, revolution and owner, and leaves the turn on an unfinished seat |
| `Passing.TryPass` | server/GameRoom.js:205-235 | a pass is accepted exactly when the turn guard passes and the field is not empty; each refusal is named |
| `Passing.HandlePass` | server/GameRoom.js:205-235 | the room is unchanged exactly when the pass is refused, in both directions; an accepted pass gives the room `TryPass` computes |
| `Passing.PassFlushesIff` | server/GameRoom.js:211-229 | the field empties exactly when the pass completes the passes needed; a flush resets the count, otherwise the count grows by one and the field stays; owner, revolution and room id are kept, and a pass that leaves the game running keeps the last champion |
| `Passing.PassTurn` | server/GameRoom.js:220-229 | a flush returns the turn to the owner if still in; otherwise the turn moves forward skipping only finished seats |
| `Passing.PassEndsGameIff` | server/GameRoom.js:231 | a pass ends the game exactly when at most one seat was already in |
| `Passing.PassKeepsSeats` | server/GameRoom.js:205-235 | a pass keeps every hand and every seat name |
| `Passing.HandlePassKeepsInvariant` | server/GameRoom.js:205-235 | every pass keeps the room invariants and never ends a game that satisfies them |
| `Passing.RoundOfPassesReturnsToOwner` | server/GameRoom.js:214-225 | with four seats in, three passes after seat 0's play move the turn 1→2→3 and then flush the field back to seat 0 |
| `Snapshot.CardLabelInjective` | server/GameRoom.js:12-14 | different deck cards have different labels |
| `Snapshot.PlaySpecialRoundTrip` | server/GameRoom.js:184-186 | a play's `special` text names exactly the effects that fired, and is null when none did |
| `Snapshot.ViewMove` | server/GameRoom.js:270-273 | the move shown keeps the player and says play or pass; a play shows its cards' labels and a `special` from which exactly its effects read back; a pass shows no cards and a `special` exactly when it flushed |
| `Snapshot.BuildState` | server/GameRoom.js:256-275 | `final`, `gameOver` and the ranking appear exactly in the game-over state; the current turn is named exactly while the game runs; each seat shows its name, card count, finished flag and `connected \|\| isNPC`; the field shows its cards' labels; room id, revolution and the last move carry over |
| `Snapshot.SnapshotHidesHands` | server/GameRoom.js:263-265 | rooms that differ only in hand contents (same sizes) give the same snapshot |
| `Snapshot.InvariantSnapshotIsUpdate` | server/GameRoom.js:257-269 | a room keeping the invariants is sent as `update` with no ranking |
| `Snapshot.AcceptedPlayNeverFinal` | server/GameRoom.js:238-269 | after any accepted play the snapshot is `update` without ranking: the titles of a finished game are never sent |
| `Snapshot.AcceptedPassNeverFinal` | server/GameRoom.js:231-269 | the same after any accepted pass |
| `Snapshot.SendToSeats` | server/GameRoom.js:279-283 | every message carries the snapshot and goes to a reachable seat with that seat's own hand; every reachable seat gets one |
| `Snapshot.Broadcast` | server/GameRoom.js:277-284 | each connected seat gets the room's snapshot and its own hand, and no socket gets another seat's hand |
| `Snapshot.SendStateTo` | server/GameRoom.js:285-290 | a message is sent exactly when the first seat with the name is reachable, with that seat's hand |
| `Snapshot.SendStateToIsBroadcastMessage` | server/GameRoom.js:277-290 | a direct send is the very message the broadcast gives that seat |
| `Bot.RankGroup` | server/GameRoom.js:317-321 | the group of a rank holds exactly the hand's plain cards of that rank |
| `Bot.LowestGroup` | server/GameRoom.js:322-328 | the rank chosen is the lowest one with a large enough group that beats the field; none when no rank qualifies |
| `Bot.NpcDecide` | server/GameRoom.js:300-334 | idle exactly when out; faults exactly when opening from an empty hand; never passes on an empty field; passes exactly when no rank qualifies and the joker fallback fails; plays cards from its hand of one plain rank, one card on an empty field, else the field's count beating the field |
| `Bot.NpcActionIgnoredIff` | server/GameRoom.js:300-337 | on its turn, the bot's action leaves the room unchanged exactly when it proposes a play onto the joker, which happens only under revolution |
| `Bot.NpcPlaysLowestGroup` | server/GameRoom.js:316-332 | on a non-empty field the bot plays the first `need` cards of the lowest qualifying rank, or the joker alone when no rank qualifies |
| `Bot.BotDescriptorMatches` | server/GameRoom.js:335 | the descriptor sent for a card in hand matches a card in hand at the card's strength and rank |
| `Bot.BotDescriptorsInHand` | server/GameRoom.js:335 | every descriptor the bot sends names a card in its hand |
| `Bot.BotDescriptorsValue` | server/GameRoom.js:335 | every descriptor the bot sends plays at its card's strength |
| `Bot.NpcPlayAcceptedIff` | server/GameRoom.js:305-335 | on its turn, the bot's play is accepted exactly when the field is not the joker |
| `Bot.NpcStallsOnJokerUnderRevolution` | server/GameRoom.js:293-310 | under revolution with the joker on the field the bot proposes a play that is ignored, so the room stays as it was with the bot still due (`Bot.NpcDue`, the condition under which `checkAndHandleNPC` schedules the bot) |
| `Bot.NpcPassesOnJokerNormally` | server/GameRoom.js:312-336 | outside revolution the joker on the field makes the bot pass |
| `Bot.NpcOpeningAccepted` | server/GameRoom.js:313-314 | on an empty field the bot plays its first card, and that play is accepted |
| `Validation.Utf16Length` | server/server.js:69 | a string's length in code units is at least its length in characters |
| `Validation.Utf16LengthBmp` | server/server.js:64 | a string of BMP characters is as long in code units as in characters |
| `Validation.Utf16LengthAstral` | server/server.js:69 | a string of astral characters is twice as long in code units |
| `Validation.FirstOutside` | server/server.js:64 | no position fails exactly when every character is in the class; a reported position is outside it |
| `Validation.RoomIdAccepted` | server/server.js:64 | an accepted room id is present and is as long in code units as in characters |
| `Validation.RoomIdAcceptedIff` | server/server.js:64 | a room id is accepted exactly when it has 1 to 32 characters, each a letter, digit, `_` or `-` |
| `Validation.NameAcceptedIff` | server/server.js:69 | a name is accepted exactly when it is non-empty, at most 16 code units, with no whitespace or control character |
| `Validation.NameLengthLimit` | server/server.js:69 | sixteen letters are an acceptable name, seventeen are not |
| `Validation.NameLengthCountsCodeUnits` | server/server.js:69 | eight emoji are an acceptable name, nine are not |
| `Validation.UndefinedIsARoomId` | server/server.js:64 | the text `undefined` is an acceptable room id |
| `Registry.FindGhost` | server/server.js:104 | finds the first disconnected seat with the name, and none exactly when there is no such seat |
| `Registry.Join` | server/server.js:61-129 | refusals in the source's order (room id, name, name in another room); an inherited id throws; an accepted join records the session, adds at most the joined room and changes no other room |
| `Registry.JoinToConstructorThrows` | server/server.js:88-104 | `constructor` passes the id check, yet a join to it throws |
| `Registry.JoinNoLateJoin` | server/server.js:96-101 | a started room refuses a name it does not seat |
| `Registry.JoinNameInUse` | server/server.js:103-121 | a name held by a connected seat is refused with `addPlayer`'s error, so a live seat cannot be taken over |
| `Registry.JoinSeatsNewName` | server/server.js:88-128 | a new name in a waiting room appends exactly one seat; a missing room is created holding that seat and no activity time |
| `Registry.JoinRebindsGhost` | server/server.js:103-114 | a disconnected seat of that name gets the socket and is connected, with no seat added and nothing else changed |
| `Registry.JoinTakesOverBotSeat` | server/server.js:103-114 | a human joining under a bot's name takes its seat, which stays a bot and, holding the turn, is still played by the bot |
| `Registry.HostStart` | server/server.js:142-160 | the host's start of a waiting room takes effect: the room becomes the started game and its activity time is `now`; it hangs exactly when dealing hangs; anyone else, or a running game, changes nothing |
| `Registry.Act` | server/server.js:131-207 | no stored room for the socket's key gives `NoSuchRoom`; only start and reset can hang; sessions, room set and other rooms are kept |
| `Registry.PlayMessageChecked` | server/server.js:162-172 | a `cards` field that is not 1 to 5 entries is refused before the room; otherwise the room's play decides and the activity time is refreshed even for an ignored play |
| `Registry.StartMessageHostOnly` | server/server.js:142-160 | `start` and `reset` from the host of a waiting room give the started game with the activity time `now`, or hang when dealing hangs; from anyone else or to a running game they change nothing |
| `Registry.PassMessageRefreshes` | server/server.js:174-178 | a `pass` always reaches the room's pass handler under the socket's name and refreshes the activity time, accepted or not; nothing else changes |
| `Registry.OtherMessageRefused` | server/server.js:204-206 | a message of any other type gets the unknown-type reply once the room is found |
| `Registry.DissolveArmsCounter` | server/server.js:180-202 | the host's `dissolve` arms the exit counter with the number of seats, bots included; anyone else changes nothing |
| `Registry.UnjoinedSocketReachesUndefinedRoom` | server/server.js:131-178 | a socket that never joined acts on the room stored under `undefined` |
| `Registry.MarkDisconnected` | server/server.js:218-223 | the first seat with the socket's name is marked disconnected with no socket and every other seat is kept; with no name or no such seat, nothing changes |
| `Registry.Close` | server/server.js:214-244 | the session is forgotten, no room is added, and rooms other than the socket's are untouched |
| `Registry.CloseCountsExits` | server/server.js:218-234 | while dissolving each close marks the socket's seat disconnected and counts one exit, leaving the activity time alone; the room goes exactly when exits reach the seat count |
| `Registry.CloseDeletesWhenEmpty` | server/server.js:218-243 | otherwise a close marks the socket's seat disconnected and removes the room exactly when no seat is left connected; a surviving room differs only in that seat and a refreshed activity time |
| `Registry.CloseKeepsDissolvingRoom` | server/server.js:225-234 | a close below the count keeps a dissolving room and adds at most one exit |
| `Registry.DissolvingRoomOutlivesCloses` | server/server.js:225-234 | a dissolving room survives any run of closes shorter than the exits it still waits for |
| `Registry.DissolutionWaitsForBots` | server/server.js:180-234 | in a four-seat room (one human and three bots after a start), once the host dissolves, up to three closes leave the room in place: exits are counted per close, and the bots have no socket to close |
| `Registry.Sweep` | server/server.js:248-266 | a room survives exactly when at most five minutes have passed since its activity time, unset counting as 0; survivors are unchanged |
| `Registry.FreshRoomIsSwept` | server/server.js:88-94 | a room just created by a join is removed by any sweep after time 300000 |
| `Registry.JoinKeepsRegistryOk` | server/server.js:88-128 | joins keep every stored room valid and filed under its own, non-inherited id |
| `Registry.ActKeepsRegistryOk` | server/server.js:139-207 | in-room actions keep the registry invariants |
| `Registry.CloseKeepsRegistryOk` | server/server.js:214-244 | closes keep the registry invariants |
| `Registry.SweepKeepsRegistryOk` | server/server.js:248-266 | sweeps keep the registry invariants |
| `Registry.EmptyRegistryOk` | server/server.js:16 | the server starts with a registry that keeps the invariants |
| `Registry.StepKeepsRegistryOk` | server/server.js:60-207 | every message handled to completion by `Registry.Step`, the dispatch of `join` to `Registry.Join` and of every other message to `Registry.Act`, keeps the registry valid |

## Left out

- I/O: WebSocket, express, HTTP, `JSON.parse`/`stringify`, logging. Sends become message values (`Snapshot.Message`); `room-deleted` and error texts are not modelled.
- Timers: the 500 ms bot delay and the 60 s sweep interval. `NpcAction` and `Sweep` are called explicitly, with `now` as a parameter.
- Randomness: `Math.random` in `shuffle`. The deck is a parameter, and `IsShuffledDeck` describes the decks `shuffle` can produce.
- Descriptor shapes outside `{suit: string, rank: number or string}`:
  - a `null` entry is the only one that throws inside `handlePlay` (caught as an internal error); it is not modelled;
  - a number, string or boolean entry reads `suit` and `rank` as `undefined` and names no card, and a non-string suit fails `c.suit === d.suit`; the model has no such descriptor;
  - ranks that are neither integers nor strings (fractions, arrays, booleans, `null`) are not modelled; an array such as `[16]` or `["16"]` satisfies the loose `d.rank == 16` and would name the joker.
- `Number` on strings with whitespace, signs, decimals, exponents or hex. Such strings are NaN here, so they name no card.
- `Bot.LowestGroup`: only ranks 3..15 are scanned. Only deck cards reach a hand, so no other rank can hold a group.
- `Bot.NpcDecide`: its ensures do not restate which joker is played. `Bot.NpcPlaysLowestGroup` states it.
- `Registry.Act`: its ensures state the room lookup and what no message may change. The effect of each message type is stated by `Registry.StartMessageHostOnly`, `Registry.PlayMessageChecked`, `Registry.PassMessageRefreshes`, `Registry.DissolveArmsCounter` and `Registry.OtherMessageRefused`.
- `Play.AfterPlay`: its ensures do not say the turn seat is unfinished in the 8-clear case where the sender stays. `Play.PlayTurn` states where the turn goes.
- `Snapshot.ViewMove`: the difference between `special: null` and an absent `special` in the JSON is not modelled.
- Hung handlers:
  - `fillNPCPlayers` hanging ends the model's message (`Hangs`);
  - `getNextAlive` with every seat out is excluded by the room invariants, which every handler keeps.
- The `try` around the in-room actions: an exception there (malformed descriptors) is not modelled.
- A socket that joins a second time: its first seat stays bound to it, and `Registry` keeps only the latest session.
- The sweep closing sockets and marking seats disconnected: the room is deleted in the same step, so only the deletion is modelled.
- `_deleteTimer`: declared in the room but never used.
- Parallel handlers: Node.js runs handlers one at a time, so the model applies messages in sequence.
- Bot names across rooms: names like `NPC1` can appear in many rooms. The cross-room name check of `join` then refuses a human called `NPC1`; the model reproduces this through `NameElsewhere` without a dedicated lemma.
- `public/client.js` is not part of this model.

=== FILE: bot.dfy ===
/** The bot seats' strategy (server/GameRoom.js `checkAndHandleNPC`,
    `npcAction`): open with the first card in hand; otherwise play the
    lowest-ranked group of plain cards that is big enough and beats the field,
    fall back on the joker for a single, and pass when nothing qualifies. The
    move goes through the same `handlePlay` / `handlePass` as a human's. */
module Bot {
  import opened Wrappers
  import opened Sequences
  import opened Cards
  import opened Seats
  import opened Rooms
  import opened Play
  import opened Passing

  /** What `npcAction` decides. `NpcIdle`: the seat is already out and it
      returns; `NpcFault`: it opens from an empty hand, where `pl.hand[0]` is
      undefined and building the descriptor throws. */
  datatype NpcChoice = NpcIdle | NpcPlay(cards: seq<Card>) | NpcPass | NpcFault

  /** `canBeat(rank)`: anything beats an empty field; otherwise lower under
      revolution and higher normally, against the field rank (`null` as 0). */
  predicate CanBeat(room: Room, rank: int) {
    FieldEmpty(room) || Stronger(rank, room)
  }

  /** `groups[r]`: the plain (non-joker) cards of rank `r`, in hand order. */
  function RankGroup(hand: seq<Card>, r: int): (g: seq<Card>)
    ensures forall c :: multiset(g)[c] == if !c.IsJoker() && c.rank == r then multiset(hand)[c] else 0
    ensures forall i :: 0 <= i < |g| ==> !g[i].IsJoker() && g[i].rank == r && g[i] in hand
    ensures |g| <= |hand|
  {
    if |hand| == 0 then []
    else
      assert hand == [hand[0]] + hand[1..];
      var rest := RankGroup(hand[1..], r);
      if !hand[0].IsJoker() && hand[0].rank == r then [hand[0]] + rest else rest
  }

  /** Rank `r` has a group (some plain card of that rank) of at least `need`
      cards, and it beats the field. */
  predicate Qualifies(room: Room, hand: seq<Card>, need: nat, r: int) {
    var g := RankGroup(hand, r);
    |g| > 0 && |g| >= need && CanBeat(room, r)
  }

  /** The first qualifying rank from `lo` up to 15 (`Object.entries` lists the
      integer keys 3..15 in ascending order). */
  function LowestGroup(room: Room, hand: seq<Card>, need: nat, lo: int): (r: Option<int>)
    ensures r.Some? ==> lo <= r.value <= MaxRank && Qualifies(room, hand, need, r.value)
    ensures r.Some? ==> forall q :: lo <= q < r.value ==> !Qualifies(room, hand, need, q)
    ensures r.None? ==> forall q :: lo <= q <= MaxRank ==> !Qualifies(room, hand, need, q)
    decreases MaxRank + 1 - lo
  {
    if lo > MaxRank then None
    else if Qualifies(room, hand, need, lo) then Some(lo)
    else LowestGroup(room, hand, need, lo + 1)
  }

  /** The joker fallback: a joker in hand, a single on the field, and the joker's
      16 beats it. */
  predicate JokerFallback(room: Room, hand: seq<Card>) {
    && FirstWhere(hand, (c: Card) => c.IsJoker()).Some?
    && room.lastPlayedCount == 1
    && CanBeat(room, JokerValue)
  }

  /** `npcAction(pl)` for seat `k`, up to the handler call. */
  function NpcDecide(room: Room, k: nat): (r: NpcChoice)
    requires k < |room.players|
    ensures r == NpcIdle <==> room.players[k].finished
    ensures r == NpcFault <==> !room.players[k].finished && FieldEmpty(room) && |room.players[k].hand| == 0
    ensures FieldEmpty(room) ==> !r.NpcPass?
    ensures r.NpcPass? <==>
      && !room.players[k].finished && !FieldEmpty(room)
      && (forall q :: MinRank <= q <= MaxRank ==> !Qualifies(room, room.players[k].hand, room.lastPlayedCount, q))
      && !JokerFallback(room, room.players[k].hand)
    ensures r.NpcPlay? ==> forall i :: 0 <= i < |r.cards| ==> r.cards[i] in room.players[k].hand
    ensures r.NpcPlay? ==> SingleRank(r.cards)
    ensures r.NpcPlay? && FieldEmpty(room) ==> |r.cards| == 1
    ensures r.NpcPlay? && !FieldEmpty(room) ==>
      |r.cards| == room.lastPlayedCount && (|r.cards| > 0 ==> CanBeat(room, RankValue(r.cards[0])))
  {
    var pl := room.players[k];
    if pl.finished then NpcIdle
    else if FieldEmpty(room) then
      if |pl.hand| == 0 then NpcFault else NpcPlay([pl.hand[0]])
    else
      var need := room.lastPlayedCount;
      match LowestGroup(room, pl.hand, need, MinRank)
      case Some(r) => NpcPlay(RankGroup(pl.hand, r)[..need])
      case None =>
        if JokerFallback(room, pl.hand) then
          NpcPlay([pl.hand[FirstWhere(pl.hand, (c: Card) => c.IsJoker()).value]])
        else NpcPass
  }

  /** `play.map(c => ({suit: c.suit, rank: c.rank}))`. */
  function Descs(cards: seq<Card>): (r: seq<Descriptor>)
    ensures |r| == |cards| && forall i :: 0 <= i < |cards| ==> r[i] == DescriptorOf(cards[i])
  {
    seq(|cards|, i requires 0 <= i < |cards| => DescriptorOf(cards[i]))
  }

  /** `npcAction(pl)` for seat `k`: the handler call it makes. `None` is the
      exception of opening from an empty hand. */
  function NpcAction(room: Room, k: nat): (r: Option<Room>)
    requires TurnInRange(room) && OwnerInRange(room) && k < |room.players|
    ensures r.None? <==> NpcDecide(room, k) == NpcFault
    ensures NpcDecide(room, k) == NpcIdle ==> r == Some(room)
    ensures NpcDecide(room, k).NpcPlay? ==>
      r == Some(HandlePlay(room, room.players[k].name, Descs(NpcDecide(room, k).cards)))
    ensures NpcDecide(room, k).NpcPass? ==> r == Some(HandlePass(room, room.players[k].name))
  {
    match NpcDecide(room, k)
    case NpcIdle => Some(room)
    case NpcFault => None
    case NpcPlay(cards) => Some(HandlePlay(room, room.players[k].name, Descs(cards)))
    case NpcPass => Some(HandlePass(room, room.players[k].name))
  }

  /** `checkAndHandleNPC`: the seat on turn is a bot still in, so its action is
      scheduled. */
  predicate NpcDue(room: Room)
    requires TurnInRange(room)
  {
    room.started && room.players[room.currentTurn].isNpc && !room.players[room.currentTurn].finished
  }

  // ---------------------------------------------------------------------------
  // What the strategy does.

  /** On a non-empty field the bot plays the lowest qualifying rank's first
      `need` cards; it falls back on the joker only when no rank qualifies. */
  lemma NpcPlaysLowestGroup(room: Room, k: nat)
    requires k < |room.players| && !FieldEmpty(room)
    requires NpcDecide(room, k).NpcPlay?
    ensures var hand, need := room.players[k].hand, room.lastPlayedCount;
      var cards := NpcDecide(room, k).cards;
      || (exists r :: MinRank <= r <= MaxRank && Qualifies(room, hand, need, r)
            && (forall q :: MinRank <= q < r ==> !Qualifies(room, hand, need, q))
            && cards == RankGroup(hand, r)[..need])
      || (&& (forall q :: MinRank <= q <= MaxRank ==> !Qualifies(room, hand, need, q))
          && JokerFallback(room, hand) && |cards| == 1 && cards[0].IsJoker())
  {
    var hand, need := room.players[k].hand, room.lastPlayedCount;
    var cards := NpcDecide(room, k).cards;
    var low := LowestGroup(room, hand, need, MinRank);
    if low.Some? {
      var r := low.value;
      assert cards == RankGroup(hand, r)[..need];
      assert MinRank <= r <= MaxRank && Qualifies(room, hand, need, r);
    } else {
      assert JokerFallback(room, hand);
      var j := FirstWhere(hand, (c: Card) => c.IsJoker()).value;
      assert cards == [hand[j]];
    }
  }

  /** The descriptor the bot sends for a card of its hand names that card: it
      matches a card in hand and plays at the card's strength and rank. */
  lemma BotDescriptorMatches(c: Card, hand: seq<Card>)
    requires forall i :: 0 <= i < |hand| ==> IsDeckCard(hand[i])
    requires c in hand
    ensures InHand(hand, DescriptorOf(c))
    ensures DescriptorValue(DescriptorOf(c)) == Some(RankValue(c))
    ensures IsJokerDescriptor(DescriptorOf(c)) <==> c.IsJoker()
    ensures !c.IsJoker() ==> DescriptorRank(DescriptorOf(c)) == Some(c.rank)
  {
    var j :| 0 <= j < |hand| && hand[j] == c;
    DescriptorsNameTheirCard(c, c);
    MatchedCardValue(DescriptorOf(c), hand[j]);
  }

  /** Every card the bot chose is named by its descriptor. */
  lemma BotDescriptorsInHand(cards: seq<Card>, hand: seq<Card>)
    requires forall i :: 0 <= i < |hand| ==> IsDeckCard(hand[i])
    requires forall i :: 0 <= i < |cards| ==> cards[i] in hand
    ensures forall i :: 0 <= i < |cards| ==> InHand(hand, Descs(cards)[i])
  {
    forall i | 0 <= i < |cards|
      ensures InHand(hand, Descs(cards)[i])
    {
      BotDescriptorMatches(cards[i], hand);
    }
  }

  /** Every card the bot chose plays at the strength and rank its descriptor says. */
  lemma BotDescriptorsValue(cards: seq<Card>, hand: seq<Card>)
    requires forall i :: 0 <= i < |hand| ==> IsDeckCard(hand[i])
    requires forall i :: 0 <= i < |cards| ==> cards[i] in hand
    ensures forall i :: 0 <= i < |cards| ==> DescriptorValue(Descs(cards)[i]) == Some(RankValue(cards[i]))
    ensures forall i :: 0 <= i < |cards| ==> (IsJokerDescriptor(Descs(cards)[i]) <==> cards[i].IsJoker())
    ensures forall i :: 0 <= i < |cards| && !cards[i].IsJoker() ==> DescriptorRank(Descs(cards)[i]) == Some(cards[i].rank)
  {
    forall i | 0 <= i < |cards| {
      BotDescriptorMatches(cards[i], hand);
    }
  }

  /** When it is the bot's turn, `handlePlay` accepts the bot's play exactly when
      the field is not the joker. */
  lemma NpcPlayAcceptedIff(room: Room, k: nat)
    requires Invariant(room) && room.started && room.currentTurn == k
    requires forall i :: 0 <= i < |room.players[k].hand| ==> IsDeckCard(room.players[k].hand[i])
    requires NpcDecide(room, k).NpcPlay?
    ensures TryPlay(room, room.players[k].name, Descs(NpcDecide(room, k).cards)).Success?
            <==> (FieldEmpty(room) || room.lastPlayedRank != Some(JokerValue))
  {
    var name := room.players[k].name;
    var descs := Descs(NpcDecide(room, k).cards);
    FindPlayerUnique(room.players, name, k);
    PlayAcceptedIff(room, name, descs);
    NpcDescsFit(room, k);
    if FieldEmpty(room) || room.lastPlayedRank != Some(JokerValue) {
      assert PlayAllowed(room, name, descs);
    }
  }

  /** The bot's descriptors name cards of its hand, all of one rank, as many as
      the field holds and stronger than it. */
  lemma NpcDescsFit(room: Room, k: nat)
    requires Invariant(room) && room.started && room.currentTurn == k
    requires forall i :: 0 <= i < |room.players[k].hand| ==> IsDeckCard(room.players[k].hand[i])
    requires NpcDecide(room, k).NpcPlay?
    ensures var hand, cards := room.players[k].hand, NpcDecide(room, k).cards;
      var descs := Descs(cards);
      && |descs| > 0
      && (forall i :: 0 <= i < |descs| ==> InHand(hand, descs[i]))
      && (forall i, j :: 0 <= i < |descs| && 0 <= j < |descs| && !IsJokerDescriptor(descs[i]) && !IsJokerDescriptor(descs[j]) ==>
            DescriptorRank(descs[i]) == DescriptorRank(descs[j]))
      && (!FieldEmpty(room) ==>
            && |descs| == room.lastPlayedCount
            && DescriptorValue(descs[0]).Some?
            && Stronger(DescriptorValue(descs[0]).value, room))
  {
    var hand, cards := room.players[k].hand, NpcDecide(room, k).cards;
    BotDescriptorsInHand(cards, hand);
    BotDescriptorsValue(cards, hand);
    assert |cards| > 0;
  }

  /** The bot stalls the game: under revolution, with the joker alone on the
      field and a plain card in hand, every plain rank "beats" 16, so the bot
      proposes a play; `handlePlay` refuses it because nothing beats the joker,
      and the room is left exactly as it was, with the turn still on the bot. */
  lemma NpcStallsOnJokerUnderRevolution(room: Room, k: nat, c: Card)
    requires Invariant(room) && room.started && room.currentTurn == k
    requires room.players[k].isNpc
    requires forall i :: 0 <= i < |room.players[k].hand| ==> IsDeckCard(room.players[k].hand[i])
    requires room.revolution && !FieldEmpty(room)
    requires room.lastPlayedRank == Some(JokerValue) && room.lastPlayedCount == 1
    requires c in room.players[k].hand && !c.IsJoker()
    ensures NpcDecide(room, k).NpcPlay?
    ensures NpcDue(room) && NpcAction(room, k) == Some(room)
  {
    var hand := room.players[k].hand;
    assert IsDeckCard(c);
    assert RankGroup(hand, c.rank) != [] by {
      assert multiset(RankGroup(hand, c.rank))[c] == multiset(hand)[c] > 0;
    }
    assert Qualifies(room, hand, 1, c.rank);
    assert !NpcDecide(room, k).NpcPass?;
    NpcPlayAcceptedIff(room, k);
  }

  /** On its turn the bot's action leaves the room as it was exactly when it
      proposes a play onto the joker, which happens only under revolution; every
      other action moves the game on. */
  lemma NpcActionIgnoredIff(room: Room, k: nat)
    requires Invariant(room) && room.started && room.currentTurn == k
    requires forall i :: 0 <= i < |room.players[k].hand| ==> IsDeckCard(room.players[k].hand[i])
    ensures TurnInRange(room) && OwnerInRange(room)
    ensures NpcAction(room, k) == Some(room) <==>
      room.revolution && !FieldEmpty(room) && room.lastPlayedRank == Some(JokerValue) && NpcDecide(room, k).NpcPlay?
  {
    var name := room.players[k].name;
    var d := NpcDecide(room, k);
    if !room.revolution && !FieldEmpty(room) && room.lastPlayedRank == Some(JokerValue) {
      NpcPassesOnJokerNormally(room, k);
    }
    if d.NpcPlay? {
      NpcPlayAcceptedIff(room, k);
    } else if d.NpcPass? {
      FindPlayerUnique(room.players, name, k);
      assert TryPass(room, name).Success?;
    }
  }

  /** Outside revolution the joker on the field makes the bot pass: no plain rank
      and not the joker itself is above 16. */
  lemma NpcPassesOnJokerNormally(room: Room, k: nat)
    requires k < |room.players| && !room.players[k].finished
    requires forall i :: 0 <= i < |room.players[k].hand| ==> IsDeckCard(room.players[k].hand[i])
    requires !room.revolution && !FieldEmpty(room) && room.lastPlayedRank == Some(JokerValue)
    ensures NpcDecide(room, k) == NpcPass
  {
  }

  /** Opening a trick: the bot plays its first card, and when it holds the turn
      that play is accepted. */
  lemma NpcOpeningAccepted(room: Room, k: nat)
    requires Invariant(room) && room.started && room.currentTurn == k
    requires forall i :: 0 <= i < |room.players[k].hand| ==> IsDeckCard(room.players[k].hand[i])
    requires FieldEmpty(room) && |room.players[k].hand| > 0
    ensures NpcDecide(room, k) == NpcPlay([room.players[k].hand[0]])
    ensures TryPlay(room, room.players[k].name, Descs([room.players[k].hand[0]])).Success?
  {
    NpcPlayAcceptedIff(room, k);
  }
}

=== FILE: cards.dfy ===
/** Cards, their labels, the 53-card deck, and the `{suit, rank}` descriptors a
    client sends to name a card in its hand (server/GameRoom.js, `Card`, `Deck`
    and the resolution loop of `handlePlay`). */
module Cards {
  import opened Wrappers
  import opened Sequences

  /** Clubs, diamonds, hearts and spades, plus the joker's pseudo-suit `'J'`. */
  datatype Suit = Clubs | Diamonds | Hearts | Spades | JokerSuit

  /** A card. Ranks run 3..15 (11 = J, 12 = Q, 13 = K, 14 = A, 15 = 2);
      the joker is dealt with rank 16. */
  datatype Card = Card(suit: Suit, rank: int) {
    predicate IsJoker() { suit == JokerSuit }
  }

  const MinRank: int := 3
  const MaxRank: int := 15
  /** The joker's comparison value: above every other rank. */
  const JokerValue: int := 16
  /** Any non-joker card of this rank in a play clears the field. */
  const ClearRank: int := 8
  const DeckSize: nat := 53

  const JokerCard: Card := Card(JokerSuit, JokerValue)

  /** The suit string carried by a card and by a descriptor. */
  function SuitSymbol(s: Suit): string {
    match s
    case Clubs => "♣"
    case Diamonds => "♦"
    case Hearts => "♥"
    case Spades => "♠"
    case JokerSuit => "J"
  }

  /** The strength a card plays at: the joker is worth 16 whatever its rank field. */
  function RankValue(c: Card): (v: int)
    ensures c.IsJoker() ==> v == JokerValue
    ensures !c.IsJoker() ==> v == c.rank
  {
    if c.IsJoker() then JokerValue else c.rank
  }

  // ---------------------------------------------------------------------------
  // Decimal text, as produced by `String(n)` and read back by `Number(s)`.

  predicate IsDigit(ch: char) { '0' <= ch <= '9' }

  predicate AllDigits(s: string) { forall i :: 0 <= i < |s| ==> IsDigit(s[i]) }

  function DigitChar(d: nat): (ch: char)
    requires d < 10
    ensures IsDigit(ch)
    ensures ch as int - '0' as int == d
  {
    ('0' as int + d) as char
  }

  function DigitValue(ch: char): nat
    requires IsDigit(ch)
  {
    ch as int - '0' as int
  }

  /** `String(n)` for a non-negative integer. */
  function NatToDecimal(n: nat): (s: string)
    ensures |s| >= 1
    ensures AllDigits(s)
  {
    if n < 10 then [DigitChar(n)] else NatToDecimal(n / 10) + [DigitChar(n % 10)]
  }

  /** `String(n)` for any integer. */
  function IntToDecimal(n: int): string {
    if n < 0 then "-" + NatToDecimal(-n) else NatToDecimal(n)
  }

  /** The value of a string of decimal digits (most significant first). */
  function DecimalValue(s: string): nat
    requires AllDigits(s)
  {
    if |s| == 0 then 0 else DecimalValue(s[..|s| - 1]) * 10 + DigitValue(s[|s| - 1])
  }

  lemma {:induction false} DecimalRoundTrip(n: nat)
    ensures DecimalValue(NatToDecimal(n)) == n
  {
    var s := NatToDecimal(n);
    if n >= 10 {
      DecimalRoundTrip(n / 10);
      assert s[..|s| - 1] == NatToDecimal(n / 10);
    }
  }

  /** JavaScript's `Number(s)` on the strings this model distinguishes: the empty
      string is 0, a string of decimal digits is its value, anything else is NaN
      (`None`). */
  function JsNumber(s: string): (r: Option<int>)
    ensures r.Some? ==> r.value >= 0
    ensures AllDigits(s) ==> r.Some?
  {
    if |s| == 0 then Some(0)
    else if AllDigits(s) then Some(DecimalValue(s))
    else None
  }

  // ---------------------------------------------------------------------------
  // Labels.

  /** `Card.rankToLabel`: face letters for 11..15, decimal text otherwise. */
  function RankToLabel(r: int): string {
    if r == 11 then "J"
    else if r == 12 then "Q"
    else if r == 13 then "K"
    else if r == 14 then "A"
    else if r == 15 then "2"
    else IntToDecimal(r)
  }

  /** The inverse map `handlePlay` applies to a textual rank: face letters first,
      then `Number`. */
  function LabelToRank(s: string): Option<int> {
    if s == "J" then Some(11)
    else if s == "Q" then Some(12)
    else if s == "K" then Some(13)
    else if s == "A" then Some(14)
    else if s == "2" then Some(15)
    else JsNumber(s)
  }

  /** Reading back the label of any rank from 3 upwards gives that rank. */
  lemma LabelRoundTrip(r: int)
    requires r >= MinRank
    ensures LabelToRank(RankToLabel(r)) == Some(r)
  {
    if r < 11 || r > 15 {
      var s := NatToDecimal(r);
      DecimalRoundTrip(r);
      assert s != "J" && s != "Q" && s != "K" && s != "A" by {
        assert IsDigit(s[0]);
      }
      assert DecimalValue("2") == 2;
    }
  }

  /** `Card.toString`: `"Joker"`, or the suit symbol followed by the rank label. */
  function CardLabel(c: Card): string {
    if c.IsJoker() then "Joker" else SuitSymbol(c.suit) + RankToLabel(c.rank)
  }

  // ---------------------------------------------------------------------------
  // The deck.

  const Suits: seq<Suit> := [Clubs, Diamonds, Hearts, Spades]

  /** The cards a fresh deck holds. */
  predicate IsDeckCard(c: Card) {
    (!c.IsJoker() && MinRank <= c.rank <= MaxRank) || c == JokerCard
  }

  /** The thirteen cards of one suit, ranks 3..15 in order. */
  function SuitRun(s: Suit): (run: seq<Card>)
    ensures |run| == 13
    ensures forall i :: 0 <= i < 13 ==> run[i] == Card(s, MinRank + i)
  {
    seq(13, i requires 0 <= i < 13 => Card(s, MinRank + i))
  }

  /** `new Deck(true).cards`, before shuffling: clubs, diamonds, hearts, spades,
      each from rank 3 to 15, then the joker. */
  function FreshDeck(): (deck: seq<Card>)
    ensures |deck| == DeckSize
    ensures forall i :: 0 <= i < 52 ==> deck[i] == Card(Suits[i / 13], MinRank + i % 13)
    ensures deck[52] == JokerCard
  {
    SuitRun(Clubs) + SuitRun(Diamonds) + SuitRun(Hearts) + SuitRun(Spades) + [JokerCard]
  }

  /** A fresh deck holds each of the 52 (suit, rank) pairs and the joker exactly once. */
  lemma FreshDeckContents()
    ensures Distinct(FreshDeck())
    ensures forall c :: c in FreshDeck() <==> IsDeckCard(c)
  {
    var deck := FreshDeck();
    forall i, j | 0 <= i < j < |deck| ensures deck[i] != deck[j] {
      if j < 52 {
        assert i / 13 != j / 13 || i % 13 != j % 13;
      }
    }
    forall c | IsDeckCard(c) ensures c in deck {
      if c != JokerCard {
        var k := match c.suit case Clubs => 0 case Diamonds => 1 case Hearts => 2 case _ => 3;
        var i := 13 * k + (c.rank - MinRank);
        assert deck[i] == c;
      }
    }
  }

  /** Exactly one joker, and it is the joker card. */
  lemma FreshDeckHasOneJoker()
    ensures forall c :: c in FreshDeck() && c.IsJoker() ==> c == JokerCard
    ensures multiset(FreshDeck())[JokerCard] == 1
  {
    FreshDeckContents();
    DistinctCountsOnce(FreshDeck(), JokerCard);
  }

  /** Every deck card occurs once in a fresh deck and nothing else occurs. */
  lemma FreshDeckCounts()
    ensures forall c :: multiset(FreshDeck())[c] == (if IsDeckCard(c) then 1 else 0)
    ensures |multiset(FreshDeck())| == DeckSize
  {
    FreshDeckContents();
    forall c ensures multiset(FreshDeck())[c] == (if IsDeckCard(c) then 1 else 0) {
      DistinctCountsOnce(FreshDeck(), c);
    }
  }

  // ---------------------------------------------------------------------------
  // Descriptors sent by clients.

  /** A descriptor's `rank` as JSON delivers it: a number, or a string label. */
  datatype DescRank = NumRank(n: int) | TextRank(text: string)

  /** One entry of a `play` message's `cards` array. */
  datatype Descriptor = Descriptor(suit: string, rank: DescRank)

  /** The number JavaScript's loose `d.rank == 16` compares against 16. */
  function LooseNumber(r: DescRank): Option<int> {
    match r
    case NumRank(n) => Some(n)
    case TextRank(t) => JsNumber(t)
  }

  /** `d.suit === 'J' || d.rank == 16`: the descriptor asks for the joker. */
  predicate IsJokerDescriptor(d: Descriptor) {
    d.suit == "J" || LooseNumber(d.rank) == Some(JokerValue)
  }

  /** The rank a non-joker descriptor names; `None` is NaN, which matches no card. */
  function DescriptorRank(d: Descriptor): Option<int> {
    match d.rank
    case NumRank(n) => Some(n)
    case TextRank(t) => LabelToRank(t)
  }

  /** Card `c` is one `handlePlay` would accept for descriptor `d`. */
  predicate Matches(d: Descriptor, c: Card) {
    if IsJokerDescriptor(d) then c.IsJoker()
    else !c.IsJoker() && SuitSymbol(c.suit) == d.suit && DescriptorRank(d) == Some(c.rank)
  }

  /** The descriptor the bot sends for one of its cards: `{suit: c.suit, rank: c.rank}`. */
  function DescriptorOf(c: Card): Descriptor {
    Descriptor(SuitSymbol(c.suit), NumRank(c.rank))
  }

  /** The descriptor a browser builds from a card's label: the first character as
      suit and the rest as rank, or `{suit: 'J', rank: '16'}` for `"Joker"`. */
  function LabelDescriptor(c: Card): Descriptor {
    if c.IsJoker() then Descriptor("J", TextRank("16"))
    else Descriptor(SuitSymbol(c.suit), TextRank(RankToLabel(c.rank)))
  }

  lemma SuitSymbolInjective(a: Suit, b: Suit)
    ensures SuitSymbol(a) == SuitSymbol(b) <==> a == b
  {
    if a != b {
      assert SuitSymbol(a)[0] != SuitSymbol(b)[0];
    }
  }

  /** Both the bot's descriptor and the label descriptor of a deck card name that
      card and no other: the joker descriptor takes any joker, any other names the
      one card with that suit and rank. */
  lemma DescriptorsNameTheirCard(c: Card, other: Card)
    requires IsDeckCard(c)
    ensures Matches(DescriptorOf(c), other) <==> (if c.IsJoker() then other.IsJoker() else other == c)
    ensures Matches(LabelDescriptor(c), other) <==> (if c.IsJoker() then other.IsJoker() else other == c)
  {
    SuitSymbolInjective(c.suit, other.suit);
    if !c.IsJoker() {
      LabelRoundTrip(c.rank);
      assert SuitSymbol(c.suit) != "J";
      var text := RankToLabel(c.rank);
      if c.rank < 11 {
        DecimalRoundTrip(c.rank);
        assert JsNumber(text) == Some(c.rank);
      } else {
        assert JsNumber(text) != Some(JokerValue) by {
          assert text[0] != '1';
        }
      }
    } else {
      assert JsNumber("16") == Some(16) by {
        assert DecimalValue("16") == DecimalValue("1") * 10 + 6 by {
          assert "16"[..1] == "1";
        }
      }
    }
  }
}

=== FILE: dealing.dfy ===
/** `startGame` (server/GameRoom.js): reset the seats, top the room up with bots,
    deal a shuffled deck round-robin from seat 0 and sort every hand by rank.
    The shuffle itself is a parameter: `deck` is the deck after `shuffle()`. */
module Dealing {
  import opened Wrappers
  import opened Sequences
  import opened Cards
  import opened Seats
  import opened Rooms

  // ---------------------------------------------------------------------------
  // Integer facts the round-robin needs.

  lemma MulAtLeast(a: int, n: int)
    requires a >= 1 && n > 0
    ensures a * n >= n
  {
  }

  /** Euclidean division is unique. */
  lemma DivModUnique(x: int, n: int, q: int, r: int)
    requires n > 0 && 0 <= r < n && x == q * n + r
    ensures x % n == r && x / n == q
  {
    var q', r' := x / n, x % n;
    assert (q - q') * n == r' - r;
    if q > q' { MulAtLeast(q - q', n); }
    if q' > q { MulAtLeast(q' - q, n); }
  }

  lemma ModSucc(k: nat, n: nat)
    requires n > 0
    ensures (k % n + 1) % n == (k + 1) % n
  {
    var q, r := k / n, k % n;
    if r + 1 < n {
      DivModUnique(k + 1, n, q, r + 1);
      DivModUnique(r + 1, n, 0, r + 1);
    } else {
      DivModUnique(k + 1, n, q + 1, 0);
      DivModUnique(r + 1, n, 1, 0);
    }
  }

  lemma DivStep(m: nat, n: nat)
    requires n > 0
    ensures (m + 1) / n == m / n + (if (m + 1) % n == 0 then 1 else 0)
  {
    var q, r := m / n, m % n;
    if r + 1 < n {
      DivModUnique(m + 1, n, q, r + 1);
    } else {
      DivModUnique(m + 1, n, q + 1, 0);
    }
  }

  lemma ShiftedModZero(k: nat, n: nat, i: nat)
    requires i < n
    ensures (k + n - i) % n == 0 <==> k % n == i
  {
    var q, r := k / n, k % n;
    if r == i {
      DivModUnique(k + n - i, n, q + 1, 0);
    } else if r > i {
      DivModUnique(k + n - i, n, q + 1, r - i);
    } else {
      DivModUnique(k + n - i, n, q, r - i + n);
    }
  }

  // ---------------------------------------------------------------------------
  // Round-robin dealing.

  /** The dealing loop: hand the next card to seat `idx`, then move to
      `(idx + 1) % n`. */
  function DealLoop(hands: seq<seq<Card>>, cards: seq<Card>, idx: nat): (r: seq<seq<Card>>)
    requires idx < |hands|
    ensures |r| == |hands|
    decreases |cards|
  {
    if |cards| == 0 then hands
    else DealLoop(hands[idx := hands[idx] + [cards[0]]], cards[1..], (idx + 1) % |hands|)
  }

  /** The cards among the first `k` of `deck` whose position is `i` modulo `n`,
      in deck order: what seat `i` of `n` receives. */
  function DealtTo(deck: seq<Card>, n: nat, i: nat, k: nat): seq<Card>
    requires n > 0 && k <= |deck|
  {
    if k == 0 then []
    else DealtTo(deck, n, i, k - 1) + (if (k - 1) % n == i then [deck[k - 1]] else [])
  }

  function RoundRobin(deck: seq<Card>, n: nat, k: nat): (hands: seq<seq<Card>>)
    requires n > 0 && k <= |deck|
    ensures |hands| == n
  {
    seq(n, i requires 0 <= i < n => DealtTo(deck, n, i, k))
  }

  /** The dealing loop gives seat `i` exactly the deck positions congruent to `i`. */
  lemma {:induction false} DealLoopIsRoundRobin(deck: seq<Card>, n: nat, k: nat)
    requires n > 0 && k <= |deck|
    ensures DealLoop(RoundRobin(deck, n, k), deck[k..], k % n) == RoundRobin(deck, n, |deck|)
    decreases |deck| - k
  {
    if k < |deck| {
      var hands := RoundRobin(deck, n, k);
      var idx := k % n;
      var next := hands[idx := hands[idx] + [deck[k]]];
      forall i | 0 <= i < n ensures next[i] == RoundRobin(deck, n, k + 1)[i] {
        assert DealtTo(deck, n, i, k + 1) == DealtTo(deck, n, i, k) + (if k % n == i then [deck[k]] else []);
      }
      assert next == RoundRobin(deck, n, k + 1);
      assert deck[k..][1..] == deck[k + 1..];
      ModSucc(k, n);
      DealLoopIsRoundRobin(deck, n, k + 1);
    }
  }

  /** Seat `i` of `n` receives one card out of every `n`, counting from position `i`:
      `ceil((k - i) / n)` of the first `k`. */
  lemma {:induction false} DealtToSize(deck: seq<Card>, n: nat, i: nat, k: nat)
    requires n > 0 && i < n && k <= |deck|
    ensures |DealtTo(deck, n, i, k)| == (k + n - 1 - i) / n
  {
    if k == 0 {
      DivModUnique(n - 1 - i, n, 0, n - 1 - i);
    } else {
      DealtToSize(deck, n, i, k - 1);
      DivStep(k - 1 + n - 1 - i, n);
      ShiftedModZero(k - 1, n, i);
    }
  }

  /** All cards held across a list of hands. */
  function AllCards(hands: seq<seq<Card>>): multiset<Card> {
    if |hands| == 0 then multiset{} else multiset(hands[0]) + AllCards(hands[1..])
  }

  lemma {:induction false} AllCardsAppend(hands: seq<seq<Card>>, i: nat, c: Card)
    requires i < |hands|
    ensures AllCards(hands[i := hands[i] + [c]]) == AllCards(hands) + multiset{c}
  {
    if i == 0 {
      assert hands[i := hands[i] + [c]][1..] == hands[1..];
    } else {
      AllCardsAppend(hands[1..], i - 1, c);
      assert hands[i := hands[i] + [c]][1..] == hands[1..][i - 1 := hands[i] + [c]];
    }
  }

  lemma {:induction false} AllCardsContains(hands: seq<seq<Card>>, i: nat)
    requires i < |hands|
    ensures multiset(hands[i]) <= AllCards(hands)
  {
    if i > 0 {
      AllCardsContains(hands[1..], i - 1);
    }
  }

  lemma {:induction false} AllCardsSameMultisets(a: seq<seq<Card>>, b: seq<seq<Card>>)
    requires |a| == |b|
    requires forall i :: 0 <= i < |a| ==> multiset(a[i]) == multiset(b[i])
    ensures AllCards(a) == AllCards(b)
  {
    if |a| > 0 {
      AllCardsSameMultisets(a[1..], b[1..]);
    }
  }

  /** Dealing hands out every card once. */
  lemma {:induction false} DealLoopConserves(hands: seq<seq<Card>>, cards: seq<Card>, idx: nat)
    requires idx < |hands|
    ensures AllCards(DealLoop(hands, cards, idx)) == AllCards(hands) + multiset(cards)
    decreases |cards|
  {
    if |cards| > 0 {
      AllCardsAppend(hands, idx, cards[0]);
      DealLoopConserves(hands[idx := hands[idx] + [cards[0]]], cards[1..], (idx + 1) % |hands|);
      assert cards == [cards[0]] + cards[1..];
    }
  }

  /** `n` empty hands. */
  function EmptyHands(n: nat): (hands: seq<seq<Card>>)
    ensures |hands| == n
    ensures forall i :: 0 <= i < n ==> hands[i] == []
  {
    seq(n, i => [])
  }

  lemma {:induction false} AllCardsOfEmptyHands(n: nat)
    ensures AllCards(EmptyHands(n)) == multiset{}
  {
    if n > 0 {
      assert EmptyHands(n)[1..] == EmptyHands(n - 1);
      AllCardsOfEmptyHands(n - 1);
    }
  }

  // ---------------------------------------------------------------------------
  // startGame.

  /** `p.hand = []; p.finished = false; p.rankTitle = ''`. */
  function ResetSeat(p: Player): Player {
    p.(hand := [], finished := false, title := Untitled)
  }

  /** Every seat reset, as `startGame` does before adding bots. */
  function ResetAll(players: seq<Player>): (r: seq<Player>)
    ensures |r| == |players|
    ensures forall i :: 0 <= i < |players| ==> r[i] == ResetSeat(players[i])
  {
    seq(|players|, i requires 0 <= i < |players| => ResetSeat(players[i]))
  }

  lemma ResetAllKeepsNames(players: seq<Player>)
    ensures forall k :: NameTaken(ResetAll(players), k) <==> NameTaken(players, k)
    ensures NamesUnique(players) ==> NamesUnique(ResetAll(players))
  {
    var reset := ResetAll(players);
    forall k ensures NameTaken(reset, k) <==> NameTaken(players, k) {
      if NameTaken(reset, k) {
        var i :| 0 <= i < |reset| && reset[i].name == k;
        assert players[i].name == k;
      }
      if NameTaken(players, k) {
        var i :| 0 <= i < |players| && players[i].name == k;
        assert reset[i].name == k;
      }
    }
  }

  /** The comparator key of `hand.sort((a, b) => a.rank - b.rank)`. */
  function RankKey(c: Card): int { c.rank }

  /** The dealt hands of `startGame` for `n` seats. */
  function Deal(deck: seq<Card>, n: nat): (hands: seq<seq<Card>>)
    requires n > 0
    ensures |hands| == n
  {
    DealLoop(EmptyHands(n), deck, 0)
  }

  /** Each seat takes its dealt cards, sorted by rank. */
  function TakeHands(seated: seq<Player>, dealt: seq<seq<Card>>): (r: seq<Player>)
    requires |dealt| == |seated|
    ensures |r| == |seated|
    ensures forall i :: 0 <= i < |seated| ==> r[i] == seated[i].(hand := SortBy(dealt[i], RankKey))
  {
    seq(|seated|, i requires 0 <= i < |seated| => seated[i].(hand := SortBy(dealt[i], RankKey)))
  }

  /** The hands of the seats, in seat order. */
  function Hands(players: seq<Player>): (hands: seq<seq<Card>>)
    ensures |hands| == |players|
    ensures forall i :: 0 <= i < |players| ==> hands[i] == players[i].hand
  {
    seq(|players|, i requires 0 <= i < |players| => players[i].hand)
  }

  /** `startGame()` with `deck` standing for the shuffled deck. `None` is the case
      where `fillNPCPlayers` never returns. */
  function StartGame(room: Room, deck: seq<Card>): (r: Option<Room>)
    ensures r.None? <==>
            exists k :: |room.players| <= k < SeatTarget && NameTaken(room.players, NpcName(k))
    ensures r.Some? ==>
      var g := r.value;
      && g.started && g.currentTurn == 0 && !g.revolution
      && FieldEmpty(g) && g.lastPlayedRank.None? && g.lastPlayedCount == 0
      && g.lastPlayerIndex.None? && g.passCount == 0 && g.lastMove.None?
      && g.roomId == room.roomId && g.lastChampion == room.lastChampion
      && |g.players| == (if |room.players| < SeatTarget then SeatTarget else |room.players|)
  {
    var reset := ResetAll(room.players);
    ResetAllKeepsNames(room.players);
    FillNpcHangsIff(reset);
    match FillNpcPlayers(reset)
    case None => None
    case Some(seated) =>
      Some(room.(
        started := true, revolution := false,
        lastPlayedCards := [], lastPlayedRank := None, lastPlayedCount := 0,
        lastPlayerIndex := None, passCount := 0, lastMove := None,
        players := TakeHands(seated, Deal(deck, |seated|)), currentTurn := 0))
  }

  /** The seats `startGame` produces: existing seats keep their identity, new
      seats are bots named after their index, and every seat is back in the game
      with no title and a rank-sorted hand. */
  lemma StartGameSeats(room: Room, deck: seq<Card>)
    requires StartGame(room, deck).Some?
    ensures var g := StartGame(room, deck).value;
      && (forall i :: 0 <= i < |room.players| ==>
            var p, q := g.players[i], room.players[i];
            p.name == q.name && p.conn == q.conn && p.connected == q.connected && p.isNpc == q.isNpc)
      && (forall i :: |room.players| <= i < |g.players| ==>
            var p := g.players[i];
            p.name == NpcName(i) && p.isNpc && !p.connected && p.conn.None?)
      && (forall i :: 0 <= i < |g.players| ==>
            var p := g.players[i];
            !p.finished && p.title == Untitled && SortedBy(p.hand, RankKey))
  {
    var g := StartGame(room, deck).value;
    var reset := ResetAll(room.players);
    var seated := FillNpcPlayers(reset).value;
    assert g.players == TakeHands(seated, Deal(deck, |seated|));
    forall i | 0 <= i < |room.players| ensures seated[i] == reset[i] {
      assert seated[..|reset|][i] == seated[i];
    }
  }

  /** The seats of a started game hold exactly the cards of the deck, and seat
      `i` of `n` holds (in rank order) the deck positions congruent to `i`. */
  lemma StartGameDealsDeck(room: Room, deck: seq<Card>)
    requires StartGame(room, deck).Some?
    ensures var g := StartGame(room, deck).value;
      && AllCards(Hands(g.players)) == multiset(deck)
      && forall i :: 0 <= i < |g.players| ==>
           multiset(g.players[i].hand) == multiset(DealtTo(deck, |g.players|, i, |deck|))
  {
    var g := StartGame(room, deck).value;
    var seated := FillNpcPlayers(ResetAll(room.players)).value;
    var n := |seated|;
    var dealt := Deal(deck, n);
    assert g.players == TakeHands(seated, dealt);
    DealLoopConserves(EmptyHands(n), deck, 0);
    AllCardsOfEmptyHands(n);
    AllCardsSameMultisets(Hands(g.players), dealt);
    DealLoopIsRoundRobin(deck, n, 0);
    assert RoundRobin(deck, n, 0) == EmptyHands(n);
    assert deck[0..] == deck;
  }

  /** The seats of a started game are the reset, topped-up seats holding their
      dealt hands. */
  lemma StartGamePlayers(room: Room, deck: seq<Card>)
    requires StartGame(room, deck).Some?
    ensures var seated := FillNpcPlayers(ResetAll(room.players));
      && seated.Some?
      && StartGame(room, deck).value.players == TakeHands(seated.value, Deal(deck, |seated.value|))
  {
  }

  /** A started game satisfies every room invariant: the turn is seat 0, which
      is unfinished, at least four seats play, and names stay unique. */
  lemma StartGameInvariant(room: Room, deck: seq<Card>)
    requires NamesUnique(room.players)
    requires StartGame(room, deck).Some?
    ensures Invariant(StartGame(room, deck).value)
  {
    var g := StartGame(room, deck).value;
    StartGameSeats(room, deck);
    ActiveCountNoneFinished(g.players);
    var reset := ResetAll(room.players);
    ResetAllKeepsNames(room.players);
    FillNpcKeepsNamesUnique(reset);
    StartGamePlayers(room, deck);
    var seated := FillNpcPlayers(reset).value;
    SameNamesKeepUnique(seated, g.players);
    assert Wf(g) && TurnValid(g);
  }

  // ---------------------------------------------------------------------------
  // Dealing a full deck.

  /** A deck that `shuffle()` could produce: each deck card exactly once, in
      some order. */
  ghost predicate IsShuffledDeck(deck: seq<Card>) {
    forall c :: multiset(deck)[c] == (if IsDeckCard(c) then 1 else 0)
  }

  /** The shuffled decks are exactly the rearrangements of a fresh deck, and
      they hold 53 cards. */
  lemma ShuffledDeckIsFreshDeckReordered(deck: seq<Card>)
    ensures IsShuffledDeck(deck) <==> multiset(deck) == multiset(FreshDeck())
    ensures IsShuffledDeck(deck) ==> |deck| == DeckSize
  {
    FreshDeckCounts();
    if IsShuffledDeck(deck) {
      assert multiset(deck) == multiset(FreshDeck());
      assert |deck| == |multiset(deck)|;
    }
  }

  /** Hands that together hold a shuffled deck hold each deck card exactly once
      and nothing else; no hand repeats a card. */
  lemma ShuffledDeckHands(hands: seq<seq<Card>>, deck: seq<Card>)
    requires IsShuffledDeck(deck)
    requires AllCards(hands) == multiset(deck)
    ensures forall i :: 0 <= i < |hands| ==> Distinct(hands[i])
    ensures forall i, c :: 0 <= i < |hands| && c in hands[i] ==> IsDeckCard(c)
  {
    forall i | 0 <= i < |hands|
      ensures Distinct(hands[i])
      ensures forall c :: c in hands[i] ==> IsDeckCard(c)
    {
      HandOfShuffledDeck(hands, deck, i);
    }
  }

  lemma HandOfShuffledDeck(hands: seq<seq<Card>>, deck: seq<Card>, i: nat)
    requires IsShuffledDeck(deck)
    requires AllCards(hands) == multiset(deck)
    requires i < |hands|
    ensures Distinct(hands[i])
    ensures forall c :: c in hands[i] ==> IsDeckCard(c)
  {
    var h := hands[i];
    AllCardsContains(hands, i);
    assert forall c :: multiset(h)[c] <= multiset(deck)[c];
    AtMostOnceIsDistinct(h);
    forall c | c in h ensures IsDeckCard(c) {
      assert multiset(h)[c] >= 1;
    }
  }

  /** With a shuffled deck the seats of a started game together hold each deck
      card exactly once, 53 in all, and nothing else; no hand repeats a card. */
  lemma StartGameDealsFullDeck(room: Room, deck: seq<Card>)
    requires IsShuffledDeck(deck)
    requires StartGame(room, deck).Some?
    ensures var g := StartGame(room, deck).value;
      && |AllCards(Hands(g.players))| == DeckSize
      && (forall c :: AllCards(Hands(g.players))[c] == (if IsDeckCard(c) then 1 else 0))
      && (forall i :: 0 <= i < |g.players| ==> Distinct(g.players[i].hand))
      && (forall i, c :: 0 <= i < |g.players| && c in g.players[i].hand ==> IsDeckCard(c))
  {
    var g := StartGame(room, deck).value;
    StartGameDealsDeck(room, deck);
    ShuffledDeckIsFreshDeckReordered(deck);
    ShuffledDeckHands(Hands(g.players), deck);
  }

  /** Hands dealt round-robin from a 53-card deck: seat `i` of `n` holds
      `ceil((53 - i) / n)` cards. */
  lemma RoundRobinHandSizes(hands: seq<seq<Card>>, deck: seq<Card>)
    requires |hands| > 0 && |deck| == DeckSize
    requires forall i :: 0 <= i < |hands| ==>
      multiset(hands[i]) == multiset(DealtTo(deck, |hands|, i, |deck|))
    ensures forall i :: 0 <= i < |hands| ==> |hands[i]| == (DeckSize + |hands| - 1 - i) / |hands|
  {
    var n := |hands|;
    forall i | 0 <= i < n ensures |hands[i]| == (DeckSize + n - 1 - i) / n {
      var dealt := DealtTo(deck, n, i, |deck|);
      assert |hands[i]| == |multiset(hands[i])| == |multiset(dealt)| == |dealt|;
      DealtToSize(deck, n, i, |deck|);
    }
  }

  /** Seat `i` of `n` is dealt `ceil((53 - i) / n)` cards: with four seats,
      14, 13, 13 and 13. */
  lemma StartGameHandSizes(room: Room, deck: seq<Card>)
    requires IsShuffledDeck(deck)
    requires StartGame(room, deck).Some?
    ensures var g := StartGame(room, deck).value;
      && (forall i :: 0 <= i < |g.players| ==>
            |g.players[i].hand| == (DeckSize + |g.players| - 1 - i) / |g.players|)
      && (|g.players| == 4 ==>
            |g.players[0].hand| == 14 && |g.players[1].hand| == 13
            && |g.players[2].hand| == 13 && |g.players[3].hand| == 13)
  {
    var g := StartGame(room, deck).value;
    StartGameDealsDeck(room, deck);
    ShuffledDeckIsFreshDeckReordered(deck);
    SeatHandSizes(g.players, deck);
    if |g.players| == 4 {
      FourSeatShares();
    }
  }

  /** Seats holding the round-robin shares of a 53-card deck. */
  lemma SeatHandSizes(players: seq<Player>, deck: seq<Card>)
    requires |players| > 0 && |deck| == DeckSize
    requires forall i :: 0 <= i < |players| ==>
      multiset(players[i].hand) == multiset(DealtTo(deck, |players|, i, |deck|))
    ensures forall i :: 0 <= i < |players| ==> |players[i].hand| == (DeckSize + |players| - 1 - i) / |players|
  {
    var hands := Hands(players);
    RoundRobinHandSizes(hands, deck);
  }

  /** 53 cards over four seats: 14, 13, 13, 13. */
  lemma FourSeatShares()
    ensures (DeckSize + 4 - 1 - 0) / 4 == 14 && (DeckSize + 4 - 1 - 1) / 4 == 13
    ensures (DeckSize + 4 - 1 - 2) / 4 == 13 && (DeckSize + 4 - 1 - 3) / 4 == 13
  {
  }

  /** Wherever the joker lands, it is the last card of its hand. */
  lemma StartGameJokerLast(room: Room, deck: seq<Card>)
    requires IsShuffledDeck(deck)
    requires StartGame(room, deck).Some?
    ensures var g := StartGame(room, deck).value;
      forall i :: 0 <= i < |g.players| && JokerCard in g.players[i].hand ==>
        g.players[i].hand[|g.players[i].hand| - 1] == JokerCard
  {
    var g := StartGame(room, deck).value;
    StartGameDealsFullDeck(room, deck);
    StartGameSeats(room, deck);
    SeatsJokerLast(g.players);
  }

  lemma SeatsJokerLast(players: seq<Player>)
    requires forall i :: 0 <= i < |players| ==> SortedBy(players[i].hand, RankKey) && Distinct(players[i].hand)
    requires forall i, c :: 0 <= i < |players| && c in players[i].hand ==> IsDeckCard(c)
    ensures forall i :: 0 <= i < |players| && JokerCard in players[i].hand ==>
      players[i].hand[|players[i].hand| - 1] == JokerCard
  {
    forall i | 0 <= i < |players| && JokerCard in players[i].hand
      ensures players[i].hand[|players[i].hand| - 1] == JokerCard
    {
      JokerSortsLast(players[i].hand);
    }
  }

  /** In a rank-sorted hand of distinct deck cards the joker comes last. */
  lemma JokerSortsLast(h: seq<Card>)
    requires SortedBy(h, RankKey)
    requires Distinct(h)
    requires forall c :: c in h ==> IsDeckCard(c)
    ensures JokerCard in h ==> h[|h| - 1] == JokerCard
  {
    if JokerCard in h {
      var p :| 0 <= p < |h| && h[p] == JokerCard;
      var last := |h| - 1;
      assert RankKey(h[p]) <= RankKey(h[last]) || p == last;
      assert h[last] in h;
    }
  }
}

=== FILE: passing.dfy ===
/** `handlePass` (server/GameRoom.js): a seat declines to beat the field; once
    enough seats have passed in a row the field is flushed (場流し) and the turn
    goes back to the seat that played it, if that seat is still in. */
module Passing {
  import opened Wrappers
  import opened Cards
  import opened Seats
  import opened Rooms
  import opened Ranking
  import opened Play

  /** `this.players[this.lastPlayerIndex]` is read on every pass; it must be a seat. */
  predicate OwnerInRange(room: Room) {
    room.lastPlayerIndex.Some? ==> room.lastPlayerIndex.value < |room.players|
  }

  /** The seat that played the field has not gone out. */
  predicate OwnerStillIn(room: Room)
    requires OwnerInRange(room)
  {
    room.lastPlayerIndex.Some? && !room.players[room.lastPlayerIndex.value].finished
  }

  /** The field owner's seat number, if the field has one. */
  function OwnerSeat(room: Room): set<nat> {
    if room.lastPlayerIndex.Some? then {room.lastPlayerIndex.value} else {}
  }

  /** How many passes in a row flush the field: one from every seat still in
      other than the field's owner. */
  function PassesNeeded(room: Room): (r: int)
    requires OwnerInRange(room)
    ensures r == |ActiveSeats(room.players) - OwnerSeat(room)|
  {
    ActiveCountIsSeatCount(room.players);
    if OwnerStillIn(room) then
      assert ActiveSeats(room.players) - OwnerSeat(room) + {room.lastPlayerIndex.value} == ActiveSeats(room.players);
      ActiveCount(room.players) - 1
    else
      assert ActiveSeats(room.players) - OwnerSeat(room) == ActiveSeats(room.players);
      ActiveCount(room.players)
  }

  /** The room right after seat `name`'s pass is counted, before the game-over
      check: either the field is flushed and the turn returns to its owner (or
      moves on when the owner is out), or the pass is counted and the turn moves
      on to the next seat still in. */
  function Passed(room: Room, name: string, k: nat): (r: Room)
    requires room.started && room.currentTurn < |room.players| && OwnerInRange(room)
    requires k < |room.players| && !room.players[k].finished
    ensures r.players == room.players && r.started && r.roomId == room.roomId
    ensures r.revolution == room.revolution && r.lastChampion == room.lastChampion
    ensures r.lastPlayerIndex == room.lastPlayerIndex
    ensures r.currentTurn < |r.players| && !r.players[r.currentTurn].finished
  {
    assert HasActive(room.players) by { assert !room.players[k].finished; }
    var next := NextAlive(room.players, room.currentTurn);
    var passes := room.passCount + 1;
    if passes >= PassesNeeded(room) then
      room.(lastPlayedCards := [], lastPlayedRank := None, lastPlayedCount := 0, passCount := 0,
            currentTurn := if OwnerStillIn(room) then room.lastPlayerIndex.value else next,
            lastMove := Some(PassMove(name, true)))
    else
      room.(passCount := passes, currentTurn := next, lastMove := Some(PassMove(name, false)))
  }

  /** `handlePass(name)`: the new room, or why the pass is ignored. A pass is
      refused exactly when a play would be refused by the shared turn guard, and
      additionally on an empty field. */
  function TryPass(room: Room, name: string): (r: Result<Room, Refusal>)
    requires TurnInRange(room) && OwnerInRange(room)
    ensures CheckTurn(room, name).Failure? ==> r == Failure(CheckTurn(room, name).error)
    ensures CheckTurn(room, name).Success? && FieldEmpty(room) ==> r == Failure(NothingToPass)
    ensures r.Success? <==> CheckTurn(room, name).Success? && !FieldEmpty(room)
  {
    match CheckTurn(room, name)
    case Failure(e) => Failure(e)
    case Success(k) =>
      if FieldEmpty(room) then Failure(NothingToPass)
      else
        var passed := Passed(room, name, k);
        Success(if IsGameOver(passed) then EndGame(passed) else passed)
  }

  /** `handlePass` as the room sees it: an ignored pass leaves it as it was. */
  function HandlePass(room: Room, name: string): (r: Room)
    requires TurnInRange(room) && OwnerInRange(room)
    ensures r == room <==> TryPass(room, name).Failure?
    ensures TryPass(room, name).Success? ==> r == TryPass(room, name).value
  {
    match TryPass(room, name)
    case Success(next) => PassFlushesIff(room, name); next
    case Failure(_) => room
  }

  // ---------------------------------------------------------------------------
  // What an accepted pass means.

  /** Whether a pass flushes the field: exactly when this pass completes the
      run of passes needed. A flush empties the field and restarts the count;
      otherwise the field stays and the count grows by one. Either way the move
      is recorded as this seat's pass, and nothing else about the field owner
      or the revolution changes, and a pass that leaves the game running keeps
      the last champion. */
  lemma PassFlushesIff(room: Room, name: string)
    requires TurnInRange(room) && OwnerInRange(room)
    requires TryPass(room, name).Success?
    ensures var g := TryPass(room, name).value;
      var flush := room.passCount + 1 >= PassesNeeded(room);
      && (FieldEmpty(g) <==> flush)
      && (flush ==> g.lastPlayedRank.None? && g.lastPlayedCount == 0 && g.passCount == 0)
      && (!flush ==> g.lastPlayedCards == room.lastPlayedCards && g.lastPlayedRank == room.lastPlayedRank
                     && g.lastPlayedCount == room.lastPlayedCount && g.passCount == room.passCount + 1)
      && g.lastMove == Some(PassMove(name, flush))
      && g.lastPlayerIndex == room.lastPlayerIndex && g.revolution == room.revolution
      && g.roomId == room.roomId
      && (g.started ==> g.lastChampion == room.lastChampion)
  {
  }

  /** Where the turn goes after a pass that does not end the game: back to the
      field's owner on a flush when the owner is still in; otherwise forward to
      the next seat still in, skipping only seats that are out. */
  lemma PassTurn(room: Room, name: string)
    requires TurnInRange(room) && OwnerInRange(room)
    requires TryPass(room, name).Success?
    ensures var g := TryPass(room, name).value;
      var flush := room.passCount + 1 >= PassesNeeded(room);
      g.started ==>
        && g.players == room.players
        && !g.players[g.currentTurn].finished
        && (flush && OwnerStillIn(room) ==> g.currentTurn == room.lastPlayerIndex.value)
        && (!(flush && OwnerStillIn(room)) ==>
              forall j :: 0 <= j < |g.players| && CyclicallyBetween(room.currentTurn, j, g.currentTurn) ==>
                g.players[j].finished)
  {
  }

  /** A pass changes no seat's flags, so it ends the game only when the game was
      already over as it stood: at most one seat in. */
  lemma PassEndsGameIff(room: Room, name: string)
    requires TurnInRange(room) && OwnerInRange(room)
    requires TryPass(room, name).Success?
    ensures var g := TryPass(room, name).value;
      && (!g.started <==> ActiveCount(room.players) <= 1)
      && (!g.started ==> g.lastChampion.Some? && |g.players| == |room.players|)
  {
  }

  /** A pass keeps every hand and every seat name. */
  lemma PassKeepsSeats(room: Room, name: string)
    requires TurnInRange(room) && OwnerInRange(room)
    ensures var g := HandlePass(room, name);
      && |g.players| == |room.players|
      && forall i :: 0 <= i < |room.players| ==>
           g.players[i].name == room.players[i].name && g.players[i].hand == room.players[i].hand
  {
    if TryPass(room, name).Success? {
      var k := CheckTurn(room, name).value;
      var passed := Passed(room, name, k);
      if IsGameOver(passed) {
        var g := EndGame(passed);
        EndGameSeats(passed);
        var closed := FinishFirstUnfinished(passed.players);
        forall i | 0 <= i < |room.players|
          ensures g.players[i].name == room.players[i].name
        {
          assert g.players[i].name == closed[i].name;
        }
      }
    }
  }

  /** The room invariants survive every pass; in particular a pass never ends a
      game that satisfies them. */
  lemma HandlePassKeepsInvariant(room: Room, name: string)
    requires Invariant(room)
    ensures TurnInRange(room) && OwnerInRange(room)
    ensures Invariant(HandlePass(room, name))
    ensures HandlePass(room, name).started == room.started
  {
    if TryPass(room, name).Success? {
      PassEndsGameIff(room, name);
      PassFlushesIff(room, name);
      PassTurn(room, name);
    }
  }

  // ---------------------------------------------------------------------------
  // A round of passes.

  /** Four seats, all in; seat 0 played the field and the turn is at seat 1.
      Seats 1, 2 and 3 pass in turn: the first two passes keep the field and
      move the turn along, the third flushes it and hands the turn back to
      seat 0. */
  lemma RoundOfPassesReturnsToOwner(room: Room)
    requires room.started && |room.players| == 4
    requires NamesUnique(room.players)
    requires forall i :: 0 <= i < 4 ==> !room.players[i].finished
    requires !FieldEmpty(room) && room.lastPlayerIndex == Some(0)
    requires room.currentTurn == 1 && room.passCount == 0
    ensures var b, c, d := room.players[1].name, room.players[2].name, room.players[3].name;
      var r1 := HandlePass(room, b);
      && r1.currentTurn == 2 && r1.lastPlayedCards == room.lastPlayedCards
      && var r2 := HandlePass(r1, c);
      && r2.currentTurn == 3 && r2.lastPlayedCards == room.lastPlayedCards
      && var r3 := HandlePass(r2, d);
      && r3.currentTurn == 0 && FieldEmpty(r3) && r3.passCount == 0 && r3.started
      && r3.lastMove == Some(PassMove(d, true))
  {
    var ps := room.players;
    var b, c, d := ps[1].name, ps[2].name, ps[3].name;
    ActiveCountNoneFinished(ps);
    assert OwnerStillIn(room) && PassesNeeded(room) == 3;
    FindPlayerUnique(ps, b, 1);
    var r1 := HandlePass(room, b);
    assert !ps[2].finished && NextAlive(ps, 1) == 2;
    assert r1.currentTurn == 2 && r1.players == ps && r1.passCount == 1;
    FindPlayerUnique(ps, c, 2);
    var r2 := HandlePass(r1, c);
    assert !ps[3].finished && NextAlive(ps, 2) == 3;
    assert r2.currentTurn == 3 && r2.players == ps && r2.passCount == 2;
    FindPlayerUnique(ps, d, 3);
    var r3 := HandlePass(r2, d);
    assert r3.currentTurn == 0;
  }
}

=== FILE: play.dfy ===
/** `handlePlay` (server/GameRoom.js): check a play against the hand and the
    field, take the cards out of the hand, put them on the field, apply the
    8-clear and the revolution, and move the turn on or end the game.

    A card in a hand is identified by its position: resolving a descriptor
    yields the position of the card `find`/`findIndex` picks, which is how the
    source's object identity behaves. */
module Play {
  import opened Wrappers
  import opened Sequences
  import opened Cards
  import opened Seats
  import opened Rooms
  import opened Ranking

  /** Why a play or a pass is ignored. The source returns silently in every case. */
  datatype Refusal =
    | NotStarted
    | UnknownPlayer
    | AlreadyOut
    | NotYourTurn
    | NothingToPass
    | CardNotInHand
    | NoCards
    | MixedRanks
    | WrongCount
    | JokerOnField
    | TooWeak

  /** What every handler reads before anything else: a running game's turn
      pointer names a seat (otherwise `this.players[this.currentTurn].name`
      throws). */
  predicate TurnInRange(room: Room) {
    room.started ==> room.currentTurn < |room.players|
  }

  // ---------------------------------------------------------------------------
  // Resolving descriptors.

  /** Some card of the hand answers descriptor `d`. */
  predicate InHand(hand: seq<Card>, d: Descriptor) {
    exists j :: 0 <= j < |hand| && Matches(d, hand[j])
  }

  /** The position of the card one descriptor picks: the first joker for a joker
      descriptor, else the first card with that suit and rank. */
  function ResolveOne(hand: seq<Card>, d: Descriptor): (r: Option<nat>)
    ensures r.Some? ==> r.value < |hand| && Matches(d, hand[r.value])
    ensures r.Some? ==> forall j :: 0 <= j < r.value ==> !Matches(d, hand[j])
    ensures r.None? <==> forall j :: 0 <= j < |hand| ==> !Matches(d, hand[j])
  {
    FirstWhere(hand, (c: Card) => Matches(d, c))
  }

  /** The positions all descriptors pick, in descriptor order; `None` when one of
      them matches no card. */
  function Resolve(hand: seq<Card>, descs: seq<Descriptor>): (r: Option<seq<nat>>)
    ensures r.None? <==> exists i :: 0 <= i < |descs| && ResolveOne(hand, descs[i]).None?
    ensures r.Some? ==> |r.value| == |descs|
    ensures r.Some? ==> forall i :: 0 <= i < |descs| ==> ResolveOne(hand, descs[i]) == Some(r.value[i])
  {
    if |descs| == 0 then Some([])
    else match ResolveOne(hand, descs[0])
      case None => None
      case Some(k) =>
        match Resolve(hand, descs[1..])
        case None =>
          assert forall i :: 1 <= i < |descs| ==> descs[1..][i - 1] == descs[i];
          None
        case Some(ks) =>
          assert forall i :: 1 <= i < |descs| ==> descs[1..][i - 1] == descs[i];
          Some([k] + ks)
  }

  /** The cards at the given positions. */
  function PickCards(hand: seq<Card>, ks: seq<nat>): (played: seq<Card>)
    requires forall i :: 0 <= i < |ks| ==> ks[i] < |hand|
    ensures |played| == |ks|
    ensures forall i :: 0 <= i < |ks| ==> played[i] == hand[ks[i]]
  {
    seq(|ks|, i requires 0 <= i < |ks| => hand[ks[i]])
  }

  /** Resolution succeeded: every position addresses the hand. */
  lemma ResolvedInHand(hand: seq<Card>, descs: seq<Descriptor>)
    requires Resolve(hand, descs).Some?
    ensures forall i :: 0 <= i < |descs| ==> Resolve(hand, descs).value[i] < |hand|
  {
  }

  // ---------------------------------------------------------------------------
  // Checking a play.

  /** All non-joker cards share one rank (`new Set(ranks).size <= 1`). */
  predicate SingleRank(played: seq<Card>) {
    forall i, j :: 0 <= i < |played| && 0 <= j < |played| && !played[i].IsJoker() && !played[j].IsJoker() ==>
      played[i].rank == played[j].rank
  }

  /** The rank the field is compared at: `null` compares as 0. */
  function FieldRank(room: Room): int {
    room.lastPlayedRank.GetOr(0)
  }

  /** Strictly stronger than the field in the current direction: higher
      normally, lower under revolution. */
  predicate Stronger(value: int, room: Room) {
    if room.revolution then value < FieldRank(room) else value > FieldRank(room)
  }

  /** The comparison with the field, for a non-empty play. */
  function FieldCheck(room: Room, played: seq<Card>): (r: Option<Refusal>)
    requires |played| > 0
    ensures FieldEmpty(room) ==> r.None?
    ensures r.None? <==>
      (FieldEmpty(room) ||
       (|played| == room.lastPlayedCount && room.lastPlayedRank != Some(JokerValue)
        && Stronger(RankValue(played[0]), room)))
    ensures r.Some? ==> r.value in {WrongCount, JokerOnField, TooWeak}
  {
    if FieldEmpty(room) then None
    else if |played| != room.lastPlayedCount then Some(WrongCount)
    else if room.lastPlayedRank == Some(JokerValue) then Some(JokerOnField)
    else if !Stronger(RankValue(played[0]), room) then Some(TooWeak)
    else None
  }

  // ---------------------------------------------------------------------------
  // Taking the cards out of the hand.

  /** The cards at positions below `n` that are not among `ks`, in hand order:
      the hand after `splice` removes every played card object once. */
  function KeepUnplayed(hand: seq<Card>, ks: seq<nat>, n: nat): (r: seq<Card>)
    requires n <= |hand|
    ensures |r| <= n
  {
    if n == 0 then []
    else KeepUnplayed(hand, ks, n - 1) + (if n - 1 in ks then [] else [hand[n - 1]])
  }

  /** The positions a list of positions names. */
  function Positions(ks: seq<nat>): set<nat> {
    set x | x in ks
  }

  /** The cards at positions below `n` that are in `picked`, each once, in hand
      order. */
  function PickedOnce(hand: seq<Card>, picked: set<nat>, n: nat): (r: seq<Card>)
    requires n <= |hand|
  {
    if n == 0 then []
    else PickedOnce(hand, picked, n - 1) + (if n - 1 in picked then [hand[n - 1]] else [])
  }

  /** The first `n` positions of the hand split into the cards kept and the
      cards picked, each position once. */
  predicate SplitAt(hand: seq<Card>, ks: seq<nat>, n: nat)
    requires n <= |hand|
  {
    multiset(KeepUnplayed(hand, ks, n)) + multiset(PickedOnce(hand, Positions(ks), n)) == multiset(hand[..n])
  }

  /** The hand splits into the cards kept and the cards picked, each position once. */
  lemma {:induction false} KeepAndPickSplitHand(hand: seq<Card>, ks: seq<nat>, n: nat)
    requires n <= |hand|
    ensures SplitAt(hand, ks, n)
    decreases n
  {
    if n == 0 {
      NothingSplit(hand, ks);
    } else {
      KeepAndPickSplitHand(hand, ks, n - 1);
      KeepAndPickStep(hand, ks, n);
    }
  }

  /** No positions, no cards. */
  lemma NothingSplit(hand: seq<Card>, ks: seq<nat>)
    ensures SplitAt(hand, ks, 0)
  {
    assert hand[..0] == [];
  }

  /** Position `n - 1` goes either to the kept cards or to the picked ones, so
      the split of the first `n - 1` positions extends to `n`. */
  lemma KeepAndPickStep(hand: seq<Card>, ks: seq<nat>, n: nat)
    requires 0 < n <= |hand|
    requires SplitAt(hand, ks, n - 1)
    ensures SplitAt(hand, ks, n)
  {
    var c, ps := hand[n - 1], Positions(ks);
    var kept, picked := KeepUnplayed(hand, ks, n - 1), PickedOnce(hand, ps, n - 1);
    assert multiset(kept) + multiset(picked) == multiset(hand[..n - 1]);
    assert hand[..n] == hand[..n - 1] + [c];
    assert multiset(hand[..n]) == multiset(hand[..n - 1]) + multiset{c};
    var taken := n - 1 in ks;
    assert (n - 1 in ps) == taken;
    var keptNext := KeepUnplayed(hand, ks, n);
    var pickedNext := PickedOnce(hand, ps, n);
    assert keptNext == kept + (if taken then [] else [c]);
    assert pickedNext == picked + (if taken then [c] else []);
    if taken {
      assert multiset(pickedNext) == multiset(picked) + multiset{c};
      assert multiset(keptNext) == multiset(kept);
    } else {
      assert multiset(keptNext) == multiset(kept) + multiset{c};
      assert multiset(pickedNext) == multiset(picked);
    }
  }

  /** Picking a position at or beyond `n` changes nothing below `n`. */
  lemma {:induction false} PickedOnceBeyond(hand: seq<Card>, picked: set<nat>, p: nat, n: nat)
    requires n <= |hand| && n <= p
    ensures PickedOnce(hand, picked + {p}, n) == PickedOnce(hand, picked, n)
    decreases n
  {
    if n > 0 {
      PickedOnceBeyond(hand, picked, p, n - 1);
    }
  }

  /** Below `n`, picking `p` as well adds exactly the card at `p`. */
  predicate ExtendsBy(hand: seq<Card>, picked: set<nat>, p: nat, n: nat)
    requires p < |hand| && n <= |hand|
  {
    multiset(PickedOnce(hand, picked + {p}, n)) == multiset(PickedOnce(hand, picked, n)) + multiset{hand[p]}
  }

  /** Picking one more position below `n` adds exactly that card. */
  lemma {:induction false} PickedOnceExtend(hand: seq<Card>, picked: set<nat>, p: nat, n: nat)
    requires p < n <= |hand|
    requires p !in picked
    ensures ExtendsBy(hand, picked, p, n)
    decreases n
  {
    if n - 1 == p {
      PickedOnceBeyond(hand, picked, p, n - 1);
      PickedOnceAt(hand, picked, p, n);
    } else {
      PickedOnceExtend(hand, picked, p, n - 1);
      PickedOnceAfter(hand, picked, p, n);
    }
  }

  /** The step at position `p` itself: only the extended pick takes its card. */
  lemma PickedOnceAt(hand: seq<Card>, picked: set<nat>, p: nat, n: nat)
    requires p == n - 1 && 0 < n <= |hand| && p !in picked
    requires PickedOnce(hand, picked + {p}, n - 1) == PickedOnce(hand, picked, n - 1)
    ensures ExtendsBy(hand, picked, p, n)
  {
    var before := PickedOnce(hand, picked, n - 1);
    assert p in picked + {p};
    assert PickedOnce(hand, picked + {p}, n) == before + [hand[p]];
    assert PickedOnce(hand, picked, n) == before;
    assert multiset(before + [hand[p]]) == multiset(before) + multiset{hand[p]};
  }

  /** A step past `p`: both picks take the same card or none. */
  lemma PickedOnceAfter(hand: seq<Card>, picked: set<nat>, p: nat, n: nat)
    requires p < n - 1 && n <= |hand|
    requires ExtendsBy(hand, picked, p, n - 1)
    ensures ExtendsBy(hand, picked, p, n)
  {
    var with, without := PickedOnce(hand, picked + {p}, n - 1), PickedOnce(hand, picked, n - 1);
    assert (n - 1 in picked + {p}) == (n - 1 in picked);
    var tail := if n - 1 in picked then [hand[n - 1]] else [];
    assert PickedOnce(hand, picked + {p}, n) == with + tail;
    assert PickedOnce(hand, picked, n) == without + tail;
    assert multiset(with + tail) == multiset(with) + multiset(tail);
    assert multiset(without + tail) == multiset(without) + multiset(tail);
  }

  /** With pairwise different positions, the picked cards are the played cards. */
  lemma {:induction false} PickedOnceIsPlayed(hand: seq<Card>, ks: seq<nat>)
    requires Distinct(ks)
    requires forall i :: 0 <= i < |ks| ==> ks[i] < |hand|
    ensures multiset(PickedOnce(hand, Positions(ks), |hand|)) == multiset(PickCards(hand, ks))
    decreases |ks|
  {
    if |ks| == 0 {
      NothingPicked(hand, Positions(ks), |hand|);
    } else {
      var m := |ks| - 1;
      var front := ks[..m];
      assert ks == front + [ks[m]];
      assert ks[m] !in front by {
        forall i | 0 <= i < m ensures front[i] != ks[m] {
          assert ks[i] != ks[m];
        }
      }
      var before := Positions(front);
      assert Positions(ks) == before + {ks[m]};
      PickedOnceIsPlayed(hand, front);
      PickedOnceExtend(hand, before, ks[m], |hand|);
      assert multiset(PickedOnce(hand, before + {ks[m]}, |hand|))
          == multiset(PickedOnce(hand, before, |hand|)) + multiset{hand[ks[m]]};
      assert PickCards(hand, ks) == PickCards(hand, front) + [hand[ks[m]]];
    }
  }

  lemma {:induction false} NothingPicked(hand: seq<Card>, picked: set<nat>, n: nat)
    requires n <= |hand| && picked == {}
    ensures PickedOnce(hand, picked, n) == []
    decreases n
  {
    if n > 0 {
      NothingPicked(hand, picked, n - 1);
    }
  }

  /** Removing at least one position shortens the hand. */
  lemma {:induction false} KeepUnplayedShorter(hand: seq<Card>, ks: seq<nat>, n: nat, p: nat)
    requires n <= |hand| && p < n && p in ks
    ensures |KeepUnplayed(hand, ks, n)| < n
  {
    if n - 1 != p {
      KeepUnplayedShorter(hand, ks, n - 1, p);
    }
  }

  // ---------------------------------------------------------------------------
  // Effects.

  /** `played.some(c => !c.isJoker && c.rank === 8)`: the play clears the field. */
  predicate EightCut(played: seq<Card>) {
    exists i :: 0 <= i < |played| && !played[i].IsJoker() && played[i].rank == ClearRank
  }

  /** Four or more cards whose first card is not the joker flip the revolution. */
  predicate RevolutionToggles(played: seq<Card>) {
    |played| >= 4 && !played[0].IsJoker()
  }

  /** Only the first card is tested for the joker, so the same four cards flip
      the revolution in one order and not in another. */
  lemma RevolutionReadsFirstCardOnly(c: Card)
    requires !c.IsJoker()
    ensures multiset([JokerCard, c, c, c]) == multiset([c, c, c, JokerCard])
    ensures !RevolutionToggles([JokerCard, c, c, c]) && RevolutionToggles([c, c, c, JokerCard])
  {
  }

  /** The room once the cards are on the field and out of seat `k`'s hand, before
      the turn moves. */
  function PlaceCards(room: Room, k: nat, ks: seq<nat>, played: seq<Card>): (r: Room)
    requires k < |room.players| && |played| > 0
    ensures |r.players| == |room.players|
    ensures r.started == room.started && r.currentTurn == room.currentTurn
    ensures forall i :: 0 <= i < |room.players| && i != k ==> r.players[i] == room.players[i]
    ensures r.players[k].name == room.players[k].name
    ensures r.lastChampion == room.lastChampion && r.roomId == room.roomId
  {
    var hand := room.players[k].hand;
    var rest := KeepUnplayed(hand, ks, |hand|);
    room.(
      players := room.players[k := room.players[k].(hand := rest, finished := room.players[k].finished || |rest| == 0)],
      lastPlayedCards := played,
      lastPlayedCount := |played|,
      lastPlayedRank := Some(RankValue(played[0])),
      lastPlayerIndex := Some(room.currentTurn),
      passCount := 0,
      revolution := room.revolution != RevolutionToggles(played),
      lastMove := Some(PlayMove(room.players[k].name, played, EightCut(played), RevolutionToggles(played))))
  }

  /** After the cards are placed: end the game, or clear the field on an 8 and
      keep the turn (unless the player just went out), or pass the turn on. */
  function AfterPlay(placed: Room, eightCut: bool, wentOut: bool): (r: Room)
    requires placed.started && placed.currentTurn < |placed.players|
    ensures |r.players| == |placed.players|
    ensures forall i :: 0 <= i < |placed.players| ==>
      r.players[i].name == placed.players[i].name && r.players[i].hand == placed.players[i].hand
    ensures r.lastMove == placed.lastMove && r.revolution == placed.revolution
    ensures IsGameOver(placed) ==> !r.started && r.players != [] && r.lastChampion.Some?
    ensures !IsGameOver(placed) ==> r.started && r.players == placed.players
    ensures !IsGameOver(placed) ==> r.currentTurn < |r.players|
    ensures !IsGameOver(placed) && (!eightCut || wentOut) ==> !r.players[r.currentTurn].finished
    ensures !IsGameOver(placed) && eightCut && !wentOut ==> r.currentTurn == placed.currentTurn
    ensures !IsGameOver(placed) && (!eightCut || wentOut) ==>
      forall j :: 0 <= j < |placed.players| && CyclicallyBetween(placed.currentTurn, j, r.currentTurn) ==>
        placed.players[j].finished
    ensures !IsGameOver(placed) && eightCut ==>
      FieldEmpty(r) && r.lastPlayedRank.None? && r.lastPlayedCount == 0 && r.passCount == 0
    // the 8 clears the field and may move the turn; nothing else changes
    ensures !IsGameOver(placed) && eightCut ==>
      r == placed.(lastPlayedCards := [], lastPlayedRank := None, lastPlayedCount := 0, passCount := 0,
                   currentTurn := r.currentTurn)
    ensures !IsGameOver(placed) && !eightCut ==>
      r == placed.(currentTurn := r.currentTurn)
  {
    if IsGameOver(placed) then
      EndGameSeats(placed);
      EndGame(placed)
    else
      ActiveCountPositive(placed.players);
      var next := NextAlive(placed.players, placed.currentTurn);
      if eightCut then
        placed.(lastPlayedCards := [], lastPlayedRank := None, lastPlayedCount := 0, passCount := 0,
                currentTurn := if wentOut then next else placed.currentTurn)
      else placed.(currentTurn := next)
  }

  // ---------------------------------------------------------------------------
  // handlePlay.

  /** The guard `handlePlay` and `handlePass` share: the game runs, the first
      seat with the name is still in, and the turn seat carries that name. On
      success, the sender's seat. */
  function CheckTurn(room: Room, name: string): (r: Result<nat, Refusal>)
    requires TurnInRange(room)
    ensures r.Success? <==>
      (room.started && NameTaken(room.players, name)
       && !room.players[FindPlayer(room.players, name).value].finished
       && room.players[room.currentTurn].name == name)
    ensures r.Success? ==> Some(r.value) == FindPlayer(room.players, name)
    ensures !room.started ==> r == Failure(NotStarted)
    ensures room.started && !NameTaken(room.players, name) ==> r == Failure(UnknownPlayer)
    ensures room.started && NameTaken(room.players, name) ==>
      var k := FindPlayer(room.players, name).value;
      && (room.players[k].finished ==> r == Failure(AlreadyOut))
      && (!room.players[k].finished && room.players[room.currentTurn].name != name ==> r == Failure(NotYourTurn))
  {
    if !room.started then Failure(NotStarted)
    else match FindPlayer(room.players, name)
      case None => Failure(UnknownPlayer)
      case Some(k) =>
        if room.players[k].finished then Failure(AlreadyOut)
        else if room.players[room.currentTurn].name != name then Failure(NotYourTurn)
        else Success(k)
  }

  /** `handlePlay(name, descs)`: the new room, or why the play is ignored. */
  function TryPlay(room: Room, name: string, descs: seq<Descriptor>): (r: Result<Room, Refusal>)
    requires TurnInRange(room)
    ensures CheckTurn(room, name).Failure? ==> r == Failure(CheckTurn(room, name).error)
    ensures r.Failure? ==> r.error != NothingToPass
    ensures r.Success? ==> CheckTurn(room, name).Success?
    ensures r.Success? ==>
      var k := CheckTurn(room, name).value;
      && |descs| > 0
      && (forall i :: 0 <= i < |descs| ==> InHand(room.players[k].hand, descs[i]))
  {
    match CheckTurn(room, name)
    case Failure(e) => Failure(e)
    case Success(k) =>
      var hand := room.players[k].hand;
      match Resolve(hand, descs)
      case None =>
        Failure(CardNotInHand)
      case Some(ks) =>
        if |ks| == 0 then Failure(NoCards)
        else
          var played := PickCards(hand, ks);
          if !SingleRank(played) then Failure(MixedRanks)
          else match FieldCheck(room, played)
            case Some(e) => Failure(e)
            case None =>
              var placed := PlaceCards(room, k, ks, played);
              Success(AfterPlay(placed, EightCut(played), placed.players[k].finished))
  }

  /** `handlePlay` as the room sees it: an ignored play leaves it as it was. */
  function HandlePlay(room: Room, name: string, descs: seq<Descriptor>): (r: Room)
    requires TurnInRange(room)
    ensures r == room <==> TryPlay(room, name, descs).Failure?
    ensures TryPlay(room, name, descs).Success? ==> r == TryPlay(room, name, descs).value
  {
    match TryPlay(room, name, descs)
    case Success(next) => PlayTakesCards(room, name, descs); next
    case Failure(_) => room
  }

  // ---------------------------------------------------------------------------
  // What an accepted play means.

  /** The strength a descriptor plays at: 16 for a joker descriptor, else the
      rank it names. */
  function DescriptorValue(d: Descriptor): Option<int> {
    if IsJokerDescriptor(d) then Some(JokerValue) else DescriptorRank(d)
  }

  /** The rules of a play, stated on the descriptors and the hand: the game runs,
      the sender holds the turn and is still in, every descriptor names a card
      in the hand, the non-joker descriptors name one rank, and on a non-empty
      field the play has the field's size, the field is not the joker, and the
      first descriptor is stronger in the current direction. */
  predicate PlayAllowed(room: Room, name: string, descs: seq<Descriptor>)
    requires TurnInRange(room)
  {
    && room.started
    && NameTaken(room.players, name)
    && var k := FindPlayer(room.players, name).value;
    && var hand := room.players[k].hand;
    && !room.players[k].finished
    && room.players[room.currentTurn].name == name
    && |descs| > 0
    && (forall i :: 0 <= i < |descs| ==> InHand(hand, descs[i]))
    && (forall i, j :: 0 <= i < |descs| && 0 <= j < |descs| && !IsJokerDescriptor(descs[i]) && !IsJokerDescriptor(descs[j]) ==>
          DescriptorRank(descs[i]) == DescriptorRank(descs[j]))
    && (!FieldEmpty(room) ==>
          && |descs| == room.lastPlayedCount
          && room.lastPlayedRank != Some(JokerValue)
          && DescriptorValue(descs[0]).Some?
          && Stronger(DescriptorValue(descs[0]).value, room))
  }

  /** A picked card shows the strength and rank its descriptor names. */
  lemma MatchedCardValue(d: Descriptor, c: Card)
    requires Matches(d, c)
    ensures DescriptorValue(d) == Some(RankValue(c))
    ensures c.IsJoker() <==> IsJokerDescriptor(d)
    ensures !c.IsJoker() ==> DescriptorRank(d) == Some(c.rank)
  {
  }

  /** Resolution succeeds exactly when every descriptor names a card in the hand. */
  lemma ResolveSucceedsIff(hand: seq<Card>, descs: seq<Descriptor>)
    ensures Resolve(hand, descs).Some? <==>
      forall i :: 0 <= i < |descs| ==> InHand(hand, descs[i])
  {
    var r := Resolve(hand, descs);
    if r.None? {
      var i :| 0 <= i < |descs| && ResolveOne(hand, descs[i]).None?;
    } else {
      forall i | 0 <= i < |descs| ensures InHand(hand, descs[i]) {
        assert Matches(descs[i], hand[r.value[i]]);
      }
    }
  }

  /** The picked cards say what their descriptors say: one rank among the
      non-joker cards exactly when one rank among the non-joker descriptors, and
      the first card plays at the first descriptor's strength. */
  lemma PickedCardsFollowDescriptors(hand: seq<Card>, descs: seq<Descriptor>)
    requires Resolve(hand, descs).Some? && |descs| > 0
    ensures var played := PickCards(hand, Resolve(hand, descs).value);
      && (SingleRank(played) <==>
           forall i, j :: 0 <= i < |descs| && 0 <= j < |descs| && !IsJokerDescriptor(descs[i]) && !IsJokerDescriptor(descs[j]) ==>
             DescriptorRank(descs[i]) == DescriptorRank(descs[j]))
      && DescriptorValue(descs[0]) == Some(RankValue(played[0]))
  {
    var ks := Resolve(hand, descs).value;
    var played := PickCards(hand, ks);
    forall i | 0 <= i < |descs|
      ensures DescriptorValue(descs[i]) == Some(RankValue(played[i]))
      ensures played[i].IsJoker() <==> IsJokerDescriptor(descs[i])
      ensures !played[i].IsJoker() ==> DescriptorRank(descs[i]) == Some(played[i].rank)
    {
      assert ResolveOne(hand, descs[i]) == Some(ks[i]);
      MatchedCardValue(descs[i], played[i]);
    }
  }

  /** A play is accepted exactly when it follows the rules. */
  lemma PlayAcceptedIff(room: Room, name: string, descs: seq<Descriptor>)
    requires TurnInRange(room)
    ensures TryPlay(room, name, descs).Success? <==> PlayAllowed(room, name, descs)
  {
    if room.started && NameTaken(room.players, name) {
      var k := FindPlayer(room.players, name).value;
      var hand := room.players[k].hand;
      ResolveSucceedsIff(hand, descs);
      if Resolve(hand, descs).Some? && |descs| > 0 {
        PickedCardsFollowDescriptors(hand, descs);
      }
    }
  }

  /** The accepted play, unfolded: seat `k` is the sender's, `ks` the positions
      picked, and the result is the placed cards followed by the turn step. */
  lemma TryPlaySuccess(room: Room, name: string, descs: seq<Descriptor>)
    returns (k: nat, ks: seq<nat>, played: seq<Card>, placed: Room)
    requires TurnInRange(room)
    requires TryPlay(room, name, descs).Success?
    ensures CheckTurn(room, name) == Success(k)
    ensures room.started && k < |room.players| && FindPlayer(room.players, name) == Some(k)
    ensures !room.players[k].finished && room.players[room.currentTurn].name == name
    ensures Resolve(room.players[k].hand, descs) == Some(ks) && |ks| > 0
    ensures forall i :: 0 <= i < |ks| ==> ks[i] < |room.players[k].hand|
    ensures played == PickCards(room.players[k].hand, ks)
    ensures placed == PlaceCards(room, k, ks, played)
    ensures TryPlay(room, name, descs) ==
            Success(AfterPlay(placed, EightCut(played), placed.players[k].finished))
  {
    k := FindPlayer(room.players, name).value;
    ks := Resolve(room.players[k].hand, descs).value;
    played := PickCards(room.players[k].hand, ks);
    placed := PlaceCards(room, k, ks, played);
  }

  /** An accepted play takes the played cards out of the sender's hand and no
      others: the hand shrinks, keeps its order, and, when the descriptors picked
      pairwise different cards, the cards left plus the cards played are the old
      hand. */
  lemma PlayTakesCards(room: Room, name: string, descs: seq<Descriptor>)
    requires TurnInRange(room)
    requires TryPlay(room, name, descs).Success?
    ensures var g := TryPlay(room, name, descs).value;
      var k := FindPlayer(room.players, name).value;
      var hand := room.players[k].hand;
      var ks := Resolve(hand, descs).value;
      && |g.players| == |room.players|
      && g.players[k].hand == KeepUnplayed(hand, ks, |hand|)
      && |g.players[k].hand| < |hand|
      && g.lastMove.Some? && g.lastMove.value.PlayMove?
      && (Distinct(ks) ==>
            multiset(g.players[k].hand) + multiset(g.lastMove.value.cards) == multiset(hand))
  {
    var k, ks, played, placed := TryPlaySuccess(room, name, descs);
    var hand := room.players[k].hand;
    var g := TryPlay(room, name, descs).value;
    KeepUnplayedShorter(hand, ks, |hand|, ks[0]);
    if IsGameOver(placed) {
      EndGameSeats(placed);
    }
    assert g.players[k].hand == placed.players[k].hand;
    if Distinct(ks) {
      KeepAndPickSplitHand(hand, ks, |hand|);
      PickedOnceIsPlayed(hand, ks);
      assert hand[..|hand|] == hand;
    }
  }

  /** A descriptor repeated in one play picks the same card twice: the card goes
      on the field twice, as a pair, while the hand gives up only one card. */
  lemma RepeatedDescriptorPlaysOneCardTwice(room: Room, name: string, c: Card)
    requires TurnInRange(room) && room.started && FieldEmpty(room)
    requires NameTaken(room.players, name)
    requires var k := FindPlayer(room.players, name).value;
      && !room.players[k].finished && room.players[room.currentTurn].name == name
      && IsDeckCard(c) && !c.IsJoker() && c in room.players[k].hand
    ensures var descs := [DescriptorOf(c), DescriptorOf(c)];
      var k := FindPlayer(room.players, name).value;
      && TryPlay(room, name, descs).Success?
      && var g := TryPlay(room, name, descs).value;
      && g.lastMove.value.cards == [c, c]
      && |g.players[k].hand| == |room.players[k].hand| - 1
      && (g.started && c.rank != ClearRank ==> g.lastPlayedCards == [c, c] && g.lastPlayedCount == 2)
  {
    var descs := [DescriptorOf(c), DescriptorOf(c)];
    var k := FindPlayer(room.players, name).value;
    var q := RepeatedDescriptorAccepted(room, name, c);
    PlayField(room, name, descs);
    PlayTakesCards(room, name, descs);
    RepeatedPickOutcome(room.players[k].hand, q, c, TryPlay(room, name, descs).value, k);
  }

  /** The room after the pick `[q, q]`, read off at the level of cards: the
      field and the move show the card twice, and the hand loses it once. */
  lemma RepeatedPickOutcome(hand: seq<Card>, q: nat, c: Card, g: Room, k: nat)
    requires q < |hand| && hand[q] == c && k < |g.players|
    requires g.lastMove.Some? && g.lastMove.value.PlayMove?
    requires g.lastMove.value == PlayMove(g.lastMove.value.player, PickCards(hand, [q, q]),
      EightCut(PickCards(hand, [q, q])), RevolutionToggles(PickCards(hand, [q, q])))
    requires g.players[k].hand == KeepUnplayed(hand, [q, q], |hand|)
    requires !g.started || !EightCut(PickCards(hand, [q, q])) ==>
      g.lastPlayedCards == PickCards(hand, [q, q]) && g.lastPlayedCount == |PickCards(hand, [q, q])|
    ensures g.lastMove.value.cards == [c, c]
    ensures |g.players[k].hand| == |hand| - 1
    ensures g.started && c.rank != ClearRank ==> g.lastPlayedCards == [c, c] && g.lastPlayedCount == 2
  {
    var played := PickCards(hand, [q, q]);
    assert played == [c, c];
    OnlyOnePositionDropped(hand, q);
    assert !EightCut([c, c]) <== c.rank != ClearRank;
  }

  /** Both copies of a repeated descriptor resolve to the first matching card,
      and the play passes every check on an empty field. */
  lemma RepeatedDescriptorAccepted(room: Room, name: string, c: Card) returns (q: nat)
    requires TurnInRange(room) && room.started && FieldEmpty(room)
    requires NameTaken(room.players, name)
    requires var k := FindPlayer(room.players, name).value;
      && !room.players[k].finished && room.players[room.currentTurn].name == name
      && IsDeckCard(c) && !c.IsJoker() && c in room.players[k].hand
    ensures var hand := room.players[FindPlayer(room.players, name).value].hand;
      && q < |hand| && hand[q] == c
      && Resolve(hand, [DescriptorOf(c), DescriptorOf(c)]) == Some([q, q])
      && TryPlay(room, name, [DescriptorOf(c), DescriptorOf(c)]).Success?
  {
    var d := DescriptorOf(c);
    var descs := [d, d];
    var k := FindPlayer(room.players, name).value;
    var hand := room.players[k].hand;
    var p :| 0 <= p < |hand| && hand[p] == c;
    DescriptorsNameTheirCard(c, c);
    assert PlayAllowed(room, name, descs);
    PlayAcceptedIff(room, name, descs);
    q := ResolveOne(hand, d).value;
    DescriptorsNameTheirCard(c, hand[q]);
    ResolveRepeated(hand, d, q);
  }

  lemma ResolveRepeated(hand: seq<Card>, d: Descriptor, q: nat)
    requires ResolveOne(hand, d) == Some(q)
    ensures Resolve(hand, [d, d]) == Some([q, q])
  {
    var r := Resolve(hand, [d, d]);
    assert [d, d][0] == d && [d, d][1] == d;
    assert r.Some?;
    assert |r.value| == 2 && r.value[0] == q && r.value[1] == q;
    assert r.value == [q, q];
  }

  lemma {:induction false} OnlyOnePositionDropped(hand: seq<Card>, q: nat)
    requires q < |hand|
    ensures |KeepUnplayed(hand, [q, q], |hand|)| == |hand| - 1
  {
    KeepAndPickSplitHand(hand, [q, q], |hand|);
    PickedOnceSingle(hand, q, |hand|);
    assert hand[..|hand|] == hand;
    assert |multiset(KeepUnplayed(hand, [q, q], |hand|))| + 1 == |multiset(hand)|;
  }

  lemma {:induction false} PickedOnceSingle(hand: seq<Card>, q: nat, n: nat)
    requires q < |hand| && n <= |hand|
    ensures |PickedOnce(hand, Positions([q, q]), n)| == if q < n then 1 else 0
    decreases n
  {
    assert Positions([q, q]) == {q};
    if n > 0 {
      PickedOnceSingle(hand, q, n - 1);
    }
  }

  /** An accepted play puts the picked cards on the field (a game-ending play
      leaves them there), records the move, makes the sender's seat the field
      owner, resets the pass count, and flips the revolution when four or more
      cards are played and the first is not the joker. */
  lemma PlayField(room: Room, name: string, descs: seq<Descriptor>)
    requires TurnInRange(room)
    requires TryPlay(room, name, descs).Success?
    ensures var g := TryPlay(room, name, descs).value;
      var hand := room.players[FindPlayer(room.players, name).value].hand;
      var played := PickCards(hand, Resolve(hand, descs).value);
      && g.lastMove == Some(PlayMove(name, played, EightCut(played), RevolutionToggles(played)))
      && g.revolution == (room.revolution != RevolutionToggles(played))
      && g.lastPlayerIndex == Some(room.currentTurn)
      && g.passCount == 0
      && g.roomId == room.roomId
      && (g.started ==> g.lastChampion == room.lastChampion)
      && (!g.started || !EightCut(played) ==>
            && g.lastPlayedCards == played
            && g.lastPlayedCount == |played|
            && g.lastPlayedRank == Some(RankValue(played[0])))
      && (g.started && EightCut(played) ==>
            FieldEmpty(g) && g.lastPlayedRank.None? && g.lastPlayedCount == 0)
  {
    var k, ks, played, placed := TryPlaySuccess(room, name, descs);
  }

  /** Whether the play ends the game: exactly when at most one seat is still in
      once the sender's hand is counted. A game that goes on keeps every other
      seat as it was and marks the sender out exactly when their hand is empty. */
  lemma PlayEndsGameIff(room: Room, name: string, descs: seq<Descriptor>)
    requires TurnInRange(room)
    requires TryPlay(room, name, descs).Success?
    ensures var g := TryPlay(room, name, descs).value;
      var k := FindPlayer(room.players, name).value;
      var wentOut := |g.players[k].hand| == 0;
      && (!g.started <==> ActiveCount(room.players) - (if wentOut then 1 else 0) <= 1)
      && (g.started ==> g.players[k].finished == wentOut)
      && (g.started ==> forall j :: 0 <= j < |room.players| && j != k ==> g.players[j] == room.players[j])
      && (!g.started ==> g.lastChampion.Some?)
  {
    var k, ks, played, placed := TryPlaySuccess(room, name, descs);
    var g := TryPlay(room, name, descs).value;
    var hand := room.players[k].hand;
    var rest := KeepUnplayed(hand, ks, |hand|);
    assert placed.players[k].hand == rest && placed.players[k].finished == (|rest| == 0);
    ActiveCountUpdate(room.players, k, placed.players[k]);
    assert placed.players == room.players[k := placed.players[k]];
    if IsGameOver(placed) {
      EndGameSeats(placed);
      assert g == EndGame(placed);
      assert g.players[k].hand == rest;
    } else {
      assert g.players == placed.players;
    }
  }

  /** Where the turn goes after a play that does not end the game: an 8 keeps it
      with the sender unless they just went out; otherwise it moves forward to
      the next seat still in, skipping only seats that are out. */
  lemma PlayTurn(room: Room, name: string, descs: seq<Descriptor>)
    requires TurnInRange(room)
    requires TryPlay(room, name, descs).Success?
    ensures var g := TryPlay(room, name, descs).value;
      var k := FindPlayer(room.players, name).value;
      var hand := room.players[k].hand;
      var played := PickCards(hand, Resolve(hand, descs).value);
      var wentOut := |g.players[k].hand| == 0;
      && (g.started ==> g.currentTurn < |g.players|)
      && (g.started && EightCut(played) && !wentOut ==> g.currentTurn == room.currentTurn)
      && (g.started && (!EightCut(played) || wentOut) ==>
            && !g.players[g.currentTurn].finished
            && forall j :: 0 <= j < |g.players| && CyclicallyBetween(room.currentTurn, j, g.currentTurn) ==>
                 g.players[j].finished)
  {
    var k, ks, played, placed := TryPlaySuccess(room, name, descs);
    PlayTakesCards(room, name, descs);
  }

  /** Plays keep the field well-formed and its owner a seat. */
  lemma PlayKeepsWf(room: Room, name: string, descs: seq<Descriptor>)
    requires Wf(room)
    ensures TurnInRange(room)
    ensures Wf(HandlePlay(room, name, descs))
  {
    if TryPlay(room, name, descs).Success? {
      var k, ks, played, placed := TryPlaySuccess(room, name, descs);
      PlayField(room, name, descs);
    }
  }

  /** Plays keep seat names, and so their uniqueness. */
  lemma PlayKeepsNames(room: Room, name: string, descs: seq<Descriptor>)
    requires TurnInRange(room)
    ensures |HandlePlay(room, name, descs).players| == |room.players|
    ensures forall i :: 0 <= i < |room.players| ==> HandlePlay(room, name, descs).players[i].name == room.players[i].name
    ensures NamesUnique(room.players) ==> NamesUnique(HandlePlay(room, name, descs).players)
  {
    if TryPlay(room, name, descs).Success? {
      var k, ks, played, placed := TryPlaySuccess(room, name, descs);
      var g := AfterPlay(placed, EightCut(played), placed.players[k].finished);
      assert HandlePlay(room, name, descs) == g;
      assert forall i :: 0 <= i < |room.players| ==> g.players[i].name == room.players[i].name;
      if NamesUnique(room.players) {
        SameNamesKeepUnique(room.players, g.players);
      }
    }
  }

  /** While the game runs after a play, the turn is on a seat still in and two
      or more seats are in. */
  lemma PlayKeepsTurnValid(room: Room, name: string, descs: seq<Descriptor>)
    requires Invariant(room)
    ensures TurnInRange(room)
    ensures TurnValid(HandlePlay(room, name, descs))
  {
    if TryPlay(room, name, descs).Success? {
      var g := TryPlay(room, name, descs).value;
      var k, ks, played, placed := TryPlaySuccess(room, name, descs);
      FindPlayerUnique(room.players, name, room.currentTurn);
      assert k == room.currentTurn;
      PlayEndsGameIff(room, name, descs);
      PlayTurn(room, name, descs);
    }
  }

  /** The room invariants survive every play. */
  lemma HandlePlayKeepsInvariant(room: Room, name: string, descs: seq<Descriptor>)
    requires Invariant(room)
    ensures TurnInRange(room)
    ensures Invariant(HandlePlay(room, name, descs))
  {
    PlayKeepsWf(room, name, descs);
    PlayKeepsNames(room, name, descs);
    PlayKeepsTurnValid(room, name, descs);
  }
}

=== FILE: ranking.dfy ===
/** `endGame` (server/GameRoom.js): close the last seat, rank the seats by how
    many cards they still hold, hand out titles, demote a fallen champion and
    record the new one. */
module Ranking {
  import opened Wrappers
  import opened Sequences
  import opened Cards
  import opened Seats
  import opened Rooms

  /** Titles from best to worst: 大富豪, 富豪, 平民, 貧民, 大貧民. */
  function TitleOrder(t: Title): nat {
    match t
    case Daifugo => 0
    case Fugo => 1
    case Heimin => 2
    case Hinmin => 3
    case Daihinmin => 4
    case Untitled => 5
  }

  /** The title of ranking position `i` among `n` seats: first and last always,
      second and second-to-last only with four or more seats, the rest 平民. */
  function TitleAt(i: nat, n: nat): Title {
    if i == 0 then Daifugo
    else if i == 1 && n >= 4 then Fugo
    else if i + 2 == n && n >= 4 then Hinmin
    else if i + 1 == n then Daihinmin
    else Heimin
  }

  /** A later position never gets a better title, and the positions at both ends
      get 大富豪 and 大貧民. */
  lemma TitleAtMonotone(p: nat, q: nat, n: nat)
    requires p <= q < n
    ensures TitleOrder(TitleAt(p, n)) <= TitleOrder(TitleAt(q, n))
    ensures TitleAt(0, n) == Daifugo
    ensures n >= 2 ==> TitleAt(n - 1, n) == Daihinmin
    ensures 0 < q < n - 1 ==> TitleAt(q, n) != Daifugo && TitleAt(q, n) != Daihinmin
  {
  }

  // ---------------------------------------------------------------------------
  // The ranking order.

  /** The sort key of `(a, b) => a.hand.length - b.hand.length`, on seat indices. */
  function HandSizeKey(players: seq<Player>): nat -> int {
    (i: nat) => if i < |players| then |players[i].hand| else 0
  }

  /** Seat `a` comes before seat `b` in a stable sort by hand size. */
  predicate RanksBefore(players: seq<Player>, a: nat, b: nat)
    requires a < |players| && b < |players|
  {
    |players[a].hand| < |players[b].hand| || (|players[a].hand| == |players[b].hand| && a < b)
  }

  /** `[...players].sort(...)`, as the list of seat indices in ranking order:
      fewer cards first, ties in seat order. */
  function RankingOrder(players: seq<Player>): (ordered: seq<nat>)
    ensures |ordered| == |players|
    ensures forall p :: 0 <= p < |ordered| ==> ordered[p] < |players|
    ensures forall i :: 0 <= i < |players| ==> i in ordered
    ensures forall p, q :: 0 <= p < q < |ordered| ==> RanksBefore(players, ordered[p], ordered[q])
  {
    var seats := Range(0, |players|);
    SortIndicesIsLex(seats, HandSizeKey(players));
    var ordered := SortBy(seats, HandSizeKey(players));
    SeatPermutation(seats, ordered);
    ordered
  }

  /** A rearrangement of the seat numbers 0..n-1 holds each of them. */
  lemma SeatPermutation(seats: seq<nat>, ordered: seq<nat>)
    requires seats == Range(0, |seats|)
    requires multiset(ordered) == multiset(seats)
    ensures forall p :: 0 <= p < |ordered| ==> ordered[p] < |seats|
    ensures forall i :: 0 <= i < |seats| ==> i in ordered
  {
    forall p | 0 <= p < |ordered| ensures ordered[p] < |seats| {
      assert ordered[p] in multiset(seats);
    }
    forall i | 0 <= i < |seats| ensures i in ordered {
      assert seats[i] == i;
      assert i in multiset(seats);
    }
  }

  /** No seat appears twice in the ranking. */
  lemma RankingOrderDistinct(players: seq<Player>)
    ensures Distinct(RankingOrder(players))
  {
    var ordered := RankingOrder(players);
    forall p, q | 0 <= p < q < |ordered| ensures ordered[p] != ordered[q] {
      assert RanksBefore(players, ordered[p], ordered[q]);
    }
  }

  /** The ranking position of every seat. */
  lemma RankingPosition(players: seq<Player>, i: nat) returns (p: nat)
    requires i < |players|
    ensures p < |players| && RankingOrder(players)[p] == i
  {
    var ordered := RankingOrder(players);
    assert i in ordered;
    p :| 0 <= p < |ordered| && ordered[p] == i;
  }

  // ---------------------------------------------------------------------------
  // Titles.

  /** The `forEach` that writes `rankTitle`: the seat at position `p` of
      `ordered` (from `from` on) gets `TitleAt(p, n)`; only titles change. */
  function ApplyTitles(players: seq<Player>, ordered: seq<nat>, from: nat, n: nat): (r: seq<Player>)
    requires from <= |ordered|
    requires Distinct(ordered)
    requires forall p :: 0 <= p < |ordered| ==> ordered[p] < |players|
    ensures |r| == |players|
    ensures forall i :: 0 <= i < |players| ==> r[i] == players[i].(title := r[i].title)
    ensures forall p :: from <= p < |ordered| ==> r[ordered[p]].title == TitleAt(p, n)
    ensures forall i :: 0 <= i < |players| && i !in ordered[from..] ==> r[i] == players[i]
    decreases |ordered| - from
  {
    if from == |ordered| then players
    else
      var k := ordered[from];
      var next := players[k := players[k].(title := TitleAt(from, n))];
      var r := ApplyTitles(next, ordered, from + 1, n);
      assert forall i :: 0 <= i < |players| && i !in ordered[from..] ==> i !in ordered[from + 1..] && i != k by {
        assert ordered[from..] == [k] + ordered[from + 1..];
      }
      assert k !in ordered[from + 1..] by {
        forall q | from + 1 <= q < |ordered| ensures ordered[q] != k {
          assert ordered[from] != ordered[q];
        }
      }
      r
  }

  /** The titles before any demotion: each seat gets the title of its ranking
      position. */
  function AssignTitles(players: seq<Player>): (r: seq<Player>)
    ensures |r| == |players|
    ensures forall i :: 0 <= i < |players| ==> r[i] == players[i].(title := r[i].title)
    ensures forall p :: 0 <= p < |players| ==> r[RankingOrder(players)[p]].title == TitleAt(p, |players|)
  {
    RankingOrderDistinct(players);
    ApplyTitles(players, RankingOrder(players), 0, |players|)
  }

  /** `if (this.lastChampion)`: a recorded champion whose name is not empty. */
  predicate HasChampion(lastChampion: Option<string>) {
    lastChampion.Some? && lastChampion.value != ""
  }

  /** 都落ち: the previous champion, found by name, becomes 大貧民 unless they
      are 大富豪 again. */
  function Demote(players: seq<Player>, lastChampion: Option<string>): (r: seq<Player>)
    ensures |r| == |players|
    ensures forall i :: 0 <= i < |players| ==> r[i] == players[i].(title := r[i].title)
    ensures forall i :: 0 <= i < |players| && r[i].title != players[i].title ==>
      && HasChampion(lastChampion) && FindPlayer(players, lastChampion.value) == Some(i)
      && players[i].title != Daifugo && r[i].title == Daihinmin
    ensures HasChampion(lastChampion) && NameTaken(players, lastChampion.value) ==>
      var k := FindPlayer(players, lastChampion.value).value;
      players[k].title != Daifugo ==> r[k].title == Daihinmin
  {
    if !HasChampion(lastChampion) then players
    else match FindPlayer(players, lastChampion.value)
      case None => players
      case Some(k) =>
        if players[k].title != Daifugo then players[k := players[k].(title := Daihinmin)]
        else players
  }

  // ---------------------------------------------------------------------------
  // endGame.

  /** `players.find(p => !p.finished)` marked finished. */
  function FinishFirstUnfinished(players: seq<Player>): (r: seq<Player>)
    ensures |r| == |players|
    ensures forall i :: 0 <= i < |players| ==> r[i] == players[i].(finished := r[i].finished)
    ensures AllFinished(players) ==> r == players
    ensures !AllFinished(players) ==>
      exists k :: 0 <= k < |players| && !players[k].finished
        && (forall j :: 0 <= j < k ==> players[j].finished)
        && r == players[k := players[k].(finished := true)]
  {
    match FirstWhere(players, (p: Player) => !p.finished)
    case None => players
    case Some(k) => players[k := players[k].(finished := true)]
  }

  /** `endGame()`. A started room always has a seat (the turn points at one), so
      `ordered[0]` exists. */
  function EndGame(room: Room): (r: Room)
    requires |room.players| > 0
    ensures !r.started
    ensures r == room.(started := false, players := r.players, lastChampion := r.lastChampion)
    ensures |r.players| == |room.players|
    ensures r.lastChampion.Some?
    ensures AllFinished(r.players) <==> ActiveCount(room.players) <= 1
  {
    var closed := FinishFirstUnfinished(room.players);
    var titled := AssignTitles(closed);
    var players := Demote(titled, room.lastChampion);
    EndGameFinishes(room.players, closed, players);
    room.(
      players := players,
      lastChampion := Some(closed[RankingOrder(closed)[0]].name),
      started := false)
  }

  lemma EndGameFinishes(before: seq<Player>, closed: seq<Player>, after: seq<Player>)
    requires closed == FinishFirstUnfinished(before)
    requires |after| == |closed|
    requires forall i :: 0 <= i < |after| ==> after[i].finished == closed[i].finished
    ensures AllFinished(after) <==> ActiveCount(before) <= 1
  {
    ActiveCountSameFlags(after, closed);
    ActiveCountPositive(closed);
    ActiveCountPositive(after);
    if !AllFinished(before) {
      var k :| 0 <= k < |before| && !before[k].finished
        && (forall j :: 0 <= j < k ==> before[j].finished)
        && closed == before[k := before[k].(finished := true)];
      ActiveCountUpdate(before, k, closed[k]);
    } else {
      ActiveCountPositive(before);
    }
  }

  /** The hands and finished flags `endGame` ranks on: the room's hands, with the
      first unfinished seat closed. */
  lemma EndGameSeats(room: Room)
    requires |room.players| > 0
    ensures var r := EndGame(room);
      forall i :: 0 <= i < |room.players| ==>
        var p, q := r.players[i], FinishFirstUnfinished(room.players)[i];
        p == q.(title := p.title) && p.hand == room.players[i].hand
  {
  }

  /** The new champion is the seat holding the fewest cards, the lowest-numbered
      one among ties; it is titled 大富豪. The order in which seats went out plays
      no part. */
  lemma EndGameChampion(room: Room, c: nat)
    requires c < |room.players|
    requires forall j :: 0 <= j < |room.players| ==> |room.players[c].hand| <= |room.players[j].hand|
    requires forall j :: 0 <= j < c ==> |room.players[j].hand| > |room.players[c].hand|
    ensures EndGame(room).lastChampion == Some(room.players[c].name)
    ensures EndGame(room).players[c].title == Daifugo
  {
    var closed := FinishFirstUnfinished(room.players);
    var ordered := RankingOrder(closed);
    var p := RankingPosition(closed, c);
    assert AssignTitles(closed)[c].title == Daifugo;
  }

  /** The seat holding the most cards, the highest-numbered one among ties, is
      titled 大貧民 when there are two or more seats. */
  lemma EndGameLastPlace(room: Room, l: nat)
    requires 2 <= |room.players| && l < |room.players|
    requires forall j :: 0 <= j < |room.players| ==> |room.players[j].hand| <= |room.players[l].hand|
    requires forall j :: l < j < |room.players| ==> |room.players[j].hand| < |room.players[l].hand|
    ensures EndGame(room).players[l].title == Daihinmin
  {
    var closed := FinishFirstUnfinished(room.players);
    var ordered := RankingOrder(closed);
    var n := |closed|;
    var p := RankingPosition(closed, l);
    var j := ordered[n - 1];
    assert closed[l].hand == room.players[l].hand && closed[j].hand == room.players[j].hand;
    assert j == l;
    assert p == n - 1;
    var titled := AssignTitles(closed);
    assert titled[l].title == Daihinmin;
  }

  /** Apart from a demoted champion, a seat with fewer cards (or as many cards
      and a lower seat number) never gets a worse title. */
  lemma EndGameRanksByHandSize(room: Room, a: nat, b: nat)
    requires a < |room.players| && b < |room.players|
    requires RanksBefore(room.players, a, b)
    requires EndGame(room).players[a].title == AssignTitles(FinishFirstUnfinished(room.players))[a].title
    requires EndGame(room).players[b].title == AssignTitles(FinishFirstUnfinished(room.players))[b].title
    ensures TitleOrder(EndGame(room).players[a].title) <= TitleOrder(EndGame(room).players[b].title)
  {
    var closed := FinishFirstUnfinished(room.players);
    var ordered := RankingOrder(closed);
    var pa := RankingPosition(closed, a);
    var pb := RankingPosition(closed, b);
    TitleAtMonotone(pa, pb, |closed|);
  }

  /** Only a fallen champion's title departs from its ranking position: it is
      the first seat bearing the recorded champion's name, and it becomes 大貧民,
      next to the seat that earned 大貧民. */
  lemma EndGameDemotion(room: Room, i: nat)
    requires i < |room.players|
    requires EndGame(room).players[i].title != AssignTitles(FinishFirstUnfinished(room.players))[i].title
    ensures HasChampion(room.lastChampion)
    ensures FindPlayer(room.players, room.lastChampion.value) == Some(i)
    ensures EndGame(room).players[i].title == Daihinmin
  {
    var titled := AssignTitles(FinishFirstUnfinished(room.players));
    EndGameTitlesThenDemotes(room);
    assert HasChampion(room.lastChampion) && FindPlayer(titled, room.lastChampion.value) == Some(i);
    FindPlayerSameNames(titled, room.players, room.lastChampion.value);
  }

  /** The end of a game titles the seats, keeping their names, then demotes. */
  lemma EndGameTitlesThenDemotes(room: Room)
    requires |room.players| > 0
    ensures var titled := AssignTitles(FinishFirstUnfinished(room.players));
      && EndGame(room).players == Demote(titled, room.lastChampion)
      && |titled| == |room.players|
      && forall j :: 0 <= j < |titled| ==> titled[j].name == room.players[j].name
  {
  }

  /** When hand sizes never shrink from one seat to the next, the ranking is
      plain seat order. */
  lemma RankingFollowsSeats(players: seq<Player>)
    requires forall i, j :: 0 <= i < j < |players| ==> |players[i].hand| <= |players[j].hand|
    ensures forall p :: 0 <= p < |players| ==> RankingOrder(players)[p] == p
  {
    var ordered := RankingOrder(players);
    forall p, q | 0 <= p < q < |ordered| ensures ordered[p] < ordered[q] {
      assert RanksBefore(players, ordered[p], ordered[q]);
      assert !(ordered[q] < ordered[p]);
    }
    IncreasingBelowLengthIsRange(ordered);
  }

  /** Four seats where seats 0 to 2 have gone out and seat 3 still holds a card:
      the titles follow seat numbers, whoever went out first. */
  lemma EndGameIgnoresFinishingOrder(room: Room, c: Card)
    requires |room.players| == 4 && !HasChampion(room.lastChampion)
    requires forall i :: 0 <= i < 3 ==> room.players[i].hand == []
    requires room.players[3].hand == [c]
    ensures var t := EndGame(room).players;
      t[0].title == Daifugo && t[1].title == Fugo && t[2].title == Hinmin && t[3].title == Daihinmin
  {
    var closed := FinishFirstUnfinished(room.players);
    assert forall i :: 0 <= i < 4 ==> closed[i].hand == room.players[i].hand;
    RankingFollowsSeats(closed);
    var titled := AssignTitles(closed);
    assert forall p :: 0 <= p < 4 ==> titled[p].title == TitleAt(p, 4);
  }
}

=== FILE: registry.dfy ===
/** The server's room registry (server/server.js): the `rooms` object keyed by
    room id, what each socket remembers (`ws.roomId`, `ws.playerName`), and the
    decisions taken on `join`, on the in-room actions, on a socket closing, and
    by the inactivity sweep. Sockets are opaque ids; the clock is the `now`
    parameter; the shuffled deck a start deals is the `deck` parameter. */
module Registry {
  import opened Wrappers
  import opened Sequences
  import opened Cards
  import opened Seats
  import opened Rooms
  import opened Dealing
  import opened Play
  import opened Passing
  import opened Bot
  import opened Validation

  /** A dissolution under way: `deletedFlag` with `initialCount` and `exitCount`. */
  datatype Dissolution = Dissolution(initialCount: nat, exitCount: nat)

  /** A room as the server holds it, with `lastActive` (unset until the first
      `updateRoomActive`) and the dissolution state. */
  datatype Entry = Entry(room: Room, lastActive: Option<int>, dissolution: Option<Dissolution>)

  /** What a socket remembers once it has joined: `ws.roomId`, `ws.playerName`. */
  datatype Session = Session(roomId: Option<string>, playerName: Option<string>)

  datatype Registry = Registry(rooms: map<string, Entry>, sessions: map<ConnId, Session>)

  /** A message after JSON parsing. A missing field, or one of the wrong type, is
      `None`; `OtherRequest` is any other `type`. */
  datatype Request =
    | JoinRequest(roomId: Option<string>, name: Option<string>)
    | StartRequest
    | ResetRequest
    | PlayRequest(cards: Option<seq<Descriptor>>)
    | PassRequest
    | DissolveRequest
    | OtherRequest

  /** The error replies. */
  datatype Rejection =
    | BadRoomId          // ルームIDが不正です
    | BadName            // 名前が不正です
    | NameInOtherRoom    // 他の部屋で同名のプレイヤーが存在します。
    | GameInProgress     // ゲーム進行中のため入室不可
    | NameInUse          // `addPlayer`'s refusal
    | NoSuchRoom         // ルームが存在しません
    | BadCards           // カードデータが不正です
    | UnknownType        // 不明な操作です

  /** One message's effect: the new registry; an error reply, the registry left
      as it was; a handler that never returns (`startGame` stuck filling bot
      seats); or an exception thrown outside the handler's `try`. */
  datatype Outcome = Done(reg: Registry) | Refused(why: Rejection) | Hangs | Throws

  /** The properties every plain JavaScript object inherits from
      `Object.prototype` whose names pass the room id check. `rooms[id]` finds
      one of these (a function, or the prototype itself) when no room is stored
      under `id`, so `join` sees a truthy "room" without a `players` array. */
  const InheritedKeys: set<string> := {
    "constructor", "__proto__", "toString", "toLocaleString", "valueOf",
    "hasOwnProperty", "isPrototypeOf", "propertyIsEnumerable",
    "__defineGetter__", "__defineSetter__", "__lookupGetter__", "__lookupSetter__"
  }

  /** Five minutes, in milliseconds. */
  const InactivityLimit: int := 5 * 60 * 1000

  /** The most cards one `play` message may carry. */
  const MaxPlayCards: nat := 5

  /** Every stored room keeps the room invariants and is filed under its own id,
      which is not an inherited property name. */
  predicate RegistryOk(reg: Registry) {
    forall rid :: rid in reg.rooms ==>
      Invariant(reg.rooms[rid].room) && reg.rooms[rid].room.roomId == rid && rid !in InheritedKeys
  }

  /** A socket that has not joined remembers nothing. */
  function SessionOf(reg: Registry, c: ConnId): Session {
    if c in reg.sessions then reg.sessions[c] else Session(None, None)
  }

  /** `rooms[ws.roomId]`: an unset `ws.roomId` is looked up as the key `"undefined"`. */
  function RoomKey(s: Session): string {
    s.roomId.GetOr("undefined")
  }

  /** `room.players[0]?.name === ws.playerName`: the socket speaks for the first
      seat (an unset name matches an empty room). */
  predicate IsHost(room: Room, s: Session) {
    (if |room.players| > 0 then Some(room.players[0].name) else None) == s.playerName
  }

  /** The cross-room check: some other room seats a player of that name. */
  predicate NameElsewhere(reg: Registry, roomId: string, name: string) {
    exists rid :: rid in reg.rooms && rid != roomId && NameTaken(reg.rooms[rid].room.players, name)
  }

  /** `room.players.find(p => p.name === name && !p.connected)`. */
  function FindGhost(players: seq<Player>, name: string): (r: Option<nat>)
    ensures r.Some? ==> r.value < |players| && players[r.value].name == name && !players[r.value].connected
    ensures r.Some? ==> forall j :: 0 <= j < r.value ==> !(players[j].name == name && !players[j].connected)
    ensures r.None? ==> forall j :: 0 <= j < |players| ==> !(players[j].name == name && !players[j].connected)
  {
    FirstWhere(players, (p: Player) => p.name == name && !p.connected)
  }

  /** The entry `join` works on: the stored one, or a fresh room. */
  function JoinTarget(reg: Registry, rid: string): Entry {
    if rid in reg.rooms then reg.rooms[rid] else Entry(NewRoom(rid), None, None)
  }

  // ---------------------------------------------------------------------------
  // join.

  /** A `join` from socket `c`. A fresh room can fail neither the late-join nor
      the name-in-use test, so a refused join never leaves a new room behind.
      An id that names an inherited property (and no stored room) reaches
      `room.players.find` with `players` undefined, and the handler throws. */
  function Join(reg: Registry, c: ConnId, roomId: Option<string>, name: Option<string>): (r: Outcome)
    ensures !r.Hangs?
    ensures r.Throws? <==>
      && RoomIdAccepted(roomId) && NameAccepted(name) && !NameElsewhere(reg, roomId.value, name.value)
      && roomId.value in InheritedKeys && roomId.value !in reg.rooms
    ensures !RoomIdAccepted(roomId) ==> r == Refused(BadRoomId)
    ensures RoomIdAccepted(roomId) && !NameAccepted(name) ==> r == Refused(BadName)
    ensures RoomIdAccepted(roomId) && NameAccepted(name) && NameElsewhere(reg, roomId.value, name.value) ==>
      r == Refused(NameInOtherRoom)
    ensures r.Done? ==>
      && RoomIdAccepted(roomId) && NameAccepted(name) && !NameElsewhere(reg, roomId.value, name.value)
      && r.reg.sessions == reg.sessions[c := Session(roomId, name)]
      && r.reg.rooms.Keys == reg.rooms.Keys + {roomId.value}
      && (forall rid :: rid in reg.rooms && rid != roomId.value ==> r.reg.rooms[rid] == reg.rooms[rid])
  {
    if !RoomIdAccepted(roomId) then Refused(BadRoomId)
    else if !NameAccepted(name) then Refused(BadName)
    else
      var rid, n := roomId.value, name.value;
      if NameElsewhere(reg, rid, n) then Refused(NameInOtherRoom)
      else if rid in InheritedKeys && rid !in reg.rooms then Throws
      else
        var e := JoinTarget(reg, rid);
        var room := e.room;
        if room.started && !NameTaken(room.players, n) then Refused(GameInProgress)
        else
          var session := Session(roomId, name);
          match FindGhost(room.players, n)
          case Some(g) =>
            var seat := room.players[g].(conn := Some(c), connected := true);
            Done(Registry(reg.rooms[rid := e.(room := room.(players := room.players[g := seat]))],
                          reg.sessions[c := session]))
          case None =>
            var added := AddPlayer(room.players, n, c);
            if added.1 == NameConnected then Refused(NameInUse)
            else Done(Registry(reg.rooms[rid := e.(room := room.(players := added.0))],
                               reg.sessions[c := session]))
  }

  /** `constructor` is a well-formed room id, yet a join to it throws in any
      registry that keeps its invariants: no room can ever be stored under it. */
  lemma JoinToConstructorThrows(reg: Registry, c: ConnId, name: string)
    requires RegistryOk(reg)
    requires NameAccepted(Some(name)) && !NameElsewhere(reg, "constructor", name)
    ensures RoomIdAccepted(Some("constructor"))
    ensures Join(reg, c, Some("constructor"), Some(name)) == Throws
  {
    ConstructorIsInheritedRoomId();
    JoinToInheritedKeyThrows(reg, c, "constructor", name);
  }

  lemma ConstructorIsInheritedRoomId()
    ensures RoomIdAccepted(Some("constructor")) && "constructor" in InheritedKeys
  {
    ConstructorIsRoomId();
  }

  lemma ConstructorIsRoomId()
    ensures RoomIdAccepted(Some("constructor"))
  {
    RoomIdAcceptedIff("constructor");
  }

  /** A join to an inherited key throws when the registry keeps its invariants. */
  lemma JoinToInheritedKeyThrows(reg: Registry, c: ConnId, rid: string, name: string)
    requires RegistryOk(reg) && rid in InheritedKeys
    requires RoomIdAccepted(Some(rid)) && NameAccepted(Some(name)) && !NameElsewhere(reg, rid, name)
    ensures Join(reg, c, Some(rid), Some(name)) == Throws
  {
    assert rid !in reg.rooms;
    var r := Join(reg, c, Some(rid), Some(name));
    assert r.Throws?;
  }

  /** A late arrival is turned away: the game has started and no seat has the name. */
  lemma JoinNoLateJoin(reg: Registry, c: ConnId, rid: string, name: string)
    requires RoomIdAccepted(Some(rid)) && NameAccepted(Some(name)) && !NameElsewhere(reg, rid, name)
    requires rid in reg.rooms && reg.rooms[rid].room.started
    requires !NameTaken(reg.rooms[rid].room.players, name)
    ensures Join(reg, c, Some(rid), Some(name)) == Refused(GameInProgress)
  {
  }

  /** A name held by a connected seat is refused, so a second socket cannot take
      over a live player's seat; the registry is left as it was. */
  lemma JoinNameInUse(reg: Registry, c: ConnId, rid: string, name: string, k: nat)
    requires RegistryOk(reg)
    requires RoomIdAccepted(Some(rid)) && NameAccepted(Some(name)) && !NameElsewhere(reg, rid, name)
    requires rid in reg.rooms
    requires FindPlayer(reg.rooms[rid].room.players, name) == Some(k)
    requires reg.rooms[rid].room.players[k].connected
    ensures Join(reg, c, Some(rid), Some(name)) == Refused(NameInUse)
  {
    var ps := reg.rooms[rid].room.players;
    assert NamesUnique(ps);
    assert FindGhost(ps, name).None? by {
      forall j | 0 <= j < |ps| && ps[j].name == name ensures ps[j].connected {
        FindPlayerUnique(ps, name, j);
      }
    }
  }

  /** A new name in a waiting room gets exactly one new seat, at the end; a
      missing room is created with that one seat and no activity time. */
  lemma JoinSeatsNewName(reg: Registry, c: ConnId, rid: string, name: string)
    requires RoomIdAccepted(Some(rid)) && NameAccepted(Some(name)) && !NameElsewhere(reg, rid, name)
    requires rid !in InheritedKeys
    requires !JoinTarget(reg, rid).room.started
    requires !NameTaken(JoinTarget(reg, rid).room.players, name)
    ensures Join(reg, c, Some(rid), Some(name)).Done?
    ensures var e, e' := JoinTarget(reg, rid), Join(reg, c, Some(rid), Some(name)).reg.rooms[rid];
      && e'.room.players == e.room.players + [NewPlayer(name, Some(c), false)]
      && e' == e.(room := e.room.(players := e'.room.players))
    ensures rid !in reg.rooms ==>
      Join(reg, c, Some(rid), Some(name)).reg.rooms[rid] ==
        Entry(NewRoom(rid).(players := [NewPlayer(name, Some(c), false)]), None, None)
  {
    var e := JoinTarget(reg, rid);
    assert FindGhost(e.room.players, name).None?;
    var added := AddPlayer(e.room.players, name, c);
    assert added.0 == e.room.players + [NewPlayer(name, Some(c), false)] by {
      assert added.0[..|e.room.players|] == e.room.players;
    }
  }

  /** A disconnected seat of that name is taken over in place: it gets the socket
      and is connected again, and keeps its hand, flags and title; no seat is
      added and no other seat changes. */
  lemma JoinRebindsGhost(reg: Registry, c: ConnId, rid: string, name: string, g: nat)
    requires RoomIdAccepted(Some(rid)) && NameAccepted(Some(name)) && !NameElsewhere(reg, rid, name)
    requires rid in reg.rooms
    requires FindGhost(reg.rooms[rid].room.players, name) == Some(g)
    ensures Join(reg, c, Some(rid), Some(name)).Done?
    ensures var ps, e' := reg.rooms[rid].room.players, Join(reg, c, Some(rid), Some(name)).reg.rooms[rid];
      && |e'.room.players| == |ps|
      && e'.room.players[g] == ps[g].(conn := Some(c), connected := true)
      && (forall j :: 0 <= j < |ps| && j != g ==> e'.room.players[j] == ps[j])
      && e' == reg.rooms[rid].(room := reg.rooms[rid].room.(players := e'.room.players))
  {
    assert NameTaken(reg.rooms[rid].room.players, name);
  }

  /** Bots are created disconnected, so a human who joins under a bot's name
      takes over its seat as a ghost, and the seat stays a bot: when it holds
      the turn, the bot still plays it. */
  lemma JoinTakesOverBotSeat(reg: Registry, c: ConnId, rid: string, k: nat)
    requires RegistryOk(reg) && rid in reg.rooms
    requires var ps := reg.rooms[rid].room.players;
      k < |ps| && ps[k].isNpc && !ps[k].connected && !ps[k].finished
    requires var room := reg.rooms[rid].room; room.started && room.currentTurn == k
    requires RoomIdAccepted(Some(rid)) && NameAccepted(Some(reg.rooms[rid].room.players[k].name))
    requires !NameElsewhere(reg, rid, reg.rooms[rid].room.players[k].name)
    ensures var name := reg.rooms[rid].room.players[k].name;
      var r := Join(reg, c, Some(rid), Some(name));
      && r.Done?
      && var seat := r.reg.rooms[rid].room.players[k];
      && seat.isNpc && seat.connected && seat.conn == Some(c)
      && TurnInRange(r.reg.rooms[rid].room) && NpcDue(r.reg.rooms[rid].room)
  {
    var ps := reg.rooms[rid].room.players;
    var name := ps[k].name;
    FindPlayerUnique(ps, name, k);
    assert FindGhost(ps, name) == Some(k);
    JoinRebindsGhost(reg, c, rid, name, k);
  }

  // ---------------------------------------------------------------------------
  // Actions inside a room.

  /** `start` and `reset`: the host of a waiting room starts a game; anyone else,
      or a running game, is ignored. */
  function HostStart(reg: Registry, key: string, s: Session, now: int, deck: seq<Card>): (r: Outcome)
    requires key in reg.rooms
    ensures !r.Refused?
    ensures !IsHost(reg.rooms[key].room, s) || reg.rooms[key].room.started ==> r == Done(reg)
    ensures r.Hangs? <==>
      IsHost(reg.rooms[key].room, s) && !reg.rooms[key].room.started && StartGame(reg.rooms[key].room, deck).None?
    ensures r.Done? && r.reg != reg ==>
      && r.reg.sessions == reg.sessions
      && r.reg.rooms == reg.rooms[key := reg.rooms[key].(room := StartGame(reg.rooms[key].room, deck).value,
                                                      lastActive := Some(now))]
    ensures IsHost(reg.rooms[key].room, s) && !reg.rooms[key].room.started && StartGame(reg.rooms[key].room, deck).Some? ==>
      && r.Done? && r.reg != reg
      && r.reg.rooms[key].room == StartGame(reg.rooms[key].room, deck).value
      && r.reg.rooms[key].room.started && r.reg.rooms[key].lastActive == Some(now)
  {
    var e := reg.rooms[key];
    if IsHost(e.room, s) && !e.room.started then
      match StartGame(e.room, deck)
      case None => Hangs
      case Some(g) => Done(reg.(rooms := reg.rooms[key := e.(room := g, lastActive := Some(now))]))
    else Done(reg)
  }

  /** The room with the socket's play applied; an unset name matches no seat. */
  function PlayAs(room: Room, name: Option<string>, cards: seq<Descriptor>): Room
    requires TurnInRange(room)
  {
    match name
    case None => room
    case Some(n) => HandlePlay(room, n, cards)
  }

  function PassAs(room: Room, name: Option<string>): Room
    requires TurnInRange(room) && OwnerInRange(room)
  {
    match name
    case None => room
    case Some(n) => HandlePass(room, n)
  }

  /** Any message other than `join`, from socket `c`: look the room up by the
      socket's remembered id, then dispatch on the type. */
  function Act(reg: Registry, c: ConnId, req: Request, now: int, deck: seq<Card>): (r: Outcome)
    requires RegistryOk(reg) && !req.JoinRequest?
    ensures RoomKey(SessionOf(reg, c)) !in reg.rooms ==> r == Refused(NoSuchRoom)
    ensures r.Hangs? ==> req.StartRequest? || req.ResetRequest?
    ensures r.Done? ==> r.reg.sessions == reg.sessions && r.reg.rooms.Keys == reg.rooms.Keys
    ensures r.Done? ==> forall rid :: rid in reg.rooms && rid != RoomKey(SessionOf(reg, c)) ==>
      r.reg.rooms[rid] == reg.rooms[rid]
  {
    var s := SessionOf(reg, c);
    var key := RoomKey(s);
    if key !in reg.rooms then Refused(NoSuchRoom)
    else
      var e := reg.rooms[key];
      match req
      case StartRequest => HostStart(reg, key, s, now, deck)
      case ResetRequest => HostStart(reg, key, s, now, deck)
      case PlayRequest(cards) =>
        if cards.None? || |cards.value| == 0 || |cards.value| > MaxPlayCards then Refused(BadCards)
        else Done(reg.(rooms := reg.rooms[key := e.(room := PlayAs(e.room, s.playerName, cards.value),
                                                    lastActive := Some(now))]))
      case PassRequest =>
        Done(reg.(rooms := reg.rooms[key := e.(room := PassAs(e.room, s.playerName), lastActive := Some(now))]))
      case DissolveRequest =>
        if IsHost(e.room, s) then
          Done(reg.(rooms := reg.rooms[key := e.(dissolution := Some(Dissolution(|e.room.players|, 0)))]))
        else Done(reg)
      case OtherRequest => Refused(UnknownType)
  }

  /** One message from socket `c`. */
  function Step(reg: Registry, c: ConnId, req: Request, now: int, deck: seq<Card>): Outcome
    requires RegistryOk(reg)
  {
    match req
    case JoinRequest(roomId, name) => Join(reg, c, roomId, name)
    case _ => Act(reg, c, req, now, deck)
  }

  /** A `play` message whose `cards` is not an array of 1 to 5 entries gets an
      error reply before the room sees it. Otherwise the room's `handlePlay`
      decides, and the room's activity time is refreshed whether or not the
      play was accepted. */
  lemma PlayMessageChecked(reg: Registry, c: ConnId, cards: Option<seq<Descriptor>>, now: int, deck: seq<Card>)
    requires RegistryOk(reg)
    requires RoomKey(SessionOf(reg, c)) in reg.rooms
    ensures var r := Act(reg, c, PlayRequest(cards), now, deck);
      var s := SessionOf(reg, c);
      var e := reg.rooms[RoomKey(s)];
      && (r.Refused? <==> cards.None? || |cards.value| == 0 || |cards.value| > MaxPlayCards)
      && (r.Refused? ==> r.why == BadCards)
      && (r.Done? ==>
            r.reg.rooms[RoomKey(s)] == e.(room := PlayAs(e.room, s.playerName, cards.value), lastActive := Some(now)))
  {
  }

  /** `start` and `reset` act only for the host of a waiting room, which gets the
      started game and a fresh activity time, or hangs when dealing hangs; from
      anyone else, or to a running game, they change nothing. */
  lemma StartMessageHostOnly(reg: Registry, c: ConnId, req: Request, now: int, deck: seq<Card>)
    requires RegistryOk(reg) && (req.StartRequest? || req.ResetRequest?)
    requires RoomKey(SessionOf(reg, c)) in reg.rooms
    ensures var r := Act(reg, c, req, now, deck);
      var s := SessionOf(reg, c);
      var key := RoomKey(s);
      var e := reg.rooms[key];
      && (!IsHost(e.room, s) || e.room.started ==> r == Done(reg))
      && (IsHost(e.room, s) && !e.room.started && StartGame(e.room, deck).None? ==> r == Hangs)
      && (IsHost(e.room, s) && !e.room.started && StartGame(e.room, deck).Some? ==>
            r == Done(reg.(rooms := reg.rooms[key := e.(room := StartGame(e.room, deck).value,
                                                         lastActive := Some(now))])))
  {
  }

  /** A `pass` always reaches the room's `handlePass` under the socket's name,
      and refreshes the room's activity time whether or not the pass was
      accepted; nothing else in the registry changes. */
  lemma PassMessageRefreshes(reg: Registry, c: ConnId, now: int, deck: seq<Card>)
    requires RegistryOk(reg)
    requires RoomKey(SessionOf(reg, c)) in reg.rooms
    ensures var r := Act(reg, c, PassRequest, now, deck);
      var s := SessionOf(reg, c);
      var key := RoomKey(s);
      var e := reg.rooms[key];
      && TurnInRange(e.room) && OwnerInRange(e.room)
      && r == Done(reg.(rooms := reg.rooms[key := e.(room := PassAs(e.room, s.playerName), lastActive := Some(now))]))
  {
  }

  /** A message of any other type gets the unknown-type reply, once the
      socket's room is found. */
  lemma OtherMessageRefused(reg: Registry, c: ConnId, now: int, deck: seq<Card>)
    requires RegistryOk(reg)
    ensures Act(reg, c, OtherRequest, now, deck) ==
      if RoomKey(SessionOf(reg, c)) in reg.rooms then Refused(UnknownType) else Refused(NoSuchRoom)
  {
  }

  /** The host's `dissolve` arms the exit counter with the number of seats,
      bots included; anyone else is ignored. */
  lemma DissolveArmsCounter(reg: Registry, c: ConnId, now: int, deck: seq<Card>)
    requires RegistryOk(reg)
    requires RoomKey(SessionOf(reg, c)) in reg.rooms
    ensures var r := Act(reg, c, DissolveRequest, now, deck);
      var key := RoomKey(SessionOf(reg, c));
      var e := reg.rooms[key];
      && r.Done?
      && (IsHost(e.room, SessionOf(reg, c)) ==>
            r.reg.rooms[key] == e.(dissolution := Some(Dissolution(|e.room.players|, 0))))
      && (!IsHost(e.room, SessionOf(reg, c)) ==> r.reg == reg)
  {
  }

  /** A socket that never joined acts on the room whose id is the text
      `undefined`, when one exists: its pass refreshes that room's activity. */
  lemma UnjoinedSocketReachesUndefinedRoom(reg: Registry, c: ConnId, now: int, deck: seq<Card>)
    requires RegistryOk(reg) && c !in reg.sessions && "undefined" in reg.rooms
    ensures Act(reg, c, PassRequest, now, deck).Done?
    ensures Act(reg, c, PassRequest, now, deck).reg.rooms["undefined"].lastActive == Some(now)
  {
  }

  // ---------------------------------------------------------------------------
  // A socket closes.

  /** `getPlayer(playerName)` marked disconnected, if there is one. */
  function MarkDisconnected(players: seq<Player>, name: Option<string>): (r: seq<Player>)
    ensures |r| == |players|
    ensures forall j :: 0 <= j < |players| ==>
      r[j] == players[j] || (r[j] == players[j].(connected := false, conn := None) && Some(players[j].name) == name)
    ensures name.Some? && NameTaken(players, name.value) ==>
      var k := FindPlayer(players, name.value).value;
      && r[k] == players[k].(connected := false, conn := None)
      && forall j :: 0 <= j < |players| && j != k ==> r[j] == players[j]
    ensures !(name.Some? && NameTaken(players, name.value)) ==> r == players
  {
    match name
    case None => players
    case Some(n) =>
      match FindPlayer(players, n)
      case None => players
      case Some(k) => players[k := players[k].(connected := false, conn := None)]
  }

  predicate NoneConnected(players: seq<Player>) {
    forall j :: 0 <= j < |players| ==> !players[j].connected
  }

  /** The `close` handler for socket `c`. */
  function Close(reg: Registry, c: ConnId, now: int): (r: Registry)
    ensures r.sessions == reg.sessions - {c}
    ensures r.rooms.Keys <= reg.rooms.Keys
    ensures forall rid :: rid in reg.rooms && Some(rid) != SessionOf(reg, c).roomId ==>
      rid in r.rooms && r.rooms[rid] == reg.rooms[rid]
  {
    var s := SessionOf(reg, c);
    var sessions := reg.sessions - {c};
    if s.roomId.None? || s.roomId.value !in reg.rooms then reg.(sessions := sessions)
    else
      var rid := s.roomId.value;
      var e := reg.rooms[rid];
      var room := e.room.(players := MarkDisconnected(e.room.players, s.playerName));
      match e.dissolution
      case Some(d) =>
        var exits := d.exitCount + 1;
        if exits >= d.initialCount then Registry(reg.rooms - {rid}, sessions)
        else Registry(reg.rooms[rid := e.(room := room, dissolution := Some(d.(exitCount := exits)))], sessions)
      case None =>
        if NoneConnected(room.players) then Registry(reg.rooms - {rid}, sessions)
        else Registry(reg.rooms[rid := e.(room := room, lastActive := Some(now))], sessions)
  }

  /** During a dissolution every close counts one exit, and the room goes once
      the exits reach the seat count taken at dissolution. */
  lemma CloseCountsExits(reg: Registry, c: ConnId, now: int)
    requires var s := SessionOf(reg, c); s.roomId.Some? && s.roomId.value in reg.rooms
    requires reg.rooms[SessionOf(reg, c).roomId.value].dissolution.Some?
    ensures var rid := SessionOf(reg, c).roomId.value;
      var d := reg.rooms[rid].dissolution.value;
      var r := Close(reg, c, now);
      var e := reg.rooms[rid];
      var left := MarkDisconnected(e.room.players, SessionOf(reg, c).playerName);
      && (rid !in r.rooms <==> d.exitCount + 1 >= d.initialCount)
      && (rid in r.rooms ==>
            r.rooms[rid] == e.(room := e.room.(players := left), dissolution := Some(d.(exitCount := d.exitCount + 1))))
  {
  }

  /** Outside a dissolution a close removes the room exactly when no seat is left
      connected, and otherwise refreshes its activity time. */
  lemma CloseDeletesWhenEmpty(reg: Registry, c: ConnId, now: int)
    requires var s := SessionOf(reg, c); s.roomId.Some? && s.roomId.value in reg.rooms
    requires reg.rooms[SessionOf(reg, c).roomId.value].dissolution.None?
    ensures var s := SessionOf(reg, c);
      var rid := s.roomId.value;
      var left := MarkDisconnected(reg.rooms[rid].room.players, s.playerName);
      var r := Close(reg, c, now);
      && (rid !in r.rooms <==> NoneConnected(left))
      && (rid in r.rooms ==> r.rooms[rid] == reg.rooms[rid].(room := reg.rooms[rid].room.(players := left), lastActive := Some(now)))
  {
  }

  /** Closing sockets one after another. */
  function CloseAll(reg: Registry, cs: seq<ConnId>, now: int): Registry
    decreases |cs|
  {
    if |cs| == 0 then reg else CloseAll(Close(reg, cs[0], now), cs[1..], now)
  }

  /** One close keeps a dissolving room while its exits stay below the count, and
      adds at most one exit. */
  lemma CloseKeepsDissolvingRoom(reg: Registry, rid: string, c: ConnId, now: int)
    requires rid in reg.rooms && reg.rooms[rid].dissolution.Some?
    requires reg.rooms[rid].dissolution.value.exitCount + 1 < reg.rooms[rid].dissolution.value.initialCount
    ensures var r := Close(reg, c, now);
      && rid in r.rooms && r.rooms[rid].dissolution.Some?
      && r.rooms[rid].dissolution.value.initialCount == reg.rooms[rid].dissolution.value.initialCount
      && r.rooms[rid].dissolution.value.exitCount <= reg.rooms[rid].dissolution.value.exitCount + 1
  {
  }

  /** A dissolving room outlives any run of closes shorter than the exits it is
      still waiting for. */
  lemma {:induction false} DissolvingRoomOutlivesCloses(reg: Registry, rid: string, cs: seq<ConnId>, now: int)
    requires rid in reg.rooms && reg.rooms[rid].dissolution.Some?
    requires reg.rooms[rid].dissolution.value.exitCount + |cs| < reg.rooms[rid].dissolution.value.initialCount
    ensures rid in CloseAll(reg, cs, now).rooms
    decreases |cs|
  {
    if |cs| > 0 {
      CloseKeepsDissolvingRoom(reg, rid, cs[0], now);
      DissolvingRoomOutlivesCloses(Close(reg, cs[0], now), rid, cs[1..], now);
    }
  }

  /** Bots count toward the exits a dissolution waits for, but have no socket to
      close: in a room of one human and three bots, after the host's dissolution
      three closes are not enough to delete the room. */
  lemma DissolutionWaitsForBots(reg: Registry, c: ConnId, cs: seq<ConnId>, now: int, deck: seq<Card>)
    requires RegistryOk(reg)
    requires var key := RoomKey(SessionOf(reg, c));
      && key in reg.rooms && |reg.rooms[key].room.players| == 4
      && IsHost(reg.rooms[key].room, SessionOf(reg, c))
    requires |cs| <= 3
    ensures var key := RoomKey(SessionOf(reg, c));
      var r := Act(reg, c, DissolveRequest, now, deck);
      && r.Done?
      && key in CloseAll(r.reg, cs, now).rooms
  {
    DissolveArmsCounter(reg, c, now, deck);
    var r := Act(reg, c, DissolveRequest, now, deck);
    DissolvingRoomOutlivesCloses(r.reg, RoomKey(SessionOf(reg, c)), cs, now);
  }

  // ---------------------------------------------------------------------------
  // The inactivity sweep.

  /** More than five minutes since the last activity, an unset time counting as 0. */
  predicate Expired(e: Entry, now: int) {
    now - e.lastActive.GetOr(0) > InactivityLimit
  }

  /** One run of the sweep at time `now`: expired rooms are removed. */
  function Sweep(reg: Registry, now: int): (r: Registry)
    ensures r.sessions == reg.sessions
    ensures forall rid :: rid in r.rooms <==> rid in reg.rooms && !Expired(reg.rooms[rid], now)
    ensures forall rid :: rid in r.rooms ==> r.rooms[rid] == reg.rooms[rid]
  {
    reg.(rooms := map rid | rid in reg.rooms && !Expired(reg.rooms[rid], now) :: reg.rooms[rid])
  }

  /** `join` never sets the activity time, so a room created by a join is swept
      at the first run after time 300000 (five minutes after the epoch), however
      recently it was created. */
  lemma FreshRoomIsSwept(reg: Registry, c: ConnId, rid: string, name: string, now: int)
    requires rid !in reg.rooms
    requires Join(reg, c, Some(rid), Some(name)).Done?
    requires now > InactivityLimit
    ensures rid !in Sweep(Join(reg, c, Some(rid), Some(name)).reg, now).rooms
  {
    assert JoinTarget(reg, rid).lastActive.None?;
    var e' := Join(reg, c, Some(rid), Some(name)).reg.rooms[rid];
    assert e'.lastActive.None?;
  }

  // ---------------------------------------------------------------------------
  // The registry invariant.

  /** Seats changed only in their socket and connection flag keep a room's invariants. */
  lemma ConnectionChangeKeepsInvariant(room: Room, players: seq<Player>)
    requires Invariant(room) && |players| == |room.players|
    requires forall j :: 0 <= j < |players| ==>
      players[j] == room.players[j].(conn := players[j].conn, connected := players[j].connected)
    ensures Invariant(room.(players := players))
  {
    ActiveCountSameFlags(room.players, players);
  }

  lemma JoinKeepsRegistryOk(reg: Registry, c: ConnId, roomId: Option<string>, name: Option<string>)
    requires RegistryOk(reg)
    requires Join(reg, c, roomId, name).Done?
    ensures RegistryOk(Join(reg, c, roomId, name).reg)
  {
    var rid, n := roomId.value, name.value;
    var e := JoinTarget(reg, rid);
    var room := e.room;
    var sessions := reg.sessions[c := Session(roomId, name)];
    assert Invariant(room) && room.roomId == rid && rid !in InheritedKeys;
    match FindGhost(room.players, n)
    case Some(g) =>
      var seat := room.players[g].(conn := Some(c), connected := true);
      var stored := e.(room := room.(players := room.players[g := seat]));
      assert Join(reg, c, roomId, name) == Done(Registry(reg.rooms[rid := stored], sessions));
      ConnectionChangeKeepsInvariant(room, room.players[g := seat]);
      StoreKeepsRegistryOk(reg, rid, stored, sessions);
    case None =>
      var added := AddPlayer(room.players, n, c);
      var stored := e.(room := room.(players := added.0));
      assert added.1 == Seated && !room.started;
      assert Join(reg, c, roomId, name) == Done(Registry(reg.rooms[rid := stored], sessions));
      AddPlayerKeepsNamesUnique(room.players, n, c);
      StoreKeepsRegistryOk(reg, rid, stored, sessions);
  }

  /** Filing a valid room under its own, non-inherited id keeps the registry valid. */
  lemma StoreKeepsRegistryOk(reg: Registry, rid: string, stored: Entry, sessions: map<ConnId, Session>)
    requires RegistryOk(reg)
    requires Invariant(stored.room) && stored.room.roomId == rid && rid !in InheritedKeys
    ensures RegistryOk(Registry(reg.rooms[rid := stored], sessions))
  {
  }

  lemma ActKeepsRegistryOk(reg: Registry, c: ConnId, req: Request, now: int, deck: seq<Card>)
    requires RegistryOk(reg) && !req.JoinRequest?
    requires Act(reg, c, req, now, deck).Done?
    ensures RegistryOk(Act(reg, c, req, now, deck).reg)
  {
    var s := SessionOf(reg, c);
    var key := RoomKey(s);
    var e := reg.rooms[key];
    assert Invariant(e.room) && e.room.roomId == key && key !in InheritedKeys;
    match req
    case StartRequest =>
      HostStartKeepsRegistryOk(reg, key, s, now, deck);
    case ResetRequest =>
      HostStartKeepsRegistryOk(reg, key, s, now, deck);
    case PlayRequest(cards) =>
      PlayAsKeepsInvariant(e.room, s.playerName, cards.value);
      StoreKeepsRegistryOk(reg, key, e.(room := PlayAs(e.room, s.playerName, cards.value), lastActive := Some(now)),
                           reg.sessions);
    case PassRequest =>
      PassAsKeepsInvariant(e.room, s.playerName);
      StoreKeepsRegistryOk(reg, key, e.(room := PassAs(e.room, s.playerName), lastActive := Some(now)), reg.sessions);
    case DissolveRequest =>
      StoreKeepsRegistryOk(reg, key, e.(dissolution := Some(Dissolution(|e.room.players|, 0))), reg.sessions);
    case OtherRequest =>
  }

  lemma HostStartKeepsRegistryOk(reg: Registry, key: string, s: Session, now: int, deck: seq<Card>)
    requires RegistryOk(reg) && key in reg.rooms
    requires HostStart(reg, key, s, now, deck).Done?
    ensures RegistryOk(HostStart(reg, key, s, now, deck).reg)
  {
    var e := reg.rooms[key];
    if IsHost(e.room, s) && !e.room.started {
      var g := StartGame(e.room, deck).value;
      StartGameInvariant(e.room, deck);
      StoreKeepsRegistryOk(reg, key, e.(room := g, lastActive := Some(now)), reg.sessions);
    }
  }

  /** A play, whether accepted or ignored, keeps the room valid and its id. */
  lemma PlayAsKeepsInvariant(room: Room, name: Option<string>, cards: seq<Descriptor>)
    requires Invariant(room)
    ensures TurnInRange(room)
    ensures Invariant(PlayAs(room, name, cards)) && PlayAs(room, name, cards).roomId == room.roomId
  {
    if name.Some? {
      HandlePlayKeepsInvariant(room, name.value, cards);
      if TryPlay(room, name.value, cards).Success? {
        PlayField(room, name.value, cards);
      }
    }
  }

  /** A pass, whether accepted or ignored, keeps the room valid and its id. */
  lemma PassAsKeepsInvariant(room: Room, name: Option<string>)
    requires Invariant(room)
    ensures TurnInRange(room) && OwnerInRange(room)
    ensures Invariant(PassAs(room, name)) && PassAs(room, name).roomId == room.roomId
  {
    if name.Some? {
      HandlePassKeepsInvariant(room, name.value);
      if TryPass(room, name.value).Success? {
        PassFlushesIff(room, name.value);
      }
    }
  }

  lemma CloseKeepsRegistryOk(reg: Registry, c: ConnId, now: int)
    requires RegistryOk(reg)
    ensures RegistryOk(Close(reg, c, now))
  {
    var s := SessionOf(reg, c);
    var sessions := reg.sessions - {c};
    if s.roomId.Some? && s.roomId.value in reg.rooms {
      var rid := s.roomId.value;
      var e := reg.rooms[rid];
      var room := e.room.(players := MarkDisconnected(e.room.players, s.playerName));
      ConnectionChangeKeepsInvariant(e.room, room.players);
      assert Invariant(room) && room.roomId == rid && rid !in InheritedKeys;
      RemoveKeepsRegistryOk(reg, rid, sessions);
      match e.dissolution
      case Some(d) =>
        StoreKeepsRegistryOk(reg, rid, e.(room := room, dissolution := Some(d.(exitCount := d.exitCount + 1))), sessions);
      case None =>
        StoreKeepsRegistryOk(reg, rid, e.(room := room, lastActive := Some(now)), sessions);
    }
  }

  /** Dropping a room keeps the registry valid. */
  lemma RemoveKeepsRegistryOk(reg: Registry, rid: string, sessions: map<ConnId, Session>)
    requires RegistryOk(reg)
    ensures RegistryOk(Registry(reg.rooms - {rid}, sessions))
  {
  }

  lemma SweepKeepsRegistryOk(reg: Registry, now: int)
    requires RegistryOk(reg)
    ensures RegistryOk(Sweep(reg, now))
  {
  }

  /** The server starts with no rooms and no sessions. */
  const EmptyRegistry: Registry := Registry(map[], map[])

  /** The server starts with no rooms and no sessions, which keeps the registry
      invariants. */
  lemma EmptyRegistryOk()
    ensures RegistryOk(EmptyRegistry)
  {
  }

  /** Every message handled to completion keeps the registry invariants, so each
      room the server holds is one the room rules can act on. */
  lemma StepKeepsRegistryOk(reg: Registry, c: ConnId, req: Request, now: int, deck: seq<Card>)
    requires RegistryOk(reg)
    ensures Step(reg, c, req, now, deck).Done? ==> RegistryOk(Step(reg, c, req, now, deck).reg)
  {
    if Step(reg, c, req, now, deck).Done? {
      match req
      case JoinRequest(roomId, name) => JoinKeepsRegistryOk(reg, c, roomId, name);
      case _ => ActKeepsRegistryOk(reg, c, req, now, deck);
    }
  }
}

=== FILE: rooms.dfy ===
/** The room record of server/GameRoom.js and the helpers every rule shares:
    counting unfinished seats, `getNextAlive`, `isGameOver`, and the invariants
    a room keeps between messages. */
module Rooms {
  import opened Wrappers
  import opened Sequences
  import opened Cards
  import opened Seats

  /** `lastMoveInfo`: who moved, how, and which special effects fired
      (8切り = eight-clear, 革命 = revolution, 場流し = flush). */
  datatype MoveInfo =
    | PlayMove(player: string, cards: seq<Card>, eightCut: bool, revolution: bool)
    | PassMove(player: string, flushed: bool)

  /** A room. The field is `lastPlayedCards` with its rank and size, owned by
      seat `lastPlayerIndex`; `passCount` counts passes since it was played. */
  datatype Room = Room(
    roomId: string,
    players: seq<Player>,
    started: bool,
    currentTurn: nat,
    lastPlayedCards: seq<Card>,
    lastPlayedRank: Option<int>,
    lastPlayedCount: nat,
    lastPlayerIndex: Option<nat>,
    passCount: nat,
    revolution: bool,
    lastChampion: Option<string>,
    lastMove: Option<MoveInfo>)

  /** `new GameRoom(roomId)`. */
  function NewRoom(roomId: string): Room {
    Room(roomId, [], false, 0, [], None, 0, None, 0, false, None, None)
  }

  /** The field is empty: the next play is free. */
  predicate FieldEmpty(room: Room) {
    |room.lastPlayedCards| == 0
  }

  /** Structural facts every operation keeps: the turn pointer and field owner
      address seats, and the field's rank and count agree with its cards. */
  predicate Wf(room: Room) {
    && (room.started ==> room.currentTurn < |room.players|)
    && (room.lastPlayerIndex.Some? ==> room.lastPlayerIndex.value < |room.players|)
    && (FieldEmpty(room) ==> room.lastPlayedRank.None? && room.lastPlayedCount == 0)
    && (!FieldEmpty(room) ==> room.lastPlayedRank.Some? && room.lastPlayedCount == |room.lastPlayedCards|)
  }

  lemma NewRoomWf(roomId: string)
    ensures Wf(NewRoom(roomId)) && !NewRoom(roomId).started && NewRoom(roomId).players == []
  {
  }

  // ---------------------------------------------------------------------------
  // Unfinished seats.

  /** `players.filter(p => !p.finished).length`. */
  function ActiveCount(players: seq<Player>): nat {
    if |players| == 0 then 0
    else (if players[0].finished then 0 else 1) + ActiveCount(players[1..])
  }

  /** The seat numbers from `lo` on whose seat is still in. */
  function ActiveSeatsFrom(players: seq<Player>, lo: nat): set<nat> {
    set j: nat | lo <= j < |players| && !players[j].finished
  }

  /** The seat numbers whose seat is still in. */
  function ActiveSeats(players: seq<Player>): set<nat> {
    ActiveSeatsFrom(players, 0)
  }

  /** The running count of seats still in is the number of such seats. */
  lemma ActiveCountIsSeatCount(players: seq<Player>)
    ensures ActiveCount(players) == |ActiveSeats(players)|
  {
    ActiveCountSuffix(players, 0);
    assert players[0..] == players;
  }

  lemma {:induction false} ActiveCountSuffix(players: seq<Player>, lo: nat)
    requires lo <= |players|
    ensures ActiveCount(players[lo..]) == |ActiveSeatsFrom(players, lo)|
    decreases |players| - lo
  {
    if lo == |players| {
      assert ActiveSeatsFrom(players, lo) == {};
    } else {
      ActiveCountSuffix(players, lo + 1);
      assert players[lo..][1..] == players[lo + 1..];
      if players[lo].finished {
        assert ActiveSeatsFrom(players, lo) == ActiveSeatsFrom(players, lo + 1);
      } else {
        assert ActiveSeatsFrom(players, lo) == ActiveSeatsFrom(players, lo + 1) + {lo};
      }
    }
  }

  predicate HasActive(players: seq<Player>) {
    exists j :: 0 <= j < |players| && !players[j].finished
  }

  predicate AllFinished(players: seq<Player>) {
    forall j :: 0 <= j < |players| ==> players[j].finished
  }

  lemma {:induction false} ActiveCountPositive(players: seq<Player>)
    ensures ActiveCount(players) > 0 <==> HasActive(players)
  {
    if |players| > 0 {
      ActiveCountPositive(players[1..]);
      if HasActive(players[1..]) {
        var j :| 0 <= j < |players[1..]| && !players[1..][j].finished;
        assert !players[j + 1].finished;
      }
      if HasActive(players) && players[0].finished {
        var j :| 0 <= j < |players| && !players[j].finished;
        assert !players[1..][j - 1].finished;
      }
    }
  }

  /** With nobody out, every seat counts. */
  lemma {:induction false} ActiveCountNoneFinished(players: seq<Player>)
    requires forall i :: 0 <= i < |players| ==> !players[i].finished
    ensures ActiveCount(players) == |players|
  {
    if |players| > 0 {
      ActiveCountNoneFinished(players[1..]);
    }
  }

  /** Changing one seat changes the count by that seat's change alone. */
  lemma {:induction false} ActiveCountUpdate(players: seq<Player>, i: nat, p: Player)
    requires i < |players|
    ensures ActiveCount(players[i := p]) ==
            ActiveCount(players) - (if players[i].finished then 0 else 1) + (if p.finished then 0 else 1)
  {
    if i > 0 {
      ActiveCountUpdate(players[1..], i - 1, p);
      assert players[i := p][1..] == players[1..][i - 1 := p];
    } else {
      assert players[i := p][1..] == players[1..];
    }
  }

  /** The count depends only on the finished flags. */
  lemma {:induction false} ActiveCountSameFlags(a: seq<Player>, b: seq<Player>)
    requires |a| == |b|
    requires forall j :: 0 <= j < |a| ==> a[j].finished == b[j].finished
    ensures ActiveCount(a) == ActiveCount(b)
  {
    if |a| > 0 {
      ActiveCountSameFlags(a[1..], b[1..]);
    }
  }

  /** With two or more seats unfinished, some seat other than `i` is unfinished. */
  lemma ActiveOther(players: seq<Player>, i: nat)
    requires i < |players| && ActiveCount(players) >= 2
    ensures exists j :: 0 <= j < |players| && j != i && !players[j].finished
  {
    var q := players[i := players[i].(finished := true)];
    ActiveCountUpdate(players, i, q[i]);
    ActiveCountPositive(q);
    var j :| 0 <= j < |q| && !q[j].finished;
    assert j != i && !players[j].finished;
  }

  // ---------------------------------------------------------------------------
  // Turn order.

  /** Seat `j` is passed over when walking forward (wrapping) from `a` to `b`;
      when `b == a` the walk goes all the way round. */
  predicate CyclicallyBetween(a: nat, j: nat, b: nat) {
    if a < b then a < j < b else a < j || j < b
  }

  /** The walk of `getNextAlive(idx)`: the first unfinished seat after `idx`,
      wrapping round and ending at `idx` itself. When every seat is finished the
      source loop never stops; this walk then stops back at `idx`. */
  function WalkToUnfinished(players: seq<Player>, idx: nat): (r: nat)
    requires idx < |players|
    ensures r < |players|
    ensures players[r].finished ==> AllFinished(players)
    ensures forall j :: 0 <= j < |players| && CyclicallyBetween(idx, j, r) ==> players[j].finished
  {
    var unfinished := (p: Player) => !p.finished;
    var after := FirstWhere(players[idx + 1..], unfinished);
    if after.Some? then
      assert forall j :: idx < j < idx + 1 + after.value ==> players[idx + 1..][j - idx - 1] == players[j];
      idx + 1 + after.value
    else
      assert forall j :: idx < j < |players| ==> players[idx + 1..][j - idx - 1] == players[j];
      var before := FirstWhere(players[..idx + 1], unfinished);
      assert forall j :: 0 <= j <= idx ==> players[..idx + 1][j] == players[j];
      if before.Some? then before.value else idx
  }

  /** `getNextAlive(idx)` where it terminates: some seat is unfinished. It lands
      on an unfinished seat, and every seat it skips is finished. */
  function NextAlive(players: seq<Player>, idx: nat): (r: nat)
    requires idx < |players|
    requires HasActive(players)
    ensures r < |players| && !players[r].finished
    ensures forall j :: 0 <= j < |players| && CyclicallyBetween(idx, j, r) ==> players[j].finished
  {
    WalkToUnfinished(players, idx)
  }

  /** With another seat unfinished, the next turn goes to a different seat. */
  lemma NextAliveMoves(players: seq<Player>, idx: nat)
    requires idx < |players|
    requires exists j :: 0 <= j < |players| && j != idx && !players[j].finished
    ensures HasActive(players) && NextAlive(players, idx) != idx
  {
    var j :| 0 <= j < |players| && j != idx && !players[j].finished;
    var r := NextAlive(players, idx);
    assert !CyclicallyBetween(idx, j, r);
  }

  // ---------------------------------------------------------------------------
  // Game state invariants.

  /** `isGameOver()`: a started room with at most one unfinished seat. */
  predicate IsGameOver(room: Room) {
    room.started && ActiveCount(room.players) <= 1
  }

  /** While a game runs, two or more seats are unfinished and the turn is on
      one of them. */
  predicate TurnValid(room: Room) {
    room.started ==>
      && room.currentTurn < |room.players|
      && ActiveCount(room.players) >= 2
      && !room.players[room.currentTurn].finished
  }

  /** Everything the model relies on between two messages. */
  predicate Invariant(room: Room) {
    Wf(room) && TurnValid(room) && NamesUnique(room.players)
  }

  /** A room satisfying the invariant is never in the game-over state. */
  lemma InvariantNotGameOver(room: Room)
    requires TurnValid(room)
    ensures !IsGameOver(room)
  {
  }
}

=== FILE: seats.dfy ===
/** Seats of a room: the `Player` record, name lookup, `addPlayer` and
    `fillNPCPlayers` (server/GameRoom.js). */
module Seats {
  import opened Wrappers
  import opened Sequences
  import opened Cards

  /** An opaque identity for one live WebSocket connection. */
  type ConnId = nat

  /** End-of-game titles: 大富豪, 富豪, 平民, 貧民, 大貧民, and '' before any game ends. */
  datatype Title = Untitled | Daifugo | Fugo | Heimin | Hinmin | Daihinmin

  /** One seat. `conn` is the socket bound to the seat, `connected` the flag the
      source keeps beside it; bots are created with neither. */
  datatype Player = Player(
    name: string,
    conn: Option<ConnId>,
    connected: bool,
    isNpc: bool,
    hand: seq<Card>,
    finished: bool,
    title: Title)

  /** The number of seats `startGame` tops a room up to with bots. */
  const SeatTarget: nat := 4

  /** `new Player(name, conn, isNPC)`: connected exactly when a socket is given. */
  function NewPlayer(name: string, conn: Option<ConnId>, isNpc: bool): Player {
    Player(name, conn, conn.Some?, isNpc, [], false, Untitled)
  }

  predicate NameTaken(players: seq<Player>, name: string) {
    exists i :: 0 <= i < |players| && players[i].name == name
  }

  /** Seat names are pairwise different. */
  predicate NamesUnique(players: seq<Player>) {
    forall i, j :: 0 <= i < j < |players| ==> players[i].name != players[j].name
  }

  /** `getPlayer(name)`: the first seat with that name. */
  function FindPlayer(players: seq<Player>, name: string): (r: Option<nat>)
    ensures r.Some? <==> NameTaken(players, name)
    ensures r.Some? ==> r.value < |players| && players[r.value].name == name
    ensures r.Some? ==> forall k :: 0 <= k < r.value ==> players[k].name != name
  {
    FirstWhere(players, (p: Player) => p.name == name)
  }

  /** With unique names, the seat found is the only seat with that name. */
  lemma FindPlayerUnique(players: seq<Player>, name: string, i: nat)
    requires NamesUnique(players)
    requires i < |players| && players[i].name == name
    ensures FindPlayer(players, name) == Some(i)
  {
  }

  /** Seats that carry the same names in the same order are unique together. */
  lemma SameNamesKeepUnique(a: seq<Player>, b: seq<Player>)
    requires |a| == |b| && NamesUnique(a)
    requires forall i :: 0 <= i < |a| ==> a[i].name == b[i].name
    ensures NamesUnique(b)
  {
  }

  /** `getPlayer` reads names only: seats with the same names in the same order
      give the same answer. */
  lemma FindPlayerSameNames(a: seq<Player>, b: seq<Player>, name: string)
    requires |a| == |b|
    requires forall i :: 0 <= i < |a| ==> a[i].name == b[i].name
    ensures FindPlayer(a, name) == FindPlayer(b, name)
  {
    var ra, rb := FindPlayer(a, name), FindPlayer(b, name);
    if ra.Some? {
      assert b[ra.value].name == name;
    }
    if rb.Some? {
      assert a[rb.value].name == name;
    }
  }

  /** What `addPlayer` reports. */
  datatype AddOutcome =
    | NameConnected   // `{ok: false}`: a connected seat already has the name
    | Reconnected     // `{ok: true, reconnect: true}`
    | Seated          // `{ok: true, reconnect: false}`

  /** `addPlayer(name, conn)`: refuse a name held by a connected seat, rebind a
      disconnected seat of that name to the new socket (and make it human), or
      append a new human seat. */
  function AddPlayer(players: seq<Player>, name: string, conn: ConnId): (r: (seq<Player>, AddOutcome))
    // a connected seat keeps its name: nothing changes
    ensures (NameTaken(players, name) && players[FindPlayer(players, name).value].connected)
            <==> r.1 == NameConnected
    ensures r.1 == NameConnected ==> r.0 == players
    // a disconnected seat is taken over in place
    ensures r.1 == Reconnected ==> NameTaken(players, name)
    ensures r.1 == Reconnected ==>
      var k := FindPlayer(players, name).value;
      && |r.0| == |players|
      && (forall j :: 0 <= j < |players| && j != k ==> r.0[j] == players[j])
      && r.0[k].name == name && r.0[k].conn == Some(conn) && r.0[k].connected && !r.0[k].isNpc
      && r.0[k].hand == players[k].hand && r.0[k].finished == players[k].finished
      && r.0[k].title == players[k].title
    // an unknown name gets exactly one new seat, at the end
    ensures !NameTaken(players, name) <==> r.1 == Seated
    ensures r.1 == Seated ==>
      && |r.0| == |players| + 1 && r.0[..|players|] == players
      && r.0[|players|] == NewPlayer(name, Some(conn), false)
  {
    match FindPlayer(players, name)
    case Some(k) =>
      if players[k].connected then (players, NameConnected)
      else (players[k := players[k].(conn := Some(conn), connected := true, isNpc := false)], Reconnected)
    case None =>
      (players + [NewPlayer(name, Some(conn), false)], Seated)
  }

  /** Joining never creates two seats with one name. */
  lemma AddPlayerKeepsNamesUnique(players: seq<Player>, name: string, conn: ConnId)
    requires NamesUnique(players)
    ensures NamesUnique(AddPlayer(players, name, conn).0)
  {
  }

  /** The bot name `NPC<k>` for seat index k. */
  function NpcName(k: nat): string {
    "NPC" + NatToDecimal(k)
  }

  lemma NpcNameInjective(a: nat, b: nat)
    requires a < 10 && b < 10
    ensures NpcName(a) == NpcName(b) <==> a == b
  {
    if NpcName(a) == NpcName(b) {
      assert NpcName(a)[3] == NpcName(b)[3];
    }
  }

  /** `fillNPCPlayers`: while fewer than four seats, append a bot named after the
      seat count. When that name is already taken the source loop never ends;
      that outcome is `None`. */
  function FillNpcPlayers(players: seq<Player>): (r: Option<seq<Player>>)
    ensures r.Some? ==> |r.value| == if |players| < SeatTarget then SeatTarget else |players|
    ensures r.Some? ==> r.value[..|players|] == players
    ensures r.Some? ==> forall k :: |players| <= k < |r.value| ==> r.value[k] == NewPlayer(NpcName(k), None, true)
    decreases SeatTarget - |players|
  {
    if |players| >= SeatTarget then Some(players)
    else if FindPlayer(players, NpcName(|players|)).Some? then None
    else
      var next := players + [NewPlayer(NpcName(|players|), None, true)];
      match FillNpcPlayers(next)
      case None => None
      case Some(filled) =>
        assert filled[..|players|] == next[..|players|];
        Some(filled)
  }

  /** The loop of `fillNPCPlayers` runs forever exactly when one of the bot names
      it will try is already a seat's name. */
  lemma {:induction false} FillNpcHangsIff(players: seq<Player>)
    ensures FillNpcPlayers(players).None? <==>
            exists k :: |players| <= k < SeatTarget && NameTaken(players, NpcName(k))
    decreases SeatTarget - |players|
  {
    if |players| < SeatTarget && FindPlayer(players, NpcName(|players|)).None? {
      var next := players + [NewPlayer(NpcName(|players|), None, true)];
      FillNpcHangsIff(next);
      NextBotKeepsLaterNames(players);
    }
  }

  /** Seating the next bot takes no later bot's name. */
  lemma NextBotKeepsLaterNames(players: seq<Player>)
    requires |players| < SeatTarget
    ensures var next := players + [NewPlayer(NpcName(|players|), None, true)];
      forall k :: |next| <= k < SeatTarget ==> (NameTaken(next, NpcName(k)) <==> NameTaken(players, NpcName(k)))
  {
    var next := players + [NewPlayer(NpcName(|players|), None, true)];
    forall k | |next| <= k < SeatTarget
      ensures NameTaken(next, NpcName(k)) <==> NameTaken(players, NpcName(k))
    {
      NpcNameInjective(k, |players|);
      if NameTaken(next, NpcName(k)) {
        var i :| 0 <= i < |next| && next[i].name == NpcName(k);
        assert i < |players|;
      }
      if NameTaken(players, NpcName(k)) {
        var i :| 0 <= i < |players| && players[i].name == NpcName(k);
        assert next[i].name == NpcName(k);
      }
    }
  }

  /** Filling with bots keeps seat names unique. */
  lemma {:induction false} FillNpcKeepsNamesUnique(players: seq<Player>)
    requires NamesUnique(players)
    requires FillNpcPlayers(players).Some?
    ensures NamesUnique(FillNpcPlayers(players).value)
    decreases SeatTarget - |players|
  {
    if |players| < SeatTarget {
      var next := players + [NewPlayer(NpcName(|players|), None, true)];
      FillNpcKeepsNamesUnique(next);
    }
  }
}

=== FILE: sequences.dfy ===
/** Sequence helpers shared by the card and seat modules: first-match search,
    distinctness, and the stable ascending sort that JavaScript's
    `Array.prototype.sort` performs when given a numeric comparator
    `(a, b) => key(a) - key(b)`. */
module Sequences {
  import opened Wrappers

  /** The index of the first element satisfying `p`: JavaScript's `findIndex`,
      with `None` for -1 (and `find`, when the caller then reads `s[index]`). */
  function FirstWhere<T>(s: seq<T>, p: T -> bool): (r: Option<nat>)
    ensures r.Some? ==> r.value < |s| && p(s[r.value])
    ensures r.Some? ==> forall k :: 0 <= k < r.value ==> !p(s[k])
    ensures r.None? ==> forall k :: 0 <= k < |s| ==> !p(s[k])
  {
    if |s| == 0 then None
    else if p(s[0]) then Some(0)
    else match FirstWhere(s[1..], p)
      case None => None
      case Some(k) => Some(k + 1)
  }

  /** No element occurs twice. */
  predicate Distinct<T(==)>(s: seq<T>) {
    forall i, j :: 0 <= i < j < |s| ==> s[i] != s[j]
  }

  /** Keys never decrease along the sequence. */
  predicate SortedBy<T>(s: seq<T>, key: T -> int) {
    forall i, j :: 0 <= i < j < |s| ==> key(s[i]) <= key(s[j])
  }

  /** Keys ascend, and equal keys keep the elements in ascending order:
      the order a stable sort produces from an ascending list of indices. */
  predicate LexSorted(s: seq<nat>, key: nat -> int) {
    forall i, j :: 0 <= i < j < |s| ==>
      key(s[i]) < key(s[j]) || (key(s[i]) == key(s[j]) && s[i] < s[j])
  }

  predicate StrictlyIncreasing(s: seq<nat>) {
    forall i, j :: 0 <= i < j < |s| ==> s[i] < s[j]
  }

  /** The indices lo, lo+1, ..., hi-1. */
  function Range(lo: nat, hi: nat): (r: seq<nat>)
    requires lo <= hi
    ensures |r| == hi - lo
    ensures forall i :: 0 <= i < |r| ==> r[i] == lo + i
  {
    seq(hi - lo, i requires 0 <= i < hi - lo => lo + i)
  }

  /** Places `x` in front of the first element whose key is not below x's key,
      so `x` stays ahead of every later element with an equal key. */
  function InsertBy<T>(x: T, s: seq<T>, key: T -> int): (r: seq<T>)
    requires SortedBy(s, key)
    ensures |r| == |s| + 1
    ensures multiset(r) == multiset(s) + multiset{x}
    ensures SortedBy(r, key)
  {
    if |s| == 0 || key(x) <= key(s[0]) then [x] + s
    else
      assert s == [s[0]] + s[1..];
      var rest := InsertBy(x, s[1..], key);
      assert forall k :: 0 <= k < |rest| ==> key(s[0]) <= key(rest[k]) by {
        forall k | 0 <= k < |rest| ensures key(s[0]) <= key(rest[k]) {
          assert rest[k] in multiset(rest);
          if rest[k] != x {
            assert rest[k] in s[1..];
          }
        }
      }
      [s[0]] + rest
  }

  /** Stable insertion sort by ascending key. */
  function SortBy<T>(s: seq<T>, key: T -> int): (r: seq<T>)
    ensures |r| == |s|
    ensures multiset(r) == multiset(s)
    ensures SortedBy(r, key)
  {
    if |s| == 0 then []
    else
      assert s == [s[0]] + s[1..];
      InsertBy(s[0], SortBy(s[1..], key), key)
  }

  lemma {:induction false} InsertByKeepsLex(x: nat, s: seq<nat>, key: nat -> int)
    requires LexSorted(s, key)
    requires SortedBy(s, key)
    requires forall y :: y in s ==> x < y
    ensures LexSorted(InsertBy(x, s, key), key)
  {
    if |s| == 0 || key(x) <= key(s[0]) {
      forall y | y in s ensures key(x) < key(y) || (key(x) == key(y) && x < y) {
        var k :| 0 <= k < |s| && s[k] == y;
        assert key(s[0]) <= key(s[k]);
      }
      LexCons(x, s, key);
    } else {
      var tail := s[1..];
      assert forall k :: 0 <= k < |tail| ==> tail[k] == s[k + 1];
      assert forall y :: y in tail ==> y in s;
      var rest := InsertBy(x, tail, key);
      assert InsertBy(x, s, key) == [s[0]] + rest;
      InsertByKeepsLex(x, tail, key);
      forall y | y in rest ensures key(s[0]) < key(y) || (key(s[0]) == key(y) && s[0] < y) {
        assert y in multiset(rest);
        if y != x {
          assert y in multiset(tail);
          var k :| 0 <= k < |tail| && tail[k] == y;
          assert s[k + 1] == y;
        }
      }
      LexCons(s[0], rest, key);
    }
  }

  /** An element that ranks before everything in a lex-sorted list can lead it. */
  lemma LexCons(h: nat, t: seq<nat>, key: nat -> int)
    requires LexSorted(t, key)
    requires forall y :: y in t ==> key(h) < key(y) || (key(h) == key(y) && h < y)
    ensures LexSorted([h] + t, key)
  {
    var r := [h] + t;
    forall i, j | 0 <= i < j < |r|
      ensures key(r[i]) < key(r[j]) || (key(r[i]) == key(r[j]) && r[i] < r[j])
    {
      assert r[j] == t[j - 1] && r[j] in t;
      if i > 0 {
        assert r[i] == t[i - 1];
      }
    }
  }

  /** Sorting an ascending list of indices by key yields keys ascending with
      ties broken by the smaller index: the sort is stable. */
  lemma {:induction false} SortIndicesIsLex(s: seq<nat>, key: nat -> int)
    requires StrictlyIncreasing(s)
    ensures LexSorted(SortBy(s, key), key)
  {
    if |s| > 0 {
      assert s == [s[0]] + s[1..];
      var t := SortBy(s[1..], key);
      SortIndicesIsLex(s[1..], key);
      forall y | y in t ensures s[0] < y {
        assert y in multiset(s[1..]);
        var k :| 0 <= k < |s[1..]| && s[1..][k] == y;
      }
      InsertByKeepsLex(s[0], t, key);
    }
  }

  /** A strictly increasing list of `|s|` numbers below `|s|` is 0, 1, 2, ... */
  lemma {:induction false} IncreasingBelowLengthIsRange(s: seq<nat>)
    requires StrictlyIncreasing(s)
    requires forall p :: 0 <= p < |s| ==> s[p] < |s|
    ensures forall p :: 0 <= p < |s| ==> s[p] == p
  {
    if |s| > 0 {
      var n := |s| - 1;
      var t := s[..n];
      assert forall p :: 0 <= p < n ==> t[p] == s[p] && s[p] < s[n];
      IncreasingBelowLengthIsRange(t);
      assert n == 0 || s[n - 1] == n - 1;
    }
  }

  /** Two equal elements at different positions count twice. */
  lemma TwoCopies<T>(s: seq<T>, i: nat, j: nat)
    requires i < j < |s| && s[i] == s[j]
    ensures multiset(s)[s[i]] >= 2
  {
    var x := s[i];
    assert multiset(s[..j])[x] >= 1 by { assert s[..j][i] == x; }
    assert s == s[..j] + [s[j]] + s[j + 1..];
  }

  /** A sequence in which nothing occurs twice is distinct. */
  lemma AtMostOnceIsDistinct<T>(s: seq<T>)
    requires forall x :: multiset(s)[x] <= 1
    ensures Distinct(s)
  {
    forall i, j | 0 <= i < j < |s| ensures s[i] != s[j] {
      if s[i] == s[j] {
        TwoCopies(s, i, j);
      }
    }
  }

  /** A sequence that is a rearrangement of a distinct sequence is distinct. */
  lemma PermutationKeepsDistinct<T>(s: seq<T>, t: seq<T>)
    requires multiset(s) == multiset(t)
    requires Distinct(s)
    ensures Distinct(t)
  {
    forall x ensures multiset(t)[x] <= 1 {
      DistinctCountsOnce(s, x);
    }
    AtMostOnceIsDistinct(t);
  }

  lemma {:induction false} DistinctCountsOnce<T>(s: seq<T>, x: T)
    requires Distinct(s)
    ensures multiset(s)[x] <= 1
  {
    if |s| > 0 {
      assert s == [s[0]] + s[1..];
      DistinctCountsOnce(s[1..], x);
      if s[0] == x {
        assert x !in s[1..];
      }
    }
  }
}

=== FILE: snapshot.dfy ===
/** What clients see of a room (server/GameRoom.js `buildState`,
    `broadcastState`, `sendStateToPlayer`): one public snapshot, plus each
    connected seat's own hand. The JSON text is left to the transport; the
    snapshot is its structured content. */
module Snapshot {
  import opened Wrappers
  import opened Cards
  import opened Seats
  import opened Rooms
  import opened Play
  import opened Passing

  /** `type: 'final'` when the room is in the game-over state, `'update'` otherwise. */
  datatype Kind = Update | Final

  /** One seat as every client sees it: the hand only as a count; bots always
      show as connected. */
  datatype SeatView = SeatView(name: string, cardsCount: nat, finished: bool, connected: bool)

  /** One `ranking` entry. */
  datatype TitleView = TitleView(name: string, title: Title)

  /** `lastMove`: `move` is `"play"` or `"pass"`; a pass carries no cards. */
  datatype MoveView = MoveView(player: string, move: string, cards: Option<seq<string>>, special: Option<string>)

  datatype State = State(
    kind: Kind,
    roomId: string,
    started: bool,
    gameOver: bool,
    players: seq<SeatView>,
    field: seq<string>,
    currentTurn: Option<string>,
    revolution: bool,
    ranking: Option<seq<TitleView>>,
    lastMove: Option<MoveView>)

  /** One message sent on socket `to`. */
  datatype Message = Message(to: ConnId, state: State, yourHand: seq<string>)

  // ---------------------------------------------------------------------------
  // Labels.

  /** `cards.map(c => c.toString())`. */
  function Labels(cards: seq<Card>): (r: seq<string>)
    ensures |r| == |cards| && forall i :: 0 <= i < |cards| ==> r[i] == CardLabel(cards[i])
  {
    seq(|cards|, i requires 0 <= i < |cards| => CardLabel(cards[i]))
  }

  /** Distinct deck cards have distinct labels, so a hand's labels say exactly
      which cards it holds. */
  lemma CardLabelInjective(a: Card, b: Card)
    requires IsDeckCard(a) && IsDeckCard(b)
    ensures CardLabel(a) == CardLabel(b) <==> a == b
  {
    if CardLabel(a) == CardLabel(b) {
      assert a.IsJoker() == b.IsJoker() by {
        assert CardLabel(a)[0] == CardLabel(b)[0];
      }
      if !a.IsJoker() {
        assert CardLabel(a)[0] == CardLabel(b)[0];
        SuitSymbolInjective(a.suit, b.suit);
        assert CardLabel(a)[1..] == RankToLabel(a.rank);
        assert CardLabel(b)[1..] == RankToLabel(b.rank);
        LabelRoundTrip(a.rank);
        LabelRoundTrip(b.rank);
      }
    }
  }

  // ---------------------------------------------------------------------------
  // The move description.

  const EightCutText: string := "8切り"
  const RevolutionText: string := "革命"
  const FlushText: string := "場流し"
  const Joiner: string := "・"

  /** The `special` of a play: `8切り`, `革命`, both joined by `・`, or null. */
  function PlaySpecial(eightCut: bool, revolution: bool): Option<string> {
    if eightCut && revolution then Some(EightCutText + Joiner + RevolutionText)
    else if eightCut then Some(EightCutText)
    else if revolution then Some(RevolutionText)
    else None
  }

  /** Reading the effects back from a play's `special`. */
  function PlayEffects(special: Option<string>): (bool, bool) {
    match special
    case None => (false, false)
    case Some(s) =>
      if s == EightCutText + Joiner + RevolutionText then (true, true)
      else if s == EightCutText then (true, false)
      else if s == RevolutionText then (false, true)
      else (false, false)
  }

  /** A play's `special` names exactly the effects that fired. */
  lemma PlaySpecialRoundTrip(eightCut: bool, revolution: bool)
    ensures PlayEffects(PlaySpecial(eightCut, revolution)) == (eightCut, revolution)
    ensures PlaySpecial(eightCut, revolution).Some? <==> eightCut || revolution
  {
    assert EightCutText != RevolutionText by { assert EightCutText[0] != RevolutionText[0]; }
    assert EightCutText + Joiner + RevolutionText != EightCutText by {
      assert |EightCutText + Joiner + RevolutionText| != |EightCutText|;
    }
    assert EightCutText + Joiner + RevolutionText != RevolutionText by {
      assert (EightCutText + Joiner + RevolutionText)[0] != RevolutionText[0];
    }
  }

  /** `lastMoveInfo` as sent: cards become labels; a flushing pass says `場流し`. */
  function ViewMove(m: MoveInfo): (r: MoveView)
    ensures r.player == m.player
    ensures r.move == "play" <==> m.PlayMove?
    ensures m.PlayMove? ==> r.cards == Some(Labels(m.cards))
                            && PlayEffects(r.special) == (m.eightCut, m.revolution)
    ensures m.PassMove? ==> r.cards.None? && (r.special.Some? <==> m.flushed)
  {
    match m
    case PlayMove(player, cards, eightCut, revolution) =>
      PlaySpecialRoundTrip(eightCut, revolution);
      MoveView(player, "play", Some(Labels(cards)), PlaySpecial(eightCut, revolution))
    case PassMove(player, flushed) =>
      MoveView(player, "pass", None, if flushed then Some(FlushText) else None)
  }

  // ---------------------------------------------------------------------------
  // buildState.

  function ViewSeat(p: Player): SeatView {
    SeatView(p.name, |p.hand|, p.finished, p.connected || p.isNpc)
  }

  function ViewSeats(players: seq<Player>): (r: seq<SeatView>)
    ensures |r| == |players| && forall i :: 0 <= i < |players| ==> r[i] == ViewSeat(players[i])
  {
    seq(|players|, i requires 0 <= i < |players| => ViewSeat(players[i]))
  }

  function ViewTitles(players: seq<Player>): (r: seq<TitleView>)
    ensures |r| == |players|
    ensures forall i :: 0 <= i < |players| ==> r[i] == TitleView(players[i].name, players[i].title)
  {
    seq(|players|, i requires 0 <= i < |players| => TitleView(players[i].name, players[i].title))
  }

  /** `buildState()`. Reading `this.players[this.currentTurn].name` needs the turn
      pointer to name a seat while a game runs. */
  function BuildState(room: Room): (r: State)
    requires TurnInRange(room)
    ensures r.kind == Final <==> IsGameOver(room)
    ensures r.gameOver == IsGameOver(room) && (r.ranking.Some? <==> IsGameOver(room))
    ensures r.currentTurn.Some? <==> room.started
    ensures room.started ==> r.currentTurn == Some(room.players[room.currentTurn].name)
    ensures r.roomId == room.roomId && r.started == room.started && r.revolution == room.revolution
    ensures |r.players| == |room.players|
    ensures forall i :: 0 <= i < |room.players| ==>
      var p := room.players[i];
      r.players[i] == SeatView(p.name, |p.hand|, p.finished, p.connected || p.isNpc)
    ensures r.field == Labels(room.lastPlayedCards)
    ensures r.ranking.Some? ==>
      && |r.ranking.value| == |room.players|
      && forall i :: 0 <= i < |room.players| ==> r.ranking.value[i] == TitleView(room.players[i].name, room.players[i].title)
    ensures r.lastMove.Some? <==> room.lastMove.Some?
    ensures room.lastMove.Some? ==> r.lastMove == Some(ViewMove(room.lastMove.value))
  {
    var over := IsGameOver(room);
    State(
      if over then Final else Update,
      room.roomId,
      room.started,
      over,
      ViewSeats(room.players),
      Labels(room.lastPlayedCards),
      if room.started then Some(room.players[room.currentTurn].name) else None,
      room.revolution,
      if over then Some(ViewTitles(room.players)) else None,
      if room.lastMove.Some? then Some(ViewMove(room.lastMove.value)) else None)
  }

  /** Two rooms that differ only in what the seats hold, hand for hand of the same
      size, give the same public snapshot: no hand leaks into it. */
  lemma SnapshotHidesHands(a: Room, b: Room)
    requires TurnInRange(a)
    requires |a.players| == |b.players|
    requires forall i :: 0 <= i < |a.players| ==>
      a.players[i] == b.players[i].(hand := a.players[i].hand) && |a.players[i].hand| == |b.players[i].hand|
    requires a == b.(players := a.players)
    ensures TurnInRange(b) && BuildState(a) == BuildState(b)
  {
    ActiveCountSameFlags(a.players, b.players);
    assert ViewSeats(a.players) == ViewSeats(b.players);
    assert ViewTitles(a.players) == ViewTitles(b.players);
  }

  /** A room that keeps the invariants is reported as an ordinary update. */
  lemma InvariantSnapshotIsUpdate(room: Room)
    requires Invariant(room)
    ensures TurnInRange(room) && BuildState(room).kind == Update && BuildState(room).ranking.None?
  {
  }

  /** After any accepted play the room is not in the game-over state: a play that
      ends the game has already run `endGame`, which stops the game. So the
      snapshot sent is an `update` and its ranking is null; the titles of a
      finished game are never broadcast. */
  lemma AcceptedPlayNeverFinal(room: Room, name: string, descs: seq<Descriptor>)
    requires TurnInRange(room)
    requires TryPlay(room, name, descs).Success?
    ensures var g := TryPlay(room, name, descs).value;
      TurnInRange(g) && BuildState(g).kind == Update && BuildState(g).ranking.None?
  {
    var k, ks, played, placed := TryPlaySuccess(room, name, descs);
    var g := TryPlay(room, name, descs).value;
    if !IsGameOver(placed) {
      assert g.players == placed.players;
    }
  }

  /** The same holds after any accepted pass. */
  lemma AcceptedPassNeverFinal(room: Room, name: string)
    requires TurnInRange(room) && OwnerInRange(room)
    requires TryPass(room, name).Success?
    ensures var g := TryPass(room, name).value;
      TurnInRange(g) && BuildState(g).kind == Update && BuildState(g).ranking.None?
  {
    PassEndsGameIff(room, name);
    PassTurn(room, name);
  }

  // ---------------------------------------------------------------------------
  // broadcastState / sendStateToPlayer.

  /** The seat has a live socket the server will write to. */
  predicate Reachable(p: Player) {
    p.conn.Some? && p.connected
  }

  /** The messages for seats `players`, in seat order: the shared snapshot plus
      the seat's own hand. */
  function SendToSeats(players: seq<Player>, st: State): (r: seq<Message>)
    ensures forall m :: m in r ==> m.state == st
    ensures forall m :: m in r ==>
      exists i :: 0 <= i < |players| && Reachable(players[i])
        && m.to == players[i].conn.value && m.yourHand == Labels(players[i].hand)
    ensures forall i :: 0 <= i < |players| && Reachable(players[i]) ==>
      Message(players[i].conn.value, st, Labels(players[i].hand)) in r
    ensures |r| <= |players|
  {
    if |players| == 0 then []
    else
      var rest := SendToSeats(players[1..], st);
      assert forall i :: 1 <= i < |players| ==> players[1..][i - 1] == players[i];
      if Reachable(players[0]) then [Message(players[0].conn.value, st, Labels(players[0].hand))] + rest
      else rest
  }

  /** `broadcastState()`: every seat with a live socket gets the snapshot and its
      own hand, and no socket gets anyone else's hand. */
  function Broadcast(room: Room): (r: seq<Message>)
    requires TurnInRange(room)
    ensures forall m :: m in r ==> m.state == BuildState(room)
    ensures forall i :: 0 <= i < |room.players| && Reachable(room.players[i]) ==>
      Message(room.players[i].conn.value, BuildState(room), Labels(room.players[i].hand)) in r
    ensures forall m :: m in r ==>
      exists i :: 0 <= i < |room.players| && Reachable(room.players[i])
        && m.to == room.players[i].conn.value && m.yourHand == Labels(room.players[i].hand)
  {
    SendToSeats(room.players, BuildState(room))
  }

  /** `sendStateToPlayer(name)`: the first seat with that name, if it has a live
      socket. */
  function SendStateTo(room: Room, name: string): (r: Option<Message>)
    requires TurnInRange(room)
    ensures r.Some? <==> NameTaken(room.players, name) && Reachable(room.players[FindPlayer(room.players, name).value])
    ensures r.Some? ==>
      var p := room.players[FindPlayer(room.players, name).value];
      r.value == Message(p.conn.value, BuildState(room), Labels(p.hand))
  {
    match FindPlayer(room.players, name)
    case None => None
    case Some(k) =>
      var p := room.players[k];
      if Reachable(p) then Some(Message(p.conn.value, BuildState(room), Labels(p.hand))) else None
  }

  /** A direct send to a reachable seat is exactly the message the broadcast
      gives that seat. */
  lemma SendStateToIsBroadcastMessage(room: Room, name: string)
    requires TurnInRange(room)
    requires SendStateTo(room, name).Some?
    ensures SendStateTo(room, name).value in Broadcast(room)
  {
  }
}

=== FILE: validation.dfy ===
/** The checks a `join` message's fields go through (server/server.js): the
    room id must match `^[a-zA-Z0-9_-]+$` within 32 characters, the name
    `^[^\s\x00-\x1F\x7F]+$` within 16. JavaScript measures `length` in UTF-16
    code units, so a character outside the Basic Multilingual Plane counts
    twice. A field that is absent or not a string is `None`. */
module Validation {
  import opened Wrappers

  const MaxRoomIdLength: nat := 32
  const MaxNameLength: nat := 16

  /** `s.length`: one code unit per BMP character, a surrogate pair above. */
  function Utf16Length(s: string): (n: nat)
    ensures n >= |s|
  {
    if |s| == 0 then 0
    else (if s[0] as int >= 0x1_0000 then 2 else 1) + Utf16Length(s[1..])
  }

  /** A string of BMP characters is as long in code units as in characters. */
  lemma {:induction false} Utf16LengthBmp(s: string)
    requires forall i :: 0 <= i < |s| ==> s[i] as int < 0x1_0000
    ensures Utf16Length(s) == |s|
  {
    if |s| > 0 {
      Utf16LengthBmp(s[1..]);
    }
  }

  /** `[a-zA-Z0-9_-]`. */
  predicate RoomIdChar(ch: char) {
    ('a' <= ch <= 'z') || ('A' <= ch <= 'Z') || ('0' <= ch <= '9') || ch == '_' || ch == '-'
  }

  /** `\s` in a JavaScript regular expression: the ASCII blanks, NBSP, the
      Unicode space separators, the line and paragraph separators and the BOM. */
  predicate JsSpace(ch: char) {
    || ('\t' <= ch <= '\r') || ch == ' ' || ch == '\U{00A0}' || ch == '\U{1680}'
    || ('\U{2000}' <= ch <= '\U{200A}') || ch == '\U{2028}' || ch == '\U{2029}'
    || ch == '\U{202F}' || ch == '\U{205F}' || ch == '\U{3000}' || ch == '\U{FEFF}'
  }

  /** `[^\s\x00-\x1F\x7F]`. Surrogate halves of an astral character are in
      this class, so testing whole characters gives the same answer. */
  predicate NameChar(ch: char) {
    !JsSpace(ch) && ch as int > 0x1F && ch as int != 0x7F
  }

  /** `/^[c]+$/.test(s)` for a character class `c`: the first failing position, or
      `None` when every character is in the class. */
  function FirstOutside(s: string, inClass: char -> bool): (r: Option<nat>)
    ensures r.Some? ==> r.value < |s| && !inClass(s[r.value])
    ensures r.None? <==> forall i :: 0 <= i < |s| ==> inClass(s[i])
  {
    if |s| == 0 then None
    else if !inClass(s[0]) then Some(0)
    else match FirstOutside(s[1..], inClass)
      case None => None
      case Some(i) => Some(i + 1)
  }

  function MatchesPlus(s: string, inClass: char -> bool): bool {
    |s| > 0 && FirstOutside(s, inClass).None?
  }

  /** The room id check, in the order of the source's `||` chain: missing or
      empty, not a string, too long, or a character outside the class. */
  function RoomIdAccepted(v: Option<string>): (ok: bool)
    ensures ok ==> v.Some? && Utf16Length(v.value) == |v.value|
  {
    match v
    case None => false
    case Some(s) =>
      if |s| == 0 then false
      else if Utf16Length(s) > MaxRoomIdLength then false
      else if !MatchesPlus(s, RoomIdChar) then false
      else
        Utf16LengthBmp(s);
        true
  }

  /** The name check: missing or empty, not a string, too long in code units, or
      a whitespace or control character. */
  function NameAccepted(v: Option<string>): bool {
    match v
    case None => false
    case Some(s) =>
      if |s| == 0 then false
      else if Utf16Length(s) > MaxNameLength then false
      else MatchesPlus(s, NameChar)
  }

  /** A room id is accepted exactly when it is 1 to 32 characters, each a letter,
      a digit, `_` or `-`. */
  lemma RoomIdAcceptedIff(s: string)
    ensures RoomIdAccepted(Some(s)) <==>
      (0 < |s| <= MaxRoomIdLength && forall i :: 0 <= i < |s| ==> RoomIdChar(s[i]))
  {
    if forall i :: 0 <= i < |s| ==> RoomIdChar(s[i]) {
      Utf16LengthBmp(s);
    }
  }

  /** A name is accepted exactly when it is non-empty, at most 16 code units, and
      has no whitespace and no control character. */
  lemma NameAcceptedIff(s: string)
    ensures NameAccepted(Some(s)) <==>
      (0 < |s| && Utf16Length(s) <= MaxNameLength && forall i :: 0 <= i < |s| ==> NameChar(s[i]))
  {
  }

  /** A string of astral characters is twice as long in code units. */
  lemma {:induction false} Utf16LengthAstral(s: string)
    requires forall i :: 0 <= i < |s| ==> s[i] as int >= 0x1_0000
    ensures Utf16Length(s) == 2 * |s|
  {
    if |s| > 0 {
      Utf16LengthAstral(s[1..]);
    }
  }

  /** Sixteen plain letters make an acceptable name; seventeen are too long. */
  lemma NameLengthLimit()
    ensures NameAccepted(Some(seq(16, _ => 'A')))
    ensures !NameAccepted(Some(seq(17, _ => 'A')))
  {
    var sixteen: string := seq(16, _ => 'A');
    var seventeen: string := seq(17, _ => 'A');
    Utf16LengthBmp(sixteen);
    Utf16LengthBmp(seventeen);
    NameAcceptedIff(sixteen);
    assert forall i :: 0 <= i < |sixteen| ==> NameChar(sixteen[i]);
  }

  /** Each astral character uses up two of the 16 code units: eight emoji make an
      acceptable name, nine are too long although they are nine characters. */
  lemma NameLengthCountsCodeUnits()
    ensures NameAccepted(Some(seq(8, _ => '\U{1F600}')))
    ensures !NameAccepted(Some(seq(9, _ => '\U{1F600}')))
  {
    var eight: string := seq(8, _ => '\U{1F600}');
    var nine: string := seq(9, _ => '\U{1F600}');
    Utf16LengthAstral(eight);
    Utf16LengthAstral(nine);
    NameAcceptedIff(eight);
    assert forall i :: 0 <= i < |eight| ==> NameChar(eight[i]);
  }

  /** The literal text `undefined` passes the room id check: the key an unjoined
      connection's messages look up is a room any client can create. */
  lemma UndefinedIsARoomId()
    ensures RoomIdAccepted(Some("undefined"))
  {
    RoomIdAcceptedIff("undefined");
  }
}

=== FILE: wrappers.dfy ===
/** Option and Result, the failure-carrying datatypes the rest of the model returns
    in place of JavaScript's `null`/`undefined` and early `return`s. */
module Wrappers {

  /** `None` stands for JavaScript's `null` or `undefined`. */
  datatype Option<+T> = None | Some(value: T) {

    /** The value, or `default` when there is none (JavaScript's `x || default`
        for values that are never falsy). */
    function GetOr(default: T): T {
      match this
      case Some(v) => v
      case None => default
    }
  }

  /** A validation outcome: the validated value, or the reason it was refused. */
  datatype Result<+R, +E> = Success(value: R) | Failure(error: E)
}
